=== FILE: README.md ===
# Oneida: the game logic in Dafny

Oneida is an iOS music game. In its arcade mode, notes fall and a guitar catches those of the current target type. Its progress is saved in a `GameState` record. Coins earned in play buy instruments and backgrounds in a shop, and claimed achievements pay coins too. A gold coin caught in the arcade opens a three-question music quiz. Three mini-games stand beside the arcade:
- memory match;
- sequence recall;
- number guessing.

This project models the logic under the SwiftUI and SpriteKit layers. Each view-model method is a pure step function over an immutable record. Each model type is a datatype. The properties the code promises are stated as contracts and lemmas.

Three things become explicit inputs:
- **Time.** Time is counted in tenths of a second: 600 for the arcade round and 450 for memory match. Every timer fire is an explicit event, and so is every delayed `asyncAfter` body.
- **Randomness.** Every random choice is a parameter: the drawn index, or the list of draws a Fisher-Yates shuffle consumes (`Common.ValidDraws`).
- **Storage.** The key-value store is a value (`Progress.Store`).

One module per component:

| module | file | models |
|---|---|---|
| `Common` | common.dfy | optional values, duplicate-free lists, integer text and `Int(String)`, `split(separator:)`, Swift's shuffle |
| `NoteTypes` | note_type.dfy | `NoteType` |
| `Scene` | game_scene.dfy | `GameScene`: contact routing, node names, the active flag, catcher clamp, spawn ranges |
| `Arcade` | game_session.dfy | `GameViewModel`: score, lives, countdown, target rotation, pause, reset, end of game |
| `Progress` | game_state.dfy | `GameState`: defaults, level cap, load fallback |
| `App` | app.dfy | `AppViewModel`: coins, levels, victory/defeat bookkeeping, daily bonus, save |
| `Achievements` | achievements.dfy | `Achievement`, `AchievementViewModel` |
| `Shop` | shop.dfy | `ShopViewModel`, `InstrumentItem`, `BackgroundItem`, the `ShopItemView` button |
| `Memory` | memory_game.dfy | `MemoryGame`, `MemoryGameViewModel` |
| `Sequence` | sequence_game.dfy | `SequenceGame`, `SequenceGameViewModel` |
| `GuessNumber` | guess_number.dfy | `GuessNumberViewModel` |
| `Quiz` | music_quiz.dfy | `MusicQuiz`, `MusicQuizViewModel` |
| `MiniGames` | mini_game_type.dfy | `MiniGameType` |

Where the code and its comments or descriptions disagree, the model follows the code:
- **Lives.** The arcade starts with 3 lives.
- **Penalties.** Every missed note and every wrong note costs a life.
- **`didMissNote`.** The scene's delegate protocol declares `didMissNote(ofType:)`, while the view-model implements `didMissNote()`. A missed note is routed to the view-model's version.
- **Resume is never refused.** `togglePause(false)` has no overlay guard, and the app's `resumeGame()` and the end of the music quiz both call it. So resuming a finished game restarts it. A won game then reports victory again (`Arcade.ResumeAfterVictoryReportsAgain`). A lost game keeps losing lives below zero and reports defeat again (`Arcade.ResumeAfterDefeatLosesAgain`).
- **Next level past the cap.** The victory overlay calls `goToNextLevel()` without checking the cap, so winning level 15 moves play to level 16 (`App.NextLevelAfterVictory`).
- **Colour Maestro.** The achievement is unlocked by ten completed levels, not by its description.
- **Achievement telemetry.** The achievement rules read four counters the arcade view-model does not have. They are an input record (`Achievements.Telemetry`), which also carries the arcade session whose victory overlay the rules read.
- **Late match.** A match resolved after the memory clock ran out still turns the loss into a win (`Memory.LateMatchOverridesTimeout`).

## Model

| member | source | states |
|---|---|---|
| `Common.AppendIfAbsent` | Oneida/ViewModels/ShopViewModel.swift:46-52 | appending only when absent yields exactly the old elements plus the new one, keeps the old list as a prefix, and never introduces a duplicate |
| `Common.ParseInt` | Oneida/Scene/GameScene.swift:295 | `Int(String)` accepts a non-empty digit string as its decimal value and rejects the empty string |
| `Common.NatToStringRoundTrip` | Oneida/Scene/GameScene.swift:166 | the digits interpolation prints for a raw value read back as that value |
| `Common.IntToStringRoundTrip` | Oneida/ViewModels/GuessNumberViewModel.swift:33-39 | every integer interpolated into a message parses back to itself, negative ones included |
| `Common.SplitTwoPieces` | Oneida/Scene/GameScene.swift:294 | splitting `a-b` at '-' gives exactly the two pieces when neither holds a '-' |
| `Common.ShuffleFromPermutes` | Oneida/Models/MemoryGame.swift:84 | the swap loop of the shuffle only rearranges: every value keeps its multiplicity |
| `Common.Shuffle` | Oneida/Models/MemoryGame.swift:84 | a shuffle keeps the length, the multiset of elements and duplicate-freedom |
| `Common.ShuffledPrefix` | Oneida/Models/MusicQuiz.swift:76-77 | a prefix of a shuffled list has the asked length, holds only elements of the list, repeats none, and is a permutation when it is the whole list |
| `NoteTypes.RawValue` | Oneida/Models/NoteType.swift:10-16 | raw values index `allCases` in declaration order, and only `key` has raw value 0 |
| `NoteTypes.FromRawValue` | Oneida/Models/NoteType.swift:10-16 | `init(rawValue:)` succeeds exactly for 0...5 and inverts `rawValue` |
| `NoteTypes.RawValueRoundTrip` | Oneida/Models/NoteType.swift:11-16 | every case survives the raw-value round trip |
| `NoteTypes.RawValuesDistinct` | Oneida/Models/NoteType.swift:10-16 | `allCases` lists every case exactly once |
| `NoteTypes.Id` | Oneida/Models/NoteType.swift:18 | the id identifies the case: it converts back to it |
| `NoteTypes.ImageName` | Oneida/Models/NoteType.swift:31-40 | the treble key's image is `"key"` and every other note's is `"note"` followed by its raw value |
| `NoteTypes.Points` | Oneida/Models/NoteType.swift:53-55 | every note type is worth one point; what a catch adds to the score is stated by `Arcade.TargetScoresItsPoints` |
| `NoteTypes.ImageNameInjective` | Oneida/Models/NoteType.swift:31-40 | two cases share an image name only if they are the same case |
| `NoteTypes.ColorInjective` | Oneida/Models/NoteType.swift:42-51 | each case has a colour of its own |
| `NoteTypes.WithoutKey` | Oneida/Models/NoteType.swift:59 | filtering out `key` keeps exactly the non-key elements |
| `NoteTypes.Candidates` | Oneida/Models/NoteType.swift:58-60 | the pool holds every case the policy allows and no other, and is never empty |
| `NoteTypes.CandidatesSizes` | Oneida/Models/NoteType.swift:58-60 | the pool has 5 cases without the key and 6 with it |
| `NoteTypes.Random` | Oneida/Models/NoteType.swift:57-64 | a draw that excludes the key never yields `key` |
| `NoteTypes.RandomReachesEveryCandidate` | Oneida/Models/NoteType.swift:62-63 | every case the policy allows is produced by some draw, so with the key allowed any of the six can come |
| `Scene.Classify` | Oneida/Scene/GameScene.swift:268-288 | guitar+note is a catch, guitar+coin a coin and ground+note a miss, each exactly when the pair matches in either order, and the body acted on is the note (or coin) of the pair; every other pair is ignored |
| `Scene.ClassifySymmetric` | Oneida/Scene/GameScene.swift:272-286 | the order in which the two bodies are reported does not change the outcome |
| `Scene.ParseNodeName` | Oneida/Scene/GameScene.swift:294-295 | a name parses only if splitting it at '-' yields a second piece |
| `Scene.NodeName` | Oneida/Scene/GameScene.swift:166 | the name `"note-<rawValue>"` given to a spawned note parses back to that note's type |
| `Scene.CoinNameIsNoNote` | Oneida/Scene/GameScene.swift:189 | the coin's node name never parses as a note |
| `Scene.DidMove` | Oneida/Scene/GameScene.swift:44-56 | presenting the scene activates it without touching the physics pause |
| `Scene.Pause` | Oneida/Scene/GameScene.swift:113-120 | pausing deactivates the scene and freezes it |
| `Scene.Resume` | Oneida/Scene/GameScene.swift:99-127 | resuming activates and unfreezes the scene, and so does a reset, which also clears the falling objects |
| `Scene.PauseSilencesScene` | Oneida/Scene/GameScene.swift:99-137 | a paused scene reports no contact, ignores touches and spawns nothing; presenting or resuming the scene turns all three back on |
| `Scene.HandleContact` | Oneida/Scene/GameScene.swift:290-351 | an inactive scene reports nothing; a note event is reported exactly when the contact is a catch (or miss) whose note has a parsable name; a coin event exactly for an active coin contact |
| `Scene.CatchReportsSpawnedType` | Oneida/Scene/GameScene.swift:290-304 | a spawned note meeting the catcher, in either body order, reports its own type as caught |
| `Scene.MissReportsSpawnedType` | Oneida/Scene/GameScene.swift:336-351 | a spawned note reaching the ground, in either body order, reports its own type as missed |
| `Scene.MoveGuitar` | Oneida/Scene/GameScene.swift:253-264 | touches move the catcher only while active, to the touch x clamped into [half width, width - half width] |
| `Scene.SpawnX` | Oneida/Scene/GameScene.swift:168-172 | a spawn x lies in [margin + half, width - margin - half], and there is none when that range is empty |
| `Scene.SpawnXCoversRange` | Oneida/Scene/GameScene.swift:172 | every x of the spawn range is reachable by some draw |
| `Scene.SpawnNoteType` | Oneida/Scene/GameScene.swift:150-153 | the spawned note is the key exactly when the 0...9 roll is 0 |
| `Scene.SpawnTick` | Oneida/Scene/GameScene.swift:129-137 | the spawn timer spawns only while the scene is active |
| `Arcade.New` | Oneida/ViewModels/GameViewModel.swift:14-34 | a new session has score 0, 3 lives, 60 s, no pause and no overlay, a non-key target, and a scene not yet presented (inactive) |
| `Arcade.Present` | Oneida/Scene/GameScene.swift:44-56 | presenting the scene activates it, keeps its physics pause and changes nothing else of the session |
| `Arcade.PresentedGameScores` | Oneida/Scene/GameScene.swift:44-56 | once a new game's scene is presented, catching the first target scores one point and is reported |
| `Arcade.GameOver` | Oneida/ViewModels/GameViewModel.swift:157-183 | ending the game pauses the session and the scene, raises the overlay of the outcome and reports it to the app, and changes nothing else |
| `Arcade.CollectNote` | Oneida/ViewModels/GameViewModel.swift:188-205 | the target scores one point and is reported; another note costs exactly one life with score unchanged, and ends the game in defeat at 0 lives |
| `Arcade.TargetScoresItsPoints` | Oneida/ViewModels/GameViewModel.swift:189-192 | catching the target adds the note's one point and costs no life |
| `Arcade.MissNote` | Oneida/ViewModels/GameViewModel.swift:207-218 | a missed note costs exactly one life, with defeat at 0 lives |
| `Arcade.CollectCoin` | Oneida/ViewModels/GameViewModel.swift:220-223 | a coin changes nothing in the session and starts the quiz |
| `Arcade.Tick` | Oneida/ViewModels/GameViewModel.swift:116-134 | a paused tick changes nothing; otherwise the clock drops one tenth, and victory comes when it reaches 0; score, lives and target never change |
| `Arcade.Redraw` | Oneida/ViewModels/GameViewModel.swift:143-146 | the redraw loop yields the first drawn non-key note that differs from the current target, and finds none exactly when every draw repeats it |
| `Arcade.Rotate` | Oneida/ViewModels/GameViewModel.swift:136-155 | rotation is skipped while paused; otherwise the new target is a non-key note other than the old one, and nothing else changes |
| `Arcade.RotateReachesEveryOtherNote` | Oneida/ViewModels/GameViewModel.swift:143-148 | every non-key note other than the target can become the next target |
| `Arcade.TogglePause` | Oneida/ViewModels/GameViewModel.swift:50-75 | pausing is refused while an overlay shows and otherwise stops session and scene; resuming always restarts both; nothing else changes |
| `Arcade.ResumeAfterEndRestarts` | Oneida/ViewModels/GameViewModel.swift:52-68 | the overlay guard covers pausing only, so a finished game can be resumed |
| `Arcade.ResumeAfterVictoryReportsAgain` | Oneida/ViewModels/GameViewModel.swift:119-133 | a finished, won game ignores ticks, but after a resume the next tick reports victory once more |
| `Arcade.ResumeAfterDefeatLosesAgain` | Oneida/ViewModels/GameViewModel.swift:50-69 | a game lost on its last life ignores ticks, but once resumed the next miss takes lives to -1 and reports defeat again |
| `Arcade.Reset` | Oneida/ViewModels/GameViewModel.swift:77-100 | a reset restores score 0, 3 lives, 60 s, no pause and no overlays, draws a non-key target and reactivates the scene |
| `Arcade.ResetForgetsHistory` | Oneida/ViewModels/GameViewModel.swift:83-91 | what a reset produces does not depend on the round it replaces |
| `Arcade.Contact` | Oneida/Scene/GameScene.swift:268-288 | a contact reaching an inactive scene changes nothing and tells the app nothing |
| `Arcade.MissCostsALife` | Oneida/ViewModels/GameViewModel.swift:207-218 | on an active scene, a spawned note of any type reaching the ground, in either body order, goes to `didMissNote()`: one life lost, score kept |
| `Arcade.WrongCatchCostsALife` | Oneida/ViewModels/GameViewModel.swift:193-204 | on an active scene, catching a spawned note of another type than the target, in either order, costs one life, scores nothing and is not reported as collected |
| `Arcade.CatchingTargetScores` | Oneida/ViewModels/GameViewModel.swift:188-192 | a spawned target note meeting the catcher, in either order, scores exactly one point and is reported |
| `Arcade.Run` | Oneida/ViewModels/GameViewModel.swift:119-218 | a run of events produces one app signal per event |
| `Arcade.EndedIsInert` | Oneida/ViewModels/GameViewModel.swift:178-183 | after the game has ended, ticks, contacts (coins included) and pause requests change nothing and report nothing, so without a resume the outcome is reported once |
| `Arcade.LivesInvariantPreserved` | Oneida/ViewModels/GameViewModel.swift:195-217 | over any run of ticks, contacts and pause requests (no resume), lives never go below 0, and 0 lives means the game has ended in defeat |
| `Progress.DefaultValues` | Oneida/Models/GameState.swift:8-30 | a fresh profile is at level 1 with nothing completed, 0 coins and zero counters, and owns and uses the guitar and the bg2 background |
| `Progress.MaxAvailableLevel` | Oneida/Models/GameState.swift:34-36 | the highest playable level is one past the best completed one, but never above 15 |
| `Progress.Load` | Oneida/Models/GameState.swift:42-56 | loading gives the stored record, or the defaults when nothing is stored or it does not decode |
| `Progress.SaveLoadRoundTrip` | Oneida/Models/GameState.swift:42-69 | a saved record loads back unchanged |
| `Progress.ResetProgress` | Oneida/Models/GameState.swift:71-74 | after a reset, loading gives the defaults |
| `App.Save` | Oneida/ViewModels/AppViewModel.swift:118-122 | saving copies balance and level into the record and stores it, changing nothing else |
| `App.SaveIdempotent` | Oneida/ViewModels/AppViewModel.swift:118-122 | saving twice is saving once |
| `App.CheckDailyBonus` | Oneida/ViewModels/AppViewModel.swift:124-136 | 20 coins are added exactly when a previous login exists and was not today; the login date becomes now and everything is saved; every other field of the record is kept |
| `App.DailyBonusOncePerDay` | Oneida/ViewModels/AppViewModel.swift:127-135 | a second check on the same day pays nothing and only moves the login date |
| `App.Init` | Oneida/ViewModels/AppViewModel.swift:20-26 | launching takes balance and level from the loaded record, then applies the daily bonus; the record in memory is the loaded one with only the balance and the login date changed |
| `App.FreshLaunch` | Oneida/ViewModels/AppViewModel.swift:20-26 | a first launch starts at level 1 with 0 coins |
| `App.AddCoins` | Oneida/ViewModels/AppViewModel.swift:138-142 | the balance changes by exactly the amount, which may be negative, is mirrored in the record, and nothing else changes |
| `App.AddCoinsComposes` | Oneida/ViewModels/AppViewModel.swift:138-142 | two credits equal one credit of their sum |
| `App.StartGame` | Oneida/ViewModels/AppViewModel.swift:36-46 | the level played is the one given, else the saved current level; the record's current level follows it, and the balance and the rest of the record are unchanged |
| `App.StartSavedLevel` | Oneida/ViewModels/AppViewModel.swift:36-39 | starting without a level plays the saved one, and starting so again changes nothing |
| `App.ShowVictory` | Oneida/ViewModels/AppViewModel.swift:79-90 | a victory raises the best level to the level played if higher, counts one more level and pays 10 coins; the rest of the record is unchanged |
| `App.VictoryUnlocksNextLevel` | Oneida/ViewModels/AppViewModel.swift:80-82 | winning a level below 15 makes the next level available and never lowers the cap |
| `App.ShowDefeat` | Oneida/ViewModels/AppViewModel.swift:92-95 | a defeat changes no progress beyond the save |
| `App.GoToNextLevel` | Oneida/ViewModels/AppViewModel.swift:106-116 | moving on raises the level by one in both places and keeps the balance and the rest of the record |
| `App.NextLevelAfterVictory` | Oneida/ViewModels/AppViewModel.swift:79-110 | after a victory below level 15, the next level is one the player may pick; after a victory on level 15 it is 16, past the cap of 15 |
| `App.ResetAllProgress` | Oneida/ViewModels/AppViewModel.swift:144-149 | a full reset leaves 0 coins, level 1, the default record and an empty store |
| `App.ResetAllProgressForgets` | Oneida/ViewModels/AppViewModel.swift:144-149 | the result of a full reset does not depend on the past |
| `App.ApplySignal` | Oneida/ViewModels/GameViewModel.swift:157-223 | a collected target counts one note, a victory or defeat runs the app's bookkeeping, and nothing else touches the app |
| `Achievements.CatalogShape` | Oneida/Models/Achievement.swift:18-54 | five achievements, in order first_chord, colour_symphony, perfect_melody, tempo_solo, colour_maestro, pairwise distinct ids, each paying 10 |
| `Achievements.SameAchievementInCatalog` | Oneida/Models/Achievement.swift:14-16 | in the catalog, equality by id holds exactly between an entry and itself |
| `Achievements.FirstWithId` | Oneida/Models/Achievement.swift:57 | the search yields the first entry with the id, and nothing exactly when no entry has it |
| `Achievements.ById` | Oneida/Models/Achievement.swift:56-58 | the lookup succeeds exactly for a catalogued id and yields that entry |
| `Achievements.Attach` | Oneida/ViewModels/AchievementViewModel.swift:15-23 | attaching the app takes a copy of its record |
| `Achievements.Unlock` | Oneida/ViewModels/AchievementViewModel.swift:86-93 | unlocking adds the id once to the completed list and changes no other field of the record (the save only re-mirrors balance and level); the lists stay valid and the copy stays coherent |
| `Achievements.UnlockIdempotent` | Oneida/ViewModels/AchievementViewModel.swift:86-93 | unlocking twice is unlocking once |
| `Achievements.Claim` | Oneida/ViewModels/AchievementViewModel.swift:35-51 | a claim does something only for a catalogued id the copy shows completed and unclaimed; it then pays the reward and marks the id notified, adding no other id; nothing else in the record changes |
| `Achievements.ClaimKeepsListsValid` | Oneida/ViewModels/AchievementViewModel.swift:35-51 | claims keep notified ids a duplicate-free subset of the completed ones and the copy coherent |
| `Achievements.ClaimOnce` | Oneida/ViewModels/AchievementViewModel.swift:35-51 | a second claim of the same achievement does nothing |
| `Achievements.ClaimPaysReward` | Oneida/ViewModels/AchievementViewModel.swift:41-48 | the first claim of a completed achievement pays exactly 10 and appends its id once |
| `Achievements.UnlockIf` | Oneida/ViewModels/AchievementViewModel.swift:57-59 | a rule adds its id exactly when its condition holds, pays nothing and changes no other field of the record |
| `Achievements.NextStreak` | Oneida/ViewModels/AchievementViewModel.swift:65-72 | a victory without wrong notes extends the streak, any wrong note resets it, and otherwise it is kept |
| `Achievements.ApplyRules` | Oneida/ViewModels/AchievementViewModel.swift:53-80 | the ids completed afterwards are exactly the old ones plus those whose rule fired, the streak rule included, with coins and claims untouched; only the completed list and the streak change in the record |
| `Achievements.CheckAndUnlock` | Oneida/ViewModels/AchievementViewModel.swift:53-84 | the rule pass saves, refreshes the copy and pays nothing; only the completed list and the streak change in the record |
| `Achievements.CheckAndUnlockRules` | Oneida/ViewModels/AchievementViewModel.swift:53-84 | what the saved record holds after the pass: completed ids per rule, the new streak, unchanged claims and balance |
| `Achievements.CheckAndUnlockPreservesLists` | Oneida/ViewModels/AchievementViewModel.swift:53-84 | the rule pass keeps the achievement lists valid |
| `Achievements.CheckAndUnlockStable` | Oneida/ViewModels/AchievementViewModel.swift:53-84 | a second pass with the same non-victory telemetry unlocks nothing new |
| `Achievements.ThreePerfectVictories` | Oneida/ViewModels/AchievementViewModel.swift:65-69 | from a zero streak, three flawless victories unlock Perfect Melody on the third and not before |
| `Shop.CatalogsShape` | Oneida/Models/InstrumentItem.swift:18-23 | instrument and background ids are distinct, the guitar is free, the other instruments and all backgrounds cost 100, and bg2 is the first background |
| `Shop.SameItemInCatalog` | Oneida/Models/InstrumentItem.swift:14-16 | in a catalog, equality by id holds exactly between an entry and itself |
| `Shop.FindItem` | Oneida/ViewModels/ShopViewModel.swift:41 | the lookup yields an entry with the id, and nothing exactly when none has it |
| `Shop.FindCatalogued` | Oneida/ViewModels/ShopViewModel.swift:81 | looking up a catalogued id finds that very entry |
| `Shop.GetItem` | Oneida/Models/InstrumentItem.swift:25-27 | the lookup gives the entry with the id, else the first (free) entry of the catalog |
| `Shop.IsPurchased` | Oneida/ViewModels/ShopViewModel.swift:29-32 | the free item of a kind is always owned, any other id exactly when it is in the shared ownership list (the background twin is at lines 69-72); `Shop.Purchase` states that buying makes an item owned |
| `Shop.IsSelected` | Oneida/ViewModels/ShopViewModel.swift:34-37 | an id is selected exactly when it is the kind's current item (the background twin is at lines 74-77); `Shop.Select` and `Shop.Purchase` state when an item becomes selected |
| `Shop.Select` | Oneida/ViewModels/ShopViewModel.swift:59-67 | selecting an item not owned does nothing; an owned one becomes current and is saved, with ownership untouched and nothing but the chosen kind's current item changing in the record |
| `Shop.Purchase` | Oneida/ViewModels/ShopViewModel.swift:39-57 | a purchase needs a catalogued id and enough coins, deducts exactly the price (so the balance stays non-negative), records ownership once in both lists and selects the item; the level, the other kind's list and choice, the achievements and the counters are unchanged |
| `Shop.RepurchaseAddsNothing` | Oneida/ViewModels/ShopViewModel.swift:46-52 | buying an owned item again adds no list entry |
| `Shop.TapAction` | Oneida/Views/ShopItemView.swift:54-62 | a tap calls select exactly for an owned, unselected item and buy exactly for an affordable one not owned, never both |
| `Shop.ButtonDisabled` | Oneida/Views/ShopItemView.swift:88 | the button is disabled exactly when a tap would call nothing |
| `Shop.TapItem` | Oneida/Views/ShopItemView.swift:55-62 | a tap on a disabled button changes nothing; an enabled tap on a catalog entry leaves it selected; no tap raises the balance, changes the level or touches the other kind's items |
| `Shop.TapSelects` | Oneida/Views/ShopItemView.swift:56-62 | an enabled tap on a catalog entry leaves it selected and never overdraws the balance |
| `Memory.ImageName` | Oneida/Models/MemoryGame.swift:17-34 | image ids 1...6 have an image name and no other does |
| `Memory.ImageNamesDistinct` | Oneida/Models/MemoryGame.swift:25-34 | different image ids have different names |
| `Memory.GridPosition` | Oneida/Models/MemoryGame.swift:86-97 | the placement loop puts slot i on the 3x4 grid at the row-major position of i |
| `Memory.GridPositionOfSlot` | Oneida/Models/MemoryGame.swift:87-88 | every grid position is the position of its own slot |
| `Memory.PairedImagesCounts` | Oneida/Models/MemoryGame.swift:78-82 | before shuffling, each image id 1...n appears exactly twice and nothing else appears |
| `Memory.Layout` | Oneida/Models/MemoryGame.swift:86-97 | placement keeps the image order, puts card i at grid slot i, face down |
| `Memory.GenerateCards` | Oneida/Models/MemoryGame.swift:74-100 | a generated board has twelve face-down cards in row-major grid order whose images are a permutation of the pairs |
| `Memory.GeneratedPairs` | Oneida/Models/MemoryGame.swift:78-84 | every generated board holds each image id 1...6 exactly twice and nothing else |
| `Memory.GeneratedImagesInRange` | Oneida/Models/MemoryGame.swift:78-82 | every generated card shows one of the six images |
| `Memory.BoardPositionsDistinct` | Oneida/Models/MemoryGame.swift:86-97 | no two cards share a position and every grid position holds a card |
| `Memory.SameCardOnBoard` | Oneida/Models/MemoryGame.swift:65-67 | on a generated board, equality by id holds exactly between a card and itself |
| `Memory.FindPosition` | Oneida/ViewModels/MemoryGameViewModel.swift:91 | the search yields the first index whose position equals the tapped one, and nothing when none does |
| `Memory.FindOnBoard` | Oneida/Models/MemoryGame.swift:60-62 | with row-and-column equality, a grid position is found at its slot and no other position is found |
| `Memory.SetStateAt` | Oneida/ViewModels/MemoryGameViewModel.swift:143-151 | changing the card at a position changes only that card's state |
| `Memory.PairsMatched` | Oneida/ViewModels/MemoryGameViewModel.swift:26-28 | pairs matched is half the matched count, rounded down |
| `Memory.InteractionDisabled` | Oneida/ViewModels/MemoryGameViewModel.swift:19-24 | input is blocked when the game is not playing, a pair is processing or two cards are face up; `Memory.DisabledWhenWellFormed` states that under the invariant the face-up count never blocks on its own |
| `Memory.DisabledWhenWellFormed` | Oneida/ViewModels/MemoryGameViewModel.swift:19-24 | between events, input is blocked exactly when not playing or a pair is being processed |
| `Memory.Setup` | Oneida/ViewModels/MemoryGameViewModel.swift:43-50 | a new game is playing with 45 s on a fresh face-down board and nothing revealed |
| `Memory.SetupWellFormed` | Oneida/ViewModels/MemoryGameViewModel.swift:43-50 | a new game satisfies the invariant, has no pair found and accepts input |
| `Memory.Pause` | Oneida/ViewModels/MemoryGameViewModel.swift:57-61 | pausing acts only on a running game |
| `Memory.Resume` | Oneida/ViewModels/MemoryGameViewModel.swift:63-67 | resuming acts only on a paused game |
| `Memory.TogglePause` | Oneida/ViewModels/MemoryGameViewModel.swift:69-75 | toggling swaps playing and paused, leaves other states alone and touches nothing else |
| `Memory.TogglePauseTwice` | Oneida/ViewModels/MemoryGameViewModel.swift:69-75 | toggling twice restores the game |
| `Memory.CompleteGame` | Oneida/ViewModels/MemoryGameViewModel.swift:77-80 | the outcome is reported exactly for a finished game, and it is that game's success flag |
| `Memory.Tick` | Oneida/ViewModels/MemoryGameViewModel.swift:125-137 | a tick only counts down a running game, ending it as lost when the last tenth runs out |
| `Memory.TimeoutAfterTicks` | Oneida/ViewModels/MemoryGameViewModel.swift:131-135 | left alone, a game keeps playing until its last tenth and is lost on the tick after |
| `Memory.Flip` | Oneida/ViewModels/MemoryGameViewModel.swift:86-118 | a tap does nothing when input is blocked, no card is at the position, the card is not face down, or two cards are already revealed; otherwise it turns exactly the tapped card face up, and with nothing revealed it records that card as the first and schedules nothing, while with one card revealed it records the tapped card as the second, marks the pair as processing and schedules a resolution, a match exactly when the images agree |
| `Memory.FlipPreservesWellFormed` | Oneida/ViewModels/MemoryGameViewModel.swift:86-118 | a tap keeps the invariant, and the resolution it schedules is for the pair now revealed |
| `Memory.Resolve` | Oneida/ViewModels/MemoryGameViewModel.swift:139-185 | resolving clears the revealed pair and processing flag, and a card changes at most its state, to Matched for a match and FaceDown for a mismatch; a match that completes the board wins, whatever the status was, and otherwise the status is kept |
| `Memory.ResolveSetsPair` | Oneida/ViewModels/MemoryGameViewModel.swift:143-179 | in a well-formed game, resolving the pending pair makes both of its cards Matched when the images agree and FaceDown when they differ, and keeps every other card |
| `Memory.ResolvePairOnBoard` | Oneida/ViewModels/MemoryGameViewModel.swift:143-153 | resolving a pair changes exactly its two cards, and matching adds two to the matched count |
| `Memory.ResolvePairLeavesNoneFaceUp` | Oneida/ViewModels/MemoryGameViewModel.swift:169-179 | once the revealed pair is resolved no card is face up |
| `Memory.ResolvePreservesWellFormed` | Oneida/ViewModels/MemoryGameViewModel.swift:139-185 | resolving the pending pair keeps the invariant |
| `Memory.ResolveCountsPair` | Oneida/ViewModels/MemoryGameViewModel.swift:139-163 | a match adds exactly one pair to the count; a mismatch adds none |
| `Memory.LateMatchOverridesTimeout` | Oneida/ViewModels/MemoryGameViewModel.swift:159-161 | a match resolved after the clock ran out still turns a loss into a win if it completes the board |
| `Memory.WinMeansAllPairs` | Oneida/ViewModels/MemoryGameViewModel.swift:159-161 | the game is won only with all six pairs found |
| `Sequence.AvailableImagesDistinct` | Oneida/Models/SequenceGame.swift:11-14 | the pool holds eight distinct image names |
| `Sequence.RandomImage` | Oneida/Models/SequenceGame.swift:28-31 | a random image comes from the pool |
| `Sequence.RandomReachesEveryImage` | Oneida/Models/SequenceGame.swift:28-31 | exactly the images of the pool can be drawn |
| `Sequence.Generate` | Oneida/ViewModels/SequenceGameViewModel.swift:75-83 | a generated sequence has one image per draw, each the drawn pool image |
| `Sequence.ShowNext` | Oneida/ViewModels/SequenceGameViewModel.swift:90-111 | the display shows the image at the index, or ends, showing nothing and accepting input, once the index has passed the sequence |
| `Sequence.StartNewGame` | Oneida/ViewModels/SequenceGameViewModel.swift:32-38 | a new round has a fresh sequence of the current length, no input, and shows its first image |
| `Sequence.StartNewGameValid` | Oneida/ViewModels/SequenceGameViewModel.swift:32-38 | a new round satisfies the invariant |
| `Sequence.Init` | Oneida/ViewModels/SequenceGameViewModel.swift:22-30 | both lengths start at the larger of the stored maximum and 2 |
| `Sequence.InitValid` | Oneida/ViewModels/SequenceGameViewModel.swift:22-30 | a new view-model satisfies the invariant whatever was stored |
| `Sequence.ShowTick` | Oneida/ViewModels/SequenceGameViewModel.swift:99-105 | a display timer fire moves on to the next image, or ends the display after the last |
| `Sequence.ShowTickPreservesValid` | Oneida/ViewModels/SequenceGameViewModel.swift:90-111 | the display keeps the invariant |
| `Sequence.ShowingStepsThroughSequence` | Oneida/ViewModels/SequenceGameViewModel.swift:85-111 | the k-th fire shows image k, and once each image has had its fire the game accepts input with nothing shown |
| `Sequence.ShowTicksWhenNotShowing` | Oneida/ViewModels/SequenceGameViewModel.swift:90-94 | with nothing shown, timer fires change nothing |
| `Sequence.SelectImage` | Oneida/ViewModels/SequenceGameViewModel.swift:40-53 | a tap counts only while playing; it is recorded, a tap past the sequence or with another name than the next image ends the round, and the last right tap wins it |
| `Sequence.SelectImagePreservesValid` | Oneida/ViewModels/SequenceGameViewModel.swift:40-53 | taps keep the invariant |
| `Sequence.SelectAllWhenNotPlaying` | Oneida/ViewModels/SequenceGameViewModel.swift:41 | outside play, any taps do nothing |
| `Sequence.CorrectInputSucceeds` | Oneida/ViewModels/SequenceGameViewModel.swift:43-48 | tapping the rest of the sequence in order wins the round |
| `Sequence.WrongTapEndsRound` | Oneida/ViewModels/SequenceGameViewModel.swift:45-52 | the first wrong tap ends the round there, whatever taps follow |
| `Sequence.WrongSecondTapScenario` | Oneida/ViewModels/SequenceGameViewModel.swift:40-53 | a length-2 round showing img111, img222 is lost by tapping img111, img333 |
| `Sequence.NextRound` | Oneida/ViewModels/SequenceGameViewModel.swift:55-64 | the next round is one longer, and a new maximum is stored at once |
| `Sequence.NextRoundPreservesValid` | Oneida/ViewModels/SequenceGameViewModel.swift:55-64 | the next round keeps current length within the maximum and the stored value equal to a new maximum |
| `Sequence.RestartAfterGameOver` | Oneida/ViewModels/SequenceGameViewModel.swift:66-69 | a restart is one shorter but never below 2, and leaves the maximum alone |
| `Sequence.RestartPreservesValid` | Oneida/ViewModels/SequenceGameViewModel.swift:66-69 | a restart keeps the invariant, so the length stays at least 2 |
| `Sequence.RestartUndoesNextRound` | Oneida/ViewModels/SequenceGameViewModel.swift:55-69 | a lost retry after a won round plays the same length again |
| `GuessNumber.StartNewGame` | Oneida/ViewModels/GuessNumberViewModel.swift:22-27 | a new game hides a number in 0...999, counts no attempts, shows the prompt and plays |
| `GuessNumber.Init` | Oneida/ViewModels/GuessNumberViewModel.swift:18-20 | a new view-model is a new game |
| `GuessNumber.MakeGuess` | Oneida/ViewModels/GuessNumberViewModel.swift:29-42 | every guess counts one attempt, is right exactly when it equals the number, and the status carries the feedback line |
| `GuessNumber.FeedbackReadsBack` | Oneida/ViewModels/GuessNumberViewModel.swift:32-41 | the feedback reads back as the attempt count after a right guess, as "higher than the guess" after a low one and "lower than the guess" after a high one |
| `GuessNumber.FeedbackIsTruthful` | Oneida/ViewModels/GuessNumberViewModel.swift:35-41 | what the feedback says about the hidden number is true |
| `GuessNumber.Between` | Oneida/ViewModels/GuessNumberViewModel.swift:33 | the text between prefix and suffix, when found, rebuilds the line |
| `GuessNumber.ReadNumber` | Oneida/ViewModels/GuessNumberViewModel.swift:33 | a number is read only from a line framed by the prefix and suffix |
| `GuessNumber.ReadNumberRoundTrip` | Oneida/ViewModels/GuessNumberViewModel.swift:33-39 | a number interpolated between a prefix and a suffix reads back as itself |
| `GuessNumber.ReadNumberWrongStart` | Oneida/ViewModels/GuessNumberViewModel.swift:36-39 | a line that starts differently from the prefix does not read as that form |
| `GuessNumber.ReadFeedback` | Oneida/ViewModels/GuessNumberViewModel.swift:33-39 | each hint is read from the line of its own form |
| `GuessNumber.ContinueGame` | Oneida/ViewModels/GuessNumberViewModel.swift:44-46 | continuing returns to play with number, count and message unchanged |
| `GuessNumber.ContinueDoesNotAffectGuess` | Oneida/ViewModels/GuessNumberViewModel.swift:44-46 | a guess does not depend on whether play was resumed first |
| `GuessNumber.Play` | Oneida/ViewModels/GuessNumberViewModel.swift:29-46 | a run of guesses keeps the number and counts one attempt per guess |
| `GuessNumber.ThreeGuessScenario` | Oneida/ViewModels/GuessNumberViewModel.swift:29-46 | with 500 hidden, guesses 250, 750, 500 give "higher", "lower", then a right guess on the third attempt |
| `GuessNumber.ThirdAttemptMessage` | Oneida/ViewModels/GuessNumberViewModel.swift:33 | the text of a win on the third attempt |
| `Quiz.CorrectAnswer` | Oneida/Models/MusicQuiz.swift:16-18 | the correct answer is one of the options |
| `Quiz.BankShape` | Oneida/Models/MusicQuiz.swift:22-73 | ten distinct questions of three options each, every answer index within its options |
| `Quiz.GetRandomQuestions` | Oneida/Models/MusicQuiz.swift:75-78 | the draw returns min(count, 10) distinct questions of the bank, all of it reordered when count reaches 10 |
| `Quiz.CurrentQuestion` | Oneida/ViewModels/MusicQuizViewModel.swift:26-29 | there is no current question exactly when the index has run past the questions |
| `Quiz.Reset` | Oneida/ViewModels/MusicQuizViewModel.swift:44-51 | a reset asks 3 distinct questions of the bank from the first, with nothing selected, not completed and nothing earned |
| `Quiz.SelectOption` | Oneida/ViewModels/MusicQuizViewModel.swift:53-68 | only the first answer to a question counts: it is recorded, pays 10 exactly when right, and schedules the move on |
| `Quiz.SecondSelectionIgnored` | Oneida/ViewModels/MusicQuizViewModel.swift:54 | a second answer before the move on changes nothing and schedules nothing |
| `Quiz.Proceed` | Oneida/ViewModels/MusicQuizViewModel.swift:70-79 | moving on clears the answer and advances, or completes and pays after the last question; nothing but the balance changes in the app's record |
| `Quiz.CompleteQuiz` | Oneida/ViewModels/MusicQuizViewModel.swift:81-84 | completing marks the quiz done and credits exactly the earned coins, changing nothing else in the record |
| `Quiz.Score` | Oneida/ViewModels/MusicQuizViewModel.swift:59-62 | a score never exceeds the number of answers |
| `Quiz.Answer` | Oneida/ViewModels/MusicQuizViewModel.swift:53-79 | answering keeps the questions |
| `Quiz.AnswerAllPays` | Oneida/ViewModels/MusicQuizViewModel.swift:53-90 | answering every remaining question completes the quiz and pays, once, what was earned plus 10 per right answer |
| `Quiz.FreshQuizPaysAtMostThirty` | Oneida/ViewModels/MusicQuizViewModel.swift:44-90 | a fresh quiz answered three times pays 10 per right answer, so 0 to 30 coins |
| `MiniGames.Id` | Oneida/Models/MiniGameType.swift:12 | the id identifies the case: it converts back to it |
| `MiniGames.FromRawValue` | Oneida/Models/MiniGameType.swift:8-10 | a raw value converts back only to the case that has it |
| `MiniGames.RawValueRoundTrip` | Oneida/Models/MiniGameType.swift:8-10 | every case survives the raw-value round trip |
| `MiniGames.RawValuesDistinct` | Oneida/Models/MiniGameType.swift:8-10 | the raw values are distinct |
| `MiniGames.TitlesDistinct` | Oneida/Models/MiniGameType.swift:14-20 | each case has its own title |
| `MiniGames.Reward` | Oneida/Models/MiniGameType.swift:22-28 | every win pays a positive reward |
| `MiniGames.CasesAndRewards` | Oneida/Models/MiniGameType.swift:22-28 | every case is listed once, and the rewards are 20, 30 and 30 |

## Left out

- The SwiftUI views are left out: layout, animation, overlays, navigation (`navigateTo`, `goToMenu`, `AppScreen`, including the `.musicQuiz` screen that is not one of its cases), time formatting and the button colour of `ShopItemView`. Only the button's action and `disabled` predicate are modelled.
- The mini-game reward payout is left out, because it is done in the views and calls a `startMiniGame` that is not defined.
- The SpriteKit work is left out: physics setup, sprites, textures, particle effects, actions and the asset check. The note and coin nodes themselves are not modelled, so `removeAllNotes` is not either, and `resetGame()` of the scene is modelled by `Scene.Resume`. `setupScene` only wires the scene to the view-model.
- Real timers and `DispatchQueue` scheduling are events the caller applies in order. This covers the overlay set in `gameOver`, the 0.1 s delay before a coin is reported, the pair resolutions and the quiz auto-advance. Interleavings of these with other events are not explored beyond what the lemmas state. The gold-coin timer's 15-25 s random delay is not modelled; only the spawn itself is.
- Floating point is replaced by integers:
  - Times are in integer tenths of a second. Accumulated rounding in `timeRemaining -= 0.1` is not modelled.
  - Positions and sprite half-widths are integers.
  - The quiz's `progress` fraction is left out.
- JSON encoding and `UserDefaults` become `Progress.Store`, a store that holds a record or nothing. The encoding is taken as lossless, although ISO-8601 dates drop sub-second precision. The sequence game's stored maximum is a field of its state.
- Dates are integer timestamps, and whether the last login was today is a boolean input.
- Audio (`SettingsViewModel`) and the network and web-view flow are left out.
- The weak `appViewModel` references are assumed to be attached. A tracker whose copy is `None` stands for the detached achievement view-model.
- UUIDs are left out. Quiz questions and sequence images carry none. Memory cards carry their slot number as id, which is distinct within a board as UUIDs are.
- `Common.ParseInt` returns values beyond 64 bits, where Swift's `Int(String)` answers nil; node names only ever hold 0...5.
- `Quiz.GetRandomQuestions` models the count as a parameter. The default count of 2 is never used: the view-model always asks for 3.
- `Arcade.Rotate` requires the given draws to produce a note other than the current target. The source loops until they do, and its termination depends on the random source.
- `Arcade.LivesInvariantPreserved` holds only for runs without a resume. A resume after defeat breaks it, as `Arcade.ResumeAfterDefeatLosesAgain` shows, because `togglePause(false)` has no overlay guard.
- `Arcade.Run` only fixes the number of signals; what the signals are is stated by `Arcade.EndedIsInert` and the step functions.
- `Scene.ParseNodeName` states only when a name can parse; what it parses to is stated by `Scene.NodeName` and `Scene.CoinNameIsNoNote`.
- `Quiz.Answer` states only that the questions are kept; its effect is stated by `Quiz.SelectOption`, `Quiz.Proceed` and `Quiz.AnswerAllPays`.
- `Quiz.Score` states only its upper bound; its use is in `Quiz.AnswerAllPays`.
- `MiniGames.Reward` states only that rewards are positive; the exact values are in `MiniGames.CasesAndRewards`.
- `GuessNumber.Play` states only the count and the number; the messages are stated in `GuessNumber.ThreeGuessScenario`.
- `Shop.IsPurchased` and `Shop.IsSelected` are plain definitions without a contract of their own; their use is stated by `Shop.Select`, `Shop.Purchase` and `Shop.TapItem`.
- `NoteTypes.Points` is a plain definition without a contract of its own; its use is stated by `Arcade.TargetScoresItsPoints`.
- `Memory.InteractionDisabled` is a plain definition without a contract of its own; its meaning under the invariant is stated by `Memory.DisabledWhenWellFormed`.

=== FILE: achievements.dfy ===
/** Achievements: the catalog (`Achievement`) and the tracker
    (`AchievementViewModel`) that unlocks them from gameplay telemetry and
    pays their reward once when claimed. The tracker keeps its own copy of
    the app's `GameState`, taken when it is attached and refreshed after each
    change it makes; the completed/notified checks of a claim read that copy. */
module Achievements {
  import opened Common
  import opened Progress
  import opened App
  import NoteTypes
  import Arcade

  datatype Achievement = Achievement(id: string, title: string, description: string, imageName: string, reward: int)

  /** Achievements are equal when their ids are. */
  predicate SameAchievement(a: Achievement, b: Achievement) {
    a.id == b.id
  }

  const FirstChord := "first_chord"
  const ColourSymphony := "colour_symphony"
  const PerfectMelody := "perfect_melody"
  const TempoSolo := "tempo_solo"
  const ColourMaestro := "colour_maestro"

  const AllAchievements: seq<Achievement> := [
    Achievement(FirstChord, "First Chord", "Catch 10 notes in a row without making a mistake.", "firstChord", 10),
    Achievement(ColourSymphony, "Colour Symphony", "Get through the level without missing a single note of each colour.", "colourSymphony", 10),
    Achievement(PerfectMelody, "Perfect Melody", "Complete 3 levels in a row without making any mistakes.", "perfectMelody", 10),
    Achievement(TempoSolo, "Tempo Solo", "Try to catch 5 notes in 5 seconds.", "tempoSolo", 10),
    Achievement(ColourMaestro, "Colour Maestro", "Catch all the notes of the correct colour in one level.", "colourMaestro", 10)
  ]

  function Ids(s: seq<Achievement>): seq<string> {
    Map(s, (a: Achievement) => a.id)
  }

  /** The five ids are pairwise distinct. */
  lemma IdsDistinct()
    ensures NoDuplicates([FirstChord, ColourSymphony, PerfectMelody, TempoSolo, ColourMaestro])
  {
  }

  lemma CatalogShape()
    ensures |AllAchievements| == 5
    ensures NoDuplicates(Ids(AllAchievements))
    ensures forall i :: 0 <= i < |AllAchievements| ==> AllAchievements[i].reward == 10
    ensures Ids(AllAchievements) == [FirstChord, ColourSymphony, PerfectMelody, TempoSolo, ColourMaestro]
  {
    assert Ids(AllAchievements) == [FirstChord, ColourSymphony, PerfectMelody, TempoSolo, ColourMaestro];
    IdsDistinct();
  }

  /** Within the catalog, two entries are equal by id exactly when they are the same entry. */
  lemma SameAchievementInCatalog(i: nat, j: nat)
    requires i < |AllAchievements| && j < |AllAchievements|
    ensures SameAchievement(AllAchievements[i], AllAchievements[j]) <==> i == j
  {
    CatalogShape();
    assert Ids(AllAchievements)[i] == AllAchievements[i].id && Ids(AllAchievements)[j] == AllAchievements[j].id;
  }

  /** `first { $0.id == id }` over a list of achievements. */
  function FirstWithId(s: seq<Achievement>, id: string): (r: Option<Achievement>)
    ensures r.Some? ==> r.value in s && r.value.id == id
    ensures r.None? <==> forall i :: 0 <= i < |s| ==> s[i].id != id
    ensures r.Some? ==> exists i :: 0 <= i < |s| && s[i] == r.value
                          && forall j :: 0 <= j < i ==> s[j].id != id
  {
    if |s| == 0 then None
    else if s[0].id == id then Some(s[0])
    else
      var r := FirstWithId(s[1..], id);
      assert forall j :: 1 <= j < |s| ==> s[j] == s[1..][j - 1];
      r
  }

  /** `Achievement.byId(_:)`. */
  function ById(id: string): (r: Option<Achievement>)
    ensures r.Some? <==> id in Ids(AllAchievements)
    ensures r.Some? ==> r.value in AllAchievements && r.value.id == id && r.value.reward == 10
  {
    CatalogShape();
    FirstWithId(AllAchievements, id)
  }

  // ---------------------------------------------------------------------
  // Tracker

  /** The tracker's copy of the app's record; None until an app is attached. */
  datatype Tracker = Tracker(cache: Option<GameState>)

  /** Setting `appViewModel`. */
  function Attach(app: AppModel): (t: Tracker)
    ensures t.cache == Some(app.gameState)
  {
    Tracker(Some(app.gameState))
  }

  /** The tracker's copy agrees with the app on the achievement lists. */
  predicate Coherent(t: Tracker, app: AppModel) {
    && t.cache.Some?
    && t.cache.value.completedAchievements == app.gameState.completedAchievements
    && t.cache.value.notifiedAchievements == app.gameState.notifiedAchievements
  }

  /** Every claimed (notified) id is a completed one and neither list repeats an id. */
  predicate AchievementListsValid(g: GameState) {
    && (forall id :: id in g.notifiedAchievements ==> id in g.completedAchievements)
    && NoDuplicates(g.completedAchievements)
    && NoDuplicates(g.notifiedAchievements)
  }

  /** `b` differs from `a` at most in the completed list and the balance and
      level the save mirrors. */
  predicate OnlyCompletedChanged(a: GameState, b: GameState) {
    b.(completedAchievements := a.completedAchievements, coins := a.coins, currentLevel := a.currentLevel) == a
  }

  /** `unlockAchievement(_:)`: appends the id unless it is already completed. */
  function Unlock(t: Tracker, app: AppModel, id: string): (r: (Tracker, AppModel))
    ensures t.cache.None? ==> r == (t, app)
    ensures r.0.cache.Some? == t.cache.Some?
    ensures t.cache.Some? ==> id in r.1.gameState.completedAchievements
    ensures t.cache.Some? ==> forall x :: x in r.1.gameState.completedAchievements
                                       <==> x in app.gameState.completedAchievements || x == id
    ensures id in app.gameState.completedAchievements ==> r == (t, app)
    ensures r.1.gameState.notifiedAchievements == app.gameState.notifiedAchievements
    ensures r.1.coins == app.coins && r.1.gameLevel == app.gameLevel
    ensures r.1.gameState.perfectLevels == app.gameState.perfectLevels
    ensures r.1.gameState.levelsCompleted == app.gameState.levelsCompleted
    ensures OnlyCompletedChanged(app.gameState, r.1.gameState)
    ensures Coherent(t, app) ==> Coherent(r.0, r.1)
    ensures AchievementListsValid(app.gameState) ==> AchievementListsValid(r.1.gameState)
  {
    if t.cache.None? || id in app.gameState.completedAchievements then (t, app)
    else
      var unlocked := app.(gameState := app.gameState.(
        completedAchievements := AppendIfAbsent(app.gameState.completedAchievements, id)));
      var saved := Save(unlocked);
      (Tracker(Some(saved.gameState)), saved)
  }

  /** Unlocking twice is unlocking once. */
  lemma UnlockIdempotent(t: Tracker, app: AppModel, id: string)
    ensures var once := Unlock(t, app, id); Unlock(once.0, once.1, id) == once
  {
  }

  /** The guard of `claimReward(for:)`, read from the tracker's copy. */
  predicate ClaimAllowed(t: Tracker, id: string) {
    && ById(id).Some?
    && t.cache.Some?
    && id in t.cache.value.completedAchievements
    && id !in t.cache.value.notifiedAchievements
  }

  /** `claimReward(for:)`: pays a catalogued, completed, unclaimed achievement
      and marks it notified. */
  function Claim(t: Tracker, app: AppModel, id: string): (r: (Tracker, AppModel))
    ensures !ClaimAllowed(t, id) ==> r == (t, app)
    ensures ClaimAllowed(t, id) ==> r.1.coins == app.coins + ById(id).value.reward && id in r.1.gameState.notifiedAchievements
    ensures r.1.gameState.completedAchievements == app.gameState.completedAchievements
    ensures forall x :: x in app.gameState.notifiedAchievements ==> x in r.1.gameState.notifiedAchievements
    ensures forall x :: x in r.1.gameState.notifiedAchievements ==> x in app.gameState.notifiedAchievements || x == id
    ensures r.1.gameLevel == app.gameLevel
    ensures r.1.gameState.(notifiedAchievements := app.gameState.notifiedAchievements,
                           coins := app.gameState.coins, currentLevel := app.gameState.currentLevel) == app.gameState
  {
    if !ClaimAllowed(t, id) then (t, app)
    else
      var paid := AddCoins(app, ById(id).value.reward);
      if id !in paid.gameState.notifiedAchievements then
        var marked := paid.(gameState := paid.gameState.(
          notifiedAchievements := paid.gameState.notifiedAchievements + [id]));
        var saved := Save(marked);
        (Tracker(Some(saved.gameState)), saved)
      else (t, paid)
  }

  /** With a coherent copy a claim keeps the copy coherent, and claimed
      achievements stay a duplicate-free subset of the completed ones. */
  lemma ClaimKeepsListsValid(t: Tracker, app: AppModel, id: string)
    requires Coherent(t, app)
    ensures Coherent(Claim(t, app, id).0, Claim(t, app, id).1)
    ensures AchievementListsValid(app.gameState) ==> AchievementListsValid(Claim(t, app, id).1.gameState)
  {
    if ClaimAllowed(t, id) {
      var paid := AddCoins(app, ById(id).value.reward);
      assert id !in paid.gameState.notifiedAchievements;
    }
  }

  /** A second claim of the same achievement pays nothing. */
  lemma ClaimOnce(t: Tracker, app: AppModel, id: string)
    requires Coherent(t, app)
    ensures var once := Claim(t, app, id); Claim(once.0, once.1, id) == once
  {
  }

  /** A completed, unclaimed achievement pays exactly its reward of 10 on its first claim. */
  lemma ClaimPaysReward(t: Tracker, app: AppModel, id: string)
    requires Coherent(t, app) && ById(id).Some?
    requires id in app.gameState.completedAchievements && id !in app.gameState.notifiedAchievements
    ensures Claim(t, app, id).1.coins == app.coins + 10
    ensures Claim(t, app, id).1.gameState.notifiedAchievements == app.gameState.notifiedAchievements + [id]
  {
  }

  // ---------------------------------------------------------------------
  // Rule set

  /** What the rules read: the arcade session's own victory overlay, and four
      counters the arcade view-model does not keep, which are inputs here. */
  datatype Telemetry = Telemetry(
    session: Arcade.Session,
    consecutiveCorrectNotes: int,
    missedNoteColors: set<NoteTypes.Color>,
    totalWrongNotes: int,
    notesIn5Seconds: int)

  /** One rule: unlock `id` when `cond` holds. */
  function UnlockIf(t: Tracker, app: AppModel, cond: bool, id: string): (r: (Tracker, AppModel))
    ensures !cond || t.cache.None? ==> r == (t, app)
    ensures r.0.cache.Some? == t.cache.Some?
    ensures t.cache.Some? ==> forall x :: x in r.1.gameState.completedAchievements
                                       <==> x in app.gameState.completedAchievements || (cond && x == id)
    ensures r.1.gameState.notifiedAchievements == app.gameState.notifiedAchievements
    ensures r.1.coins == app.coins
    ensures r.1.gameState.perfectLevels == app.gameState.perfectLevels
    ensures r.1.gameLevel == app.gameLevel
    ensures OnlyCompletedChanged(app.gameState, r.1.gameState)
    ensures AchievementListsValid(app.gameState) ==> AchievementListsValid(r.1.gameState)
  {
    if cond then Unlock(t, app, id) else (t, app)
  }

  /** The new perfect-level streak: +1 after a victory without wrong notes,
      0 after any wrong note, unchanged otherwise (a negative count, which the
      counter never holds, also keeps it). */
  function NextStreak(streak: int, tel: Telemetry): (r: int)
    ensures tel.session.showVictoryOverlay && tel.totalWrongNotes == 0 ==> r == streak + 1
    ensures tel.totalWrongNotes > 0 ==> r == 0
    ensures !(tel.session.showVictoryOverlay && tel.totalWrongNotes == 0) && tel.totalWrongNotes <= 0 ==> r == streak
  {
    if tel.session.showVictoryOverlay && tel.totalWrongNotes == 0 then streak + 1
    else if tel.totalWrongNotes > 0 then 0
    else streak
  }

  /** `b` differs from `a` at most in the completed list, the perfect-level
      streak, and the balance and level the save mirrors. */
  predicate OnlyAchievementsChanged(a: GameState, b: GameState) {
    b.(completedAchievements := a.completedAchievements, perfectLevels := a.perfectLevels,
       coins := a.coins, currentLevel := a.currentLevel) == a
  }

  lemma CompletedStepsCompose(a: GameState, b: GameState, c: GameState)
    requires OnlyCompletedChanged(a, b) && OnlyCompletedChanged(b, c)
    ensures OnlyCompletedChanged(a, c)
  {
  }

  /** Unlock steps around one streak update change only the achievement fields. */
  lemma StreakStepFrame(a: GameState, b: GameState, streak: int, c: GameState)
    requires OnlyCompletedChanged(a, b) && OnlyCompletedChanged(b.(perfectLevels := streak), c)
    ensures OnlyAchievementsChanged(a, c)
  {
  }

  /** The five rules in source order. The level count is read before any
      of them runs; the streak is updated between the second and third. */
  function ApplyRules(t: Tracker, app: AppModel, tel: Telemetry): (r: (Tracker, AppModel))
    requires t.cache.Some?
    ensures r.0.cache.Some?
    ensures forall x :: x in r.1.gameState.completedAchievements <==>
      || x in app.gameState.completedAchievements
      || (x == FirstChord && tel.consecutiveCorrectNotes >= 10)
      || (x == ColourSymphony && tel.session.showVictoryOverlay && |tel.missedNoteColors| == 0)
      || (x == PerfectMelody && tel.session.showVictoryOverlay && tel.totalWrongNotes == 0
          && app.gameState.perfectLevels + 1 >= 3)
      || (x == TempoSolo && tel.notesIn5Seconds >= 5)
      || (x == ColourMaestro && app.gameState.levelsCompleted >= 10)
    ensures r.1.gameState.perfectLevels == NextStreak(app.gameState.perfectLevels, tel)
    ensures r.1.gameState.notifiedAchievements == app.gameState.notifiedAchievements
    ensures r.1.coins == app.coins && r.1.gameLevel == app.gameLevel
    ensures OnlyAchievementsChanged(app.gameState, r.1.gameState)
    ensures AchievementListsValid(app.gameState) ==> AchievementListsValid(r.1.gameState)
  {
    var levels := app.gameState.levelsCompleted;
    var s1 := UnlockIf(t, app, tel.consecutiveCorrectNotes >= 10, FirstChord);
    var s2 := UnlockIf(s1.0, s1.1, tel.session.showVictoryOverlay && |tel.missedNoteColors| == 0, ColourSymphony);
    var streak := NextStreak(s2.1.gameState.perfectLevels, tel);
    var counted := s2.1.(gameState := s2.1.gameState.(perfectLevels := streak));
    var s3 := UnlockIf(s2.0, counted, tel.session.showVictoryOverlay && tel.totalWrongNotes == 0 && streak >= 3, PerfectMelody);
    var s4 := UnlockIf(s3.0, s3.1, tel.notesIn5Seconds >= 5, TempoSolo);
    var s5 := UnlockIf(s4.0, s4.1, levels >= 10, ColourMaestro);
    CompletedStepsCompose(app.gameState, s1.1.gameState, s2.1.gameState);
    CompletedStepsCompose(counted.gameState, s3.1.gameState, s4.1.gameState);
    CompletedStepsCompose(counted.gameState, s4.1.gameState, s5.1.gameState);
    StreakStepFrame(app.gameState, s2.1.gameState, streak, s5.1.gameState);
    s5
  }

  /** `checkAndUnlockAchievements(gameViewModel:)`: run the rules, save,
      refresh the tracker's copy. */
  function CheckAndUnlock(t: Tracker, app: AppModel, tel: Telemetry): (r: (Tracker, AppModel))
    ensures t.cache.None? ==> r == (t, app)
    ensures t.cache.Some? ==> Coherent(r.0, r.1) && Synced(r.1)
    ensures r.1.coins == app.coins && r.1.gameLevel == app.gameLevel
    ensures OnlyAchievementsChanged(app.gameState, r.1.gameState)
  {
    if t.cache.None? then (t, app)
    else
      var saved := Save(ApplyRules(t, app, tel).1);
      (Tracker(Some(saved.gameState)), saved)
  }

  /** Which ids the rule set completes, and what it does to the streak. */
  lemma CheckAndUnlockRules(t: Tracker, app: AppModel, tel: Telemetry)
    requires t.cache.Some?
    ensures var g := CheckAndUnlock(t, app, tel).1.gameState;
      && (forall x :: x in g.completedAchievements <==>
            || x in app.gameState.completedAchievements
            || (x == FirstChord && tel.consecutiveCorrectNotes >= 10)
            || (x == ColourSymphony && tel.session.showVictoryOverlay && |tel.missedNoteColors| == 0)
            || (x == PerfectMelody && tel.session.showVictoryOverlay && tel.totalWrongNotes == 0
                && app.gameState.perfectLevels + 1 >= 3)
            || (x == TempoSolo && tel.notesIn5Seconds >= 5)
            || (x == ColourMaestro && app.gameState.levelsCompleted >= 10))
      && g.perfectLevels == NextStreak(app.gameState.perfectLevels, tel)
      && g.notifiedAchievements == app.gameState.notifiedAchievements
      && CheckAndUnlock(t, app, tel).1.coins == app.coins
  {
    var a := ApplyRules(t, app, tel).1;
    assert CheckAndUnlock(t, app, tel).1 == Save(a);
  }

  /** The rules add ids without duplicates, pay nothing, and keep claims within completions. */
  lemma CheckAndUnlockPreservesLists(t: Tracker, app: AppModel, tel: Telemetry)
    requires AchievementListsValid(app.gameState)
    ensures AchievementListsValid(CheckAndUnlock(t, app, tel).1.gameState)
    ensures CheckAndUnlock(t, app, tel).1.coins == app.coins
  {
    if t.cache.Some? {
      var a := ApplyRules(t, app, tel).1;
      assert CheckAndUnlock(t, app, tel).1 == Save(a);
    }
  }

  /** Evaluating the rules again with unchanged telemetry unlocks nothing new. */
  lemma CheckAndUnlockStable(t: Tracker, app: AppModel, tel: Telemetry)
    requires t.cache.Some? && !tel.session.showVictoryOverlay && tel.totalWrongNotes <= 0
    ensures var once := CheckAndUnlock(t, app, tel);
            CheckAndUnlock(once.0, once.1, tel).1.gameState.completedAchievements
              == once.1.gameState.completedAchievements
  {
  }

  /** Three perfect victories in a row from a zero streak unlock Perfect Melody on the third. */
  lemma ThreePerfectVictories(t: Tracker, app: AppModel, tel: Telemetry)
    requires t.cache.Some? && app.gameState.perfectLevels == 0
    requires tel.session.showVictoryOverlay && tel.totalWrongNotes == 0
    ensures var r1 := CheckAndUnlock(t, app, tel);
            var r2 := CheckAndUnlock(r1.0, r1.1, tel);
            var r3 := CheckAndUnlock(r2.0, r2.1, tel);
            && r3.1.gameState.perfectLevels == 3
            && PerfectMelody in r3.1.gameState.completedAchievements
            && (PerfectMelody in r2.1.gameState.completedAchievements
                <==> PerfectMelody in app.gameState.completedAchievements)
  {
    var r1 := CheckAndUnlock(t, app, tel);
    CheckAndUnlockRules(t, app, tel);
    var r2 := CheckAndUnlock(r1.0, r1.1, tel);
    CheckAndUnlockRules(r1.0, r1.1, tel);
    CheckAndUnlockRules(r2.0, r2.1, tel);
  }
}

=== FILE: app.dfy ===
/** The app view-model (`AppViewModel`) as far as progress and economy go:
    the level being played, the coin balance, the in-memory `GameState` and
    the key-value store it is saved to. `saveGameState()` copies the balance
    and level into the record before storing it. */
module App {
  import opened Common
  import opened Progress
  import Arcade

  datatype AppModel = AppModel(gameLevel: int, coins: int, gameState: GameState, store: Store)

  /** The record mirrors the balance and level and is what the store holds. */
  predicate Synced(app: AppModel) {
    && app.gameState.coins == app.coins
    && app.gameState.currentLevel == app.gameLevel
    && app.store == Saved(app.gameState)
  }

  /** `saveGameState()`. */
  function Save(app: AppModel): (r: AppModel)
    ensures Synced(r)
    ensures r.coins == app.coins && r.gameLevel == app.gameLevel
    ensures r.gameState.(coins := app.gameState.coins, currentLevel := app.gameState.currentLevel) == app.gameState
  {
    var g := app.gameState.(coins := app.coins, currentLevel := app.gameLevel);
    app.(gameState := g, store := Saved(g))
  }

  /** Saving twice stores the same thing as saving once. */
  lemma SaveIdempotent(app: AppModel)
    ensures Save(Save(app)) == Save(app)
  {
  }

  /** `checkDailyBonus()`: 20 coins when a previous login exists and was not
      today (`lastLoginIsToday` is the calendar's answer); the login date
      becomes `now`. */
  function CheckDailyBonus(app: AppModel, now: int, lastLoginIsToday: bool): (r: AppModel)
    ensures r.coins == app.coins + (if app.gameState.lastLoginDate.Some? && !lastLoginIsToday then 20 else 0)
    ensures r.gameState.lastLoginDate == Some(now)
    ensures r.gameLevel == app.gameLevel && Synced(r)
    ensures r.gameState.(coins := app.gameState.coins, currentLevel := app.gameState.currentLevel,
                         lastLoginDate := app.gameState.lastLoginDate) == app.gameState
  {
    var credited :=
      if app.gameState.lastLoginDate.Some? && !lastLoginIsToday then
        app.(coins := app.coins + 20, gameState := app.gameState.(coins := app.coins + 20))
      else app;
    Save(credited.(gameState := credited.gameState.(lastLoginDate := Some(now))))
  }

  /** A second check on the same day pays nothing; it only moves the login date. */
  lemma DailyBonusOncePerDay(app: AppModel, first: int, second: int, lastLoginIsToday: bool)
    ensures var once := CheckDailyBonus(app, first, lastLoginIsToday);
      && CheckDailyBonus(once, second, true).coins == once.coins
      && CheckDailyBonus(once, second, true) == once.(gameState := once.gameState.(lastLoginDate := Some(second)),
                                                      store := Saved(once.gameState.(lastLoginDate := Some(second))))
  {
  }

  /** `AppViewModel()`: load the record, take its balance and level, check the daily bonus. */
  function Init(store: Store, now: int, lastLoginIsToday: bool): (r: AppModel)
    ensures r.gameLevel == Load(store).currentLevel
    ensures r.coins == Load(store).coins
      + (if Load(store).lastLoginDate.Some? && !lastLoginIsToday then 20 else 0)
    ensures Synced(r)
    ensures r.gameState.lastLoginDate == Some(now)
    ensures r.gameState.(coins := Load(store).coins, lastLoginDate := Load(store).lastLoginDate) == Load(store)
  {
    var g := Load(store);
    CheckDailyBonus(AppModel(g.currentLevel, g.coins, g, store), now, lastLoginIsToday)
  }

  /** A first launch gets no bonus and starts at level 1 with nothing. */
  lemma FreshLaunch(now: int, today: bool)
    ensures Init(Missing, now, today).coins == 0 && Init(Missing, now, today).gameLevel == 1
  {
  }

  /** `addCoins(_:)`: the amount may be negative (purchases). */
  function AddCoins(app: AppModel, amount: int): (r: AppModel)
    ensures r.coins == app.coins + amount && r.gameLevel == app.gameLevel && Synced(r)
    ensures r.gameState.(coins := app.gameState.coins, currentLevel := app.gameState.currentLevel) == app.gameState
  {
    Save(app.(coins := app.coins + amount, gameState := app.gameState.(coins := app.coins + amount)))
  }

  lemma AddCoinsComposes(app: AppModel, a: int, b: int)
    ensures AddCoins(AddCoins(app, a), b) == AddCoins(app, a + b)
  {
  }

  /** `startGame(level:)`: the given level, or the saved current level. */
  function StartGame(app: AppModel, level: Option<int>): (r: AppModel)
    ensures r.gameLevel == (if level.Some? then level.value else app.gameState.currentLevel)
    ensures r.gameState.currentLevel == r.gameLevel && r.coins == app.coins && Synced(r)
    ensures r.gameState.(coins := app.gameState.coins, currentLevel := app.gameState.currentLevel) == app.gameState
  {
    var start := if level.Some? then level.value else app.gameState.currentLevel;
    Save(app.(gameLevel := start, gameState := app.gameState.(currentLevel := start)))
  }

  /** Starting without a level plays the saved one, and doing it again
      changes nothing more. */
  lemma StartSavedLevel(app: AppModel)
    ensures StartGame(app, None).gameLevel == app.gameState.currentLevel
    ensures StartGame(StartGame(app, None), None) == StartGame(app, None)
  {
  }

  /** `showVictory()`: record the level as completed, count it and pay 10 coins. */
  function ShowVictory(app: AppModel): (r: AppModel)
    ensures r.gameState.maxCompletedLevel
         == (if app.gameLevel > app.gameState.maxCompletedLevel then app.gameLevel else app.gameState.maxCompletedLevel)
    ensures r.gameState.levelsCompleted == app.gameState.levelsCompleted + 1
    ensures r.coins == app.coins + 10 && r.gameLevel == app.gameLevel && Synced(r)
    ensures r.gameState.(coins := app.gameState.coins, currentLevel := app.gameState.currentLevel,
                         maxCompletedLevel := app.gameState.maxCompletedLevel,
                         levelsCompleted := app.gameState.levelsCompleted) == app.gameState
  {
    var g := app.gameState;
    var best := g.(maxCompletedLevel := if app.gameLevel > g.maxCompletedLevel then app.gameLevel else g.maxCompletedLevel);
    var counted := best.(levelsCompleted := best.levelsCompleted + 1);
    Save(app.(coins := app.coins + 10, gameState := counted.(coins := app.coins + 10)))
  }

  /** Winning a level below the cap makes the next level available. */
  lemma VictoryUnlocksNextLevel(app: AppModel)
    requires app.gameLevel < LevelCap
    ensures MaxAvailableLevel(ShowVictory(app).gameState) >= app.gameLevel + 1
    ensures MaxAvailableLevel(ShowVictory(app).gameState) >= MaxAvailableLevel(app.gameState)
  {
  }

  /** `showDefeat()`: only the save. */
  function ShowDefeat(app: AppModel): (r: AppModel)
    ensures r.coins == app.coins && r.gameLevel == app.gameLevel && Synced(r)
    ensures r.gameState.(coins := app.gameState.coins, currentLevel := app.gameState.currentLevel) == app.gameState
  {
    Save(app)
  }

  /** `goToNextLevel()`: the app side; the round reset is `Arcade.Reset`. */
  function GoToNextLevel(app: AppModel): (r: AppModel)
    ensures r.gameLevel == app.gameLevel + 1 && r.gameState.currentLevel == r.gameLevel
    ensures r.coins == app.coins && Synced(r)
    ensures r.gameState.(coins := app.gameState.coins, currentLevel := app.gameState.currentLevel) == app.gameState
  {
    Save(app.(gameLevel := app.gameLevel + 1, gameState := app.gameState.(currentLevel := app.gameLevel + 1)))
  }

  /** The victory overlay's "next level" button runs `goToNextLevel()` after
      `showVictory()`. Below the cap that lands on a level the player may
      pick; on the last level it moves past the cap, since nothing checks it. */
  lemma NextLevelAfterVictory(app: AppModel)
    ensures app.gameLevel < LevelCap ==>
      GoToNextLevel(ShowVictory(app)).gameLevel <= MaxAvailableLevel(GoToNextLevel(ShowVictory(app)).gameState)
    ensures app.gameLevel == LevelCap ==>
      GoToNextLevel(ShowVictory(app)).gameLevel == LevelCap + 1
      && MaxAvailableLevel(GoToNextLevel(ShowVictory(app)).gameState) == LevelCap
  {
  }

  /** `resetAllProgress()`: clears the store, reloads the defaults and zeroes
      balance and level; nothing is saved afterwards. */
  function ResetAllProgress(app: AppModel): (r: AppModel)
    ensures r.coins == 0 && r.gameLevel == 1 && r.gameState == Default && r.store == Missing
  {
    var store := ResetProgress(app.store);
    AppModel(1, 0, Load(store), store)
  }

  /** Whatever happened before, a reset leaves the same app. */
  lemma ResetAllProgressForgets(a: AppModel, b: AppModel)
    ensures ResetAllProgress(a) == ResetAllProgress(b)
  {
  }

  /** The effect on the app of what the arcade session reported. The quiz
      the coin starts is `Quiz.Reset`; the screen change is not modelled. */
  function ApplySignal(app: AppModel, signal: Arcade.Signal): (r: AppModel)
    ensures signal == Arcade.NoteCollected ==>
      r == app.(gameState := app.gameState.(notesCollected := app.gameState.notesCollected + 1))
    ensures signal == Arcade.ShowVictory ==> r == ShowVictory(app)
    ensures signal == Arcade.ShowDefeat ==> r == ShowDefeat(app)
    ensures signal == Arcade.Quiet || signal == Arcade.StartQuiz ==> r == app
  {
    match signal
    case NoteCollected => app.(gameState := app.gameState.(notesCollected := app.gameState.notesCollected + 1))
    case ShowVictory => ShowVictory(app)
    case ShowDefeat => ShowDefeat(app)
    case _ => app
  }
}

=== FILE: common.dfy ===
/** Shared value types and sequence/text helpers used by every component of
    the model: an optional value, duplicate-free lists, the decimal text form
    of integers (Swift string interpolation and `Int(String)`), Swift's
    `split(separator:)` and the Fisher-Yates shuffle behind `shuffle()` and
    `shuffled()`. */
module Common {

  /** Swift's `Optional`. */
  datatype Option<+T> = None | Some(value: T)

  /** No element occurs twice. */
  predicate NoDuplicates<T(==)>(s: seq<T>) {
    forall i, j :: 0 <= i < j < |s| ==> s[i] != s[j]
  }

  /** Elements with pairwise different keys are pairwise different. */
  lemma DistinctByKey<T, K>(s: seq<T>, keys: seq<K>, key: T -> K)
    requires |keys| == |s| && NoDuplicates(keys)
    requires forall i :: 0 <= i < |s| ==> keys[i] == key(s[i])
    ensures NoDuplicates(s)
  {
    forall i, j | 0 <= i < j < |s|
      ensures s[i] != s[j]
    {
      assert keys[i] != keys[j];
    }
  }

  /** `if !list.contains(x) { list.append(x) }`, the idiom the view-models
      use for every owned/unlocked list. */
  function AppendIfAbsent<T(==,!new)>(s: seq<T>, x: T): (r: seq<T>)
    ensures x in r
    ensures forall y :: y in r <==> y in s || y == x
    ensures |s| <= |r| <= |s| + 1 && r[..|s|] == s
    ensures x in s ==> r == s
    ensures NoDuplicates(s) ==> NoDuplicates(r)
  {
    if x in s then s else s + [x]
  }

  /** `map`: `f` applied to every element, in order. */
  function Map<T, U>(s: seq<T>, f: T -> U): (r: seq<U>)
    ensures |r| == |s| && forall i :: 0 <= i < |s| ==> r[i] == f(s[i])
  {
    if |s| == 0 then [] else [f(s[0])] + Map(s[1..], f)
  }

  /** Number of elements that satisfy `p`. */
  function CountWhere<T>(s: seq<T>, p: T -> bool): (n: nat)
    ensures n <= |s|
    ensures n == 0 <==> forall i :: 0 <= i < |s| ==> !p(s[i])
    ensures n == |s| <==> forall i :: 0 <= i < |s| ==> p(s[i])
  {
    if |s| == 0 then 0 else CountWhere(s[..|s| - 1], p) + (if p(s[|s| - 1]) then 1 else 0)
  }

  /** Number of times `x` occurs in `s`. */
  function Occurrences<T(==)>(s: seq<T>, x: T): nat {
    if |s| == 0 then 0 else Occurrences(s[..|s| - 1], x) + (if s[|s| - 1] == x then 1 else 0)
  }

  /** Counting occurrences agrees with the multiset view of the sequence. */
  lemma {:induction false} OccurrencesIsMultiplicity<T>(s: seq<T>, x: T)
    ensures Occurrences(s, x) == multiset(s)[x]
    decreases |s|
  {
    if |s| > 0 {
      var init := s[..|s| - 1];
      OccurrencesIsMultiplicity(init, x);
      assert s == init + [s[|s| - 1]];
    }
  }

  lemma {:induction false} CountWhereUpdate<T>(s: seq<T>, i: nat, v: T, p: T -> bool)
    requires i < |s|
    ensures CountWhere(s[i := v], p) + (if p(s[i]) then 1 else 0)
         == CountWhere(s, p) + (if p(v) then 1 else 0)
    decreases |s|
  {
    var t := s[i := v];
    var n := |s| - 1;
    var last := if p(s[n]) then 1 else 0;
    assert CountWhere(s, p) == CountWhere(s[..n], p) + last;
    if i < n {
      assert t[..n] == s[..n][i := v];
      assert t[n] == s[n];
      assert CountWhere(t, p) == CountWhere(t[..n], p) + last;
      CountWhereUpdate(s[..n], i, v, p);
    } else {
      assert t[..n] == s[..n];
      assert CountWhere(t, p) == CountWhere(s[..n], p) + (if p(v) then 1 else 0);
    }
  }

  // ---------------------------------------------------------------------
  // Decimal text

  predicate IsDigit(c: char) {
    '0' <= c <= '9'
  }

  predicate AllDigits(s: string) {
    forall i :: 0 <= i < |s| ==> IsDigit(s[i])
  }

  function DigitChar(d: nat): (c: char)
    requires d < 10
    ensures IsDigit(c) && c as int - '0' as int == d
  {
    (('0' as int) + d) as char
  }

  /** Value of a string of decimal digits, most significant first. */
  function DigitsValue(s: string): nat
    requires AllDigits(s)
  {
    if |s| == 0 then 0
    else DigitsValue(s[..|s| - 1]) * 10 + (s[|s| - 1] as int - '0' as int)
  }

  /** Shortest decimal form of a natural number, as `"\(n)"` prints it. */
  function NatToString(n: nat): (s: string)
    ensures |s| > 0 && AllDigits(s)
    ensures (n < 10) == (|s| == 1)
  {
    if n < 10 then [DigitChar(n)] else NatToString(n / 10) + [DigitChar(n % 10)]
  }

  lemma {:induction false} NatToStringRoundTrip(n: nat)
    ensures DigitsValue(NatToString(n)) == n
    decreases n
  {
    if n >= 10 {
      var s := NatToString(n);
      assert s[..|s| - 1] == NatToString(n / 10);
      NatToStringRoundTrip(n / 10);
    }
  }

  /** `"\(i)"` for a Swift `Int`: a leading '-' for negative values. */
  function IntToString(i: int): (s: string)
    ensures |s| > 0
    ensures i < 0 <==> s[0] == '-'
  {
    if i < 0 then "-" + NatToString(-i) else NatToString(i)
  }

  /** Swift's `Int(_ text:)` in radix 10: an optional sign followed by at
      least one ASCII digit; anything else is nil. Swift also answers nil
      for values beyond 64 bits; the model returns them unbounded. */
  function ParseInt(s: string): (r: Option<int>)
    ensures r.Some? ==> |s| > 0
    ensures AllDigits(s) && |s| > 0 ==> r == Some(DigitsValue(s))
  {
    if |s| == 0 then None
    else if s[0] == '+' || s[0] == '-' then
      var digits := s[1..];
      if |digits| > 0 && AllDigits(digits) then
        var v: int := DigitsValue(digits);
        Some(if s[0] == '-' then -v else v)
      else None
    else if AllDigits(s) then Some(DigitsValue(s))
    else None
  }

  lemma ParseSigned(digits: string)
    requires |digits| > 0 && AllDigits(digits)
    ensures ParseInt("-" + digits) == Some(-(DigitsValue(digits) as int))
  {
    var s := "-" + digits;
    assert s[0] == '-' && s[1..] == digits;
  }

  lemma ParseUnsigned(digits: string)
    requires |digits| > 0 && AllDigits(digits)
    ensures ParseInt(digits) == Some(DigitsValue(digits))
  {
    assert IsDigit(digits[0]);
  }

  lemma IntToStringRoundTrip(i: int)
    ensures ParseInt(IntToString(i)) == Some(i)
  {
    if i < 0 {
      var digits := NatToString(-i);
      assert IntToString(i) == "-" + digits;
      ParseSigned(digits);
      NatToStringRoundTrip(-i);
    } else {
      var digits := NatToString(i);
      assert IntToString(i) == digits;
      ParseUnsigned(digits);
      NatToStringRoundTrip(i);
    }
  }

  // ---------------------------------------------------------------------
  // Swift `split(separator:)` (empty pieces omitted)

  function SplitFrom(s: string, sep: char, cur: string): (r: seq<string>)
    requires sep !in cur
    ensures forall k :: 0 <= k < |r| ==> |r[k]| > 0 && sep !in r[k]
    decreases |s|
  {
    if |s| == 0 then (if |cur| == 0 then [] else [cur])
    else if s[0] == sep then
      (if |cur| == 0 then [] else [cur]) + SplitFrom(s[1..], sep, [])
    else SplitFrom(s[1..], sep, cur + [s[0]])
  }

  /** The non-empty maximal pieces of `s` between occurrences of `sep`. */
  function Split(s: string, sep: char): (r: seq<string>)
    ensures forall k :: 0 <= k < |r| ==> |r[k]| > 0 && sep !in r[k]
  {
    SplitFrom(s, sep, [])
  }

  lemma {:induction false} SplitFromNoSeparator(s: string, sep: char, cur: string)
    requires sep !in cur && sep !in s
    ensures SplitFrom(s, sep, cur) == if |cur + s| == 0 then [] else [cur + s]
    decreases |s|
  {
    if |s| > 0 {
      assert s[0] in s && s[0] != sep;
      assert forall c :: c in s[1..] ==> c in s;
      assert cur + s == (cur + [s[0]]) + s[1..];
      assert SplitFrom(s, sep, cur) == SplitFrom(s[1..], sep, cur + [s[0]]);
      SplitFromNoSeparator(s[1..], sep, cur + [s[0]]);
    } else {
      assert cur + s == cur;
    }
  }

  lemma {:induction false} SplitFromPiece(a: string, rest: string, sep: char, cur: string)
    requires sep !in cur && sep !in a && |cur + a| > 0
    ensures SplitFrom(a + [sep] + rest, sep, cur) == [cur + a] + SplitFrom(rest, sep, [])
    decreases |a|
  {
    var s := a + [sep] + rest;
    if |a| == 0 {
      assert s[0] == sep && s[1..] == rest;
      assert cur + a == cur;
    } else {
      assert s[0] == a[0] && s[1..] == a[1..] + [sep] + rest;
      assert cur + a == (cur + [a[0]]) + a[1..];
      SplitFromPiece(a[1..], rest, sep, cur + [a[0]]);
    }
  }

  /** Splitting `a + sep + b` recovers the two pieces. */
  lemma SplitTwoPieces(a: string, b: string, sep: char)
    requires |a| > 0 && |b| > 0 && sep !in a && sep !in b
    ensures Split(a + [sep] + b, sep) == [a, b]
  {
    assert [] + a == a;
    SplitFromPiece(a, b, sep, []);
    SplitFromNoSeparator(b, sep, []);
    assert [] + b == b;
  }

  // ---------------------------------------------------------------------
  // Swift's `shuffle()`: for each position k from the front while more than
  // one element remains, draw r in 0..<(n - k) and swap positions k and k + r.

  /** The random draws a shuffle of `n` elements consumes. */
  predicate ValidDraws(n: nat, draws: seq<nat>) {
    && |draws| == (if n == 0 then 0 else n - 1)
    && forall k :: 0 <= k < |draws| ==> draws[k] < n - k
  }

  function Swap<T>(s: seq<T>, i: nat, j: nat): (r: seq<T>)
    requires i < |s| && j < |s|
    ensures |r| == |s| && r[i] == s[j] && r[j] == s[i]
    ensures forall k :: 0 <= k < |s| && k != i && k != j ==> r[k] == s[k]
  {
    s[i := s[j]][j := s[i]]
  }

  function ShuffleFrom<T>(s: seq<T>, k: nat, draws: seq<nat>): (r: seq<T>)
    requires ValidDraws(|s|, draws) && k <= |s|
    ensures |r| == |s|
    decreases |s| - k
  {
    if k + 1 >= |s| then s
    else ShuffleFrom(Swap(s, k, k + draws[k]), k + 1, draws)
  }

  /** Overwriting one element changes the count of `x` only by what left and what came. */
  lemma {:induction false} OccurrencesUpdate<T>(s: seq<T>, i: nat, v: T, x: T)
    requires i < |s|
    ensures Occurrences(s[i := v], x) + (if s[i] == x then 1 else 0)
         == Occurrences(s, x) + (if v == x then 1 else 0)
    decreases |s|
  {
    var t := s[i := v];
    var n := |s| - 1;
    var last := if s[n] == x then 1 else 0;
    assert Occurrences(s, x) == Occurrences(s[..n], x) + last;
    if i < n {
      assert t[..n] == s[..n][i := v];
      assert t[n] == s[n];
      assert Occurrences(t, x) == Occurrences(t[..n], x) + last;
      OccurrencesUpdate(s[..n], i, v, x);
    } else {
      assert t[..n] == s[..n];
      assert Occurrences(t, x) == Occurrences(s[..n], x) + (if v == x then 1 else 0);
    }
  }

  lemma SwapKeepsOccurrences<T>(s: seq<T>, i: nat, j: nat, x: T)
    requires i < |s| && j < |s|
    ensures Occurrences(Swap(s, i, j), x) == Occurrences(s, x)
  {
    if i == j {
      SwapSame(s, i);
    } else {
      var t := s[i := s[j]];
      OccurrencesUpdate(s, i, s[j], x);
      OccurrencesUpdate(t, j, s[i], x);
      assert t[j] == s[j];
      assert Swap(s, i, j) == t[j := s[i]];
    }
  }

  /** Each swap keeps every count, so the whole pass does. */
  lemma {:induction false} ShuffleFromKeepsOccurrences<T>(s: seq<T>, k: nat, draws: seq<nat>, x: T)
    requires ValidDraws(|s|, draws) && k <= |s|
    ensures Occurrences(ShuffleFrom(s, k, draws), x) == Occurrences(s, x)
    decreases |s| - k
  {
    if k + 1 < |s| {
      var t := Swap(s, k, k + draws[k]);
      assert ShuffleFrom(s, k, draws) == ShuffleFrom(t, k + 1, draws);
      SwapKeepsOccurrences(s, k, k + draws[k], x);
      ShuffleFromKeepsOccurrences(t, k + 1, draws, x);
    }
  }

  /** Two sequences with the same count of every value are permutations. */
  lemma SameOccurrencesSameMultiset<T>(a: seq<T>, b: seq<T>)
    requires forall x :: Occurrences(a, x) == Occurrences(b, x)
    ensures multiset(a) == multiset(b)
  {
    forall x
      ensures multiset(a)[x] == multiset(b)[x]
    {
      OccurrencesIsMultiplicity(a, x);
      OccurrencesIsMultiplicity(b, x);
    }
  }

  lemma ShuffleFromPermutes<T>(s: seq<T>, k: nat, draws: seq<nat>)
    requires ValidDraws(|s|, draws) && k <= |s|
    ensures multiset(ShuffleFrom(s, k, draws)) == multiset(s)
  {
    var r := ShuffleFrom(s, k, draws);
    forall x
      ensures Occurrences(r, x) == Occurrences(s, x)
    {
      ShuffleFromKeepsOccurrences(s, k, draws, x);
    }
    SameOccurrencesSameMultiset(r, s);
  }

  /** Swapping two positions keeps a duplicate-free sequence duplicate-free. */
  lemma SwapKeepsDistinct<T>(s: seq<T>, i: nat, j: nat)
    requires i < |s| && j < |s| && NoDuplicates(s)
    ensures NoDuplicates(Swap(s, i, j))
  {
    var r := Swap(s, i, j);
    forall a, b | 0 <= a < b < |r|
      ensures r[a] != r[b]
    {
      var a' := if a == i then j else if a == j then i else a;
      var b' := if b == i then j else if b == j then i else b;
      assert r[a] == s[a'] && r[b] == s[b'] && a' != b';
    }
  }

  lemma {:induction false} ShuffleFromKeepsDistinct<T>(s: seq<T>, k: nat, draws: seq<nat>)
    requires ValidDraws(|s|, draws) && k <= |s|
    ensures NoDuplicates(s) ==> NoDuplicates(ShuffleFrom(s, k, draws))
    decreases |s| - k
  {
    if k + 1 < |s| && NoDuplicates(s) {
      var t := Swap(s, k, k + draws[k]);
      assert ShuffleFrom(s, k, draws) == ShuffleFrom(t, k + 1, draws);
      SwapKeepsDistinct(s, k, k + draws[k]);
      ShuffleFromKeepsDistinct(t, k + 1, draws);
    }
  }

  /** `s.shuffled()` with the generator's draws given explicitly. */
  function Shuffle<T(!new)>(s: seq<T>, draws: seq<nat>): (r: seq<T>)
    requires ValidDraws(|s|, draws)
    ensures |r| == |s| && multiset(r) == multiset(s)
    ensures forall x :: x in r <==> x in s
    ensures NoDuplicates(s) ==> NoDuplicates(r)
  {
    var r := ShuffleFrom(s, 0, draws);
    ShuffleFromPermutes(s, 0, draws);
    ShuffleFromKeepsDistinct(s, 0, draws);
    assert forall x :: x in r <==> x in multiset(r);
    r
  }

  /** The first `n` elements of a shuffled copy of `s`. */
  function ShuffledPrefix<T(!new)>(s: seq<T>, n: nat, draws: seq<nat>): (r: seq<T>)
    requires ValidDraws(|s|, draws) && n <= |s|
    ensures |r| == n
    ensures forall i :: 0 <= i < |r| ==> r[i] in s
    ensures NoDuplicates(s) ==> NoDuplicates(r)
    ensures n == |s| ==> multiset(r) == multiset(s)
  {
    var shuffled := Shuffle(s, draws);
    var r := shuffled[..n];
    assert forall i :: 0 <= i < n ==> r[i] == shuffled[i];
    assert n == |s| ==> r == shuffled;
    r
  }

  lemma SwapSame<T>(s: seq<T>, k: nat)
    requires k < |s|
    ensures Swap(s, k, k) == s
  {
    assert s[k := s[k]] == s;
  }
}

=== FILE: game_scene.dfy ===
/** The arcade's physics scene (`GameScene`) without its rendering: the
    activity flag that gates every handler, routing of raw two-body contacts
    to caught / coin / missed events, the `"note-<rawValue>"` node names, the
    catcher clamp and the spawn ranges. Positions are integers and sprite
    half-widths are given as integers. */
module Scene {
  import opened Common
  import opened NoteTypes

  // Physics category bit masks (`PhysicsCategory`).
  const CategoryNone: nat := 0
  const CategoryGuitar: nat := 1
  const CategoryNote: nat := 2
  const CategoryGoldCoin: nat := 4
  const CategoryGround: nat := 8

  /** One side of a contact: its category bit mask and the name of its node
      (None when the node or its name is missing). */
  datatype Body = Body(category: nat, name: Option<string>)

  /** What `didBegin` decides a contact is, carrying the body it acts on. */
  datatype Contact = NoteCaught(note: Body) | CoinCaught(coin: Body) | NoteMissed(note: Body) | Ignored

  predicate IsPair(a: Body, b: Body, x: nat, y: nat) {
    (a.category == x && b.category == y) || (a.category == y && b.category == x)
  }

  /** `didBegin(_:)`: the first matching rule wins; the acted-on body is the
      one whose category is note (or coin). */
  function Classify(a: Body, b: Body): (c: Contact)
    ensures c.NoteCaught? <==> IsPair(a, b, CategoryGuitar, CategoryNote)
    ensures c.CoinCaught? <==> IsPair(a, b, CategoryGuitar, CategoryGoldCoin)
    ensures c.NoteMissed? <==> IsPair(a, b, CategoryGround, CategoryNote)
    ensures c.NoteCaught? || c.NoteMissed? ==> c.note in [a, b] && c.note.category == CategoryNote
    ensures c.CoinCaught? ==> c.coin in [a, b] && c.coin.category == CategoryGoldCoin
  {
    if IsPair(a, b, CategoryGuitar, CategoryNote) then
      NoteCaught(if a.category == CategoryNote then a else b)
    else if IsPair(a, b, CategoryGuitar, CategoryGoldCoin) then
      CoinCaught(if a.category == CategoryGoldCoin then a else b)
    else if IsPair(a, b, CategoryGround, CategoryNote) then
      NoteMissed(if a.category == CategoryNote then a else b)
    else Ignored
  }

  /** The order in which the physics engine reports the two bodies does not matter. */
  lemma ClassifySymmetric(a: Body, b: Body)
    ensures Classify(a, b) == Classify(b, a)
  {
  }

  /** Name given to a spawned note node, `"note-<rawValue>"`; the contact
      handler reads the type back from it. */
  function NodeName(t: NoteType): (r: string)
    ensures ParseNodeName(r) == Some(t)
  {
    var digits := NatToString(RawValue(t));
    assert '-' !in digits by {
      forall i | 0 <= i < |digits| ensures digits[i] != '-' { assert IsDigit(digits[i]); }
    }
    var r := "note-" + digits;
    assert r == "note" + ['-'] + digits;
    SplitTwoPieces("note", digits, '-');
    NatToStringRoundTrip(RawValue(t));
    r
  }

  /** Recovering the note type from a node name: split at '-', parse the
      second piece as an `Int`, then `NoteType(rawValue:)`. */
  function ParseNodeName(name: string): (r: Option<NoteType>)
    ensures r.Some? ==> |Split(name, '-')| > 1
  {
    var pieces := Split(name, '-');
    if |pieces| > 1 then
      match ParseInt(pieces[1])
      case Some(raw) => FromRawValue(raw)
      case None => None
    else None
  }

  /** The coin sprite's name never parses as a note. */
  lemma CoinNameIsNoNote()
    ensures ParseNodeName("goldCoin") == None
  {
    SplitFromNoSeparator("goldCoin", '-', []);
    assert [] + "goldCoin" == "goldCoin";
  }

  // ---------------------------------------------------------------------
  // Scene state

  /** `isGameActive` gates the handlers; `paused` is `SKScene.isPaused`,
      which freezes the physics. */
  datatype SceneState = SceneState(active: bool, paused: bool)

  /** A scene before `didMove(to:)`: not yet active. */
  const Initial := SceneState(false, false)

  function DidMove(s: SceneState): (r: SceneState)
    ensures r.active && r.paused == s.paused
  {
    s.(active := true)
  }

  function Pause(s: SceneState): (r: SceneState)
    ensures !r.active && r.paused
  {
    SceneState(false, true)
  }

  /** `resumeGame()`. `resetGame()` first removes the falling notes and
      coins, which are not modelled, and then does the same. */
  function Resume(s: SceneState): (r: SceneState)
    ensures r.active && !r.paused
  {
    SceneState(true, false)
  }

  /** What the scene reports to its delegate for one contact. */
  datatype SceneEvent = CollectNote(t: NoteType) | MissNote(t: NoteType) | CollectCoin | NoEvent

  /** `didBegin` followed by the handler it selects: note contacts need an
      active scene and a parsable node name; coin contacts an active scene. */
  function HandleContact(s: SceneState, a: Body, b: Body): (e: SceneEvent)
    ensures !s.active ==> e == NoEvent
    ensures e.CollectNote? <==>
      s.active && Classify(a, b).NoteCaught? && Classify(a, b).note.name.Some?
      && ParseNodeName(Classify(a, b).note.name.value).Some?
    ensures e.MissNote? <==>
      s.active && Classify(a, b).NoteMissed? && Classify(a, b).note.name.Some?
      && ParseNodeName(Classify(a, b).note.name.value).Some?
    ensures e.CollectCoin? <==> s.active && Classify(a, b).CoinCaught?
  {
    if !s.active then NoEvent
    else match Classify(a, b)
      case NoteCaught(n) =>
        if n.name.Some? && ParseNodeName(n.name.value).Some?
        then CollectNote(ParseNodeName(n.name.value).value) else NoEvent
      case NoteMissed(n) =>
        if n.name.Some? && ParseNodeName(n.name.value).Some?
        then MissNote(ParseNodeName(n.name.value).value) else NoEvent
      case CoinCaught(_) => CollectCoin
      case Ignored => NoEvent
  }

  /** A spawned note meeting the catcher, in either body order, reports its own type. */
  lemma CatchReportsSpawnedType(s: SceneState, t: NoteType, catcher: Option<string>, swap: bool)
    requires s.active
    ensures var note := Body(CategoryNote, Some(NodeName(t)));
            var guitar := Body(CategoryGuitar, catcher);
            HandleContact(s, if swap then guitar else note, if swap then note else guitar) == CollectNote(t)
  {
  }

  /** A spawned note reaching the ground, in either body order, reports its own type. */
  lemma MissReportsSpawnedType(s: SceneState, t: NoteType, ground: Option<string>, swap: bool)
    requires s.active
    ensures var note := Body(CategoryNote, Some(NodeName(t)));
            var floor := Body(CategoryGround, ground);
            HandleContact(s, if swap then floor else note, if swap then note else floor) == MissNote(t)
  {
  }

  /** A paused scene reports no contact, ignores touches and spawns nothing;
      `didMove`, `resumeGame()` and `resetGame()` turn all three back on. */
  lemma PauseSilencesScene(s: SceneState, a: Body, b: Body, sceneWidth: int, guitarHalf: int, x: int,
                           roll: nat, index: nat)
    requires roll < 10 && index < |Candidates(true)|
    ensures HandleContact(Pause(s), a, b) == NoEvent
    ensures MoveGuitar(Pause(s), sceneWidth, guitarHalf, x).None? && SpawnTick(Pause(s), roll, index).None?
    ensures forall r :: r in [DidMove(s), Resume(s)] ==>
      MoveGuitar(r, sceneWidth, guitarHalf, x).Some? && SpawnTick(r, roll, index).Some?
  {
  }

  // ---------------------------------------------------------------------
  // Positions

  /** `moveGuitar(to:)`: the x the catcher moves to, or None while inactive. */
  function MoveGuitar(s: SceneState, sceneWidth: int, guitarHalf: int, x: int): (r: Option<int>)
    ensures r.Some? <==> s.active
    ensures r.Some? && guitarHalf <= sceneWidth - guitarHalf ==>
      guitarHalf <= r.value <= sceneWidth - guitarHalf
    ensures r.Some? && guitarHalf <= x <= sceneWidth - guitarHalf ==> r.value == x
    ensures r.Some? && x < guitarHalf <= sceneWidth - guitarHalf ==> r.value == guitarHalf
    ensures r.Some? && guitarHalf <= sceneWidth - guitarHalf < x ==> r.value == sceneWidth - guitarHalf
  {
    if !s.active then None
    else
      var minX := guitarHalf;
      var maxX := sceneWidth - guitarHalf;
      Some(if maxX < (if minX < x then x else minX) then maxX else (if minX < x then x else minX))
  }

  const NoteMargin: int := 16
  const CoinMargin: int := 8

  /** `CGFloat.random(in: margin + half ... width - margin - half)` with the
      drawn offset `pick` from the lower bound; None where Swift traps on an
      empty range. */
  function SpawnX(sceneWidth: int, margin: int, half: int, pick: nat): (r: Option<int>)
    ensures r.Some? <==> margin + half <= sceneWidth - margin - half
    ensures r.Some? ==> margin + half <= r.value <= sceneWidth - margin - half
  {
    var lo := margin + half;
    var hi := sceneWidth - margin - half;
    if lo <= hi then Some(lo + pick % (hi - lo + 1)) else None
  }

  /** Every point of the spawn range is produced by some draw. */
  lemma SpawnXCoversRange(sceneWidth: int, margin: int, half: int, x: int)
    requires margin + half <= x <= sceneWidth - margin - half
    ensures SpawnX(sceneWidth, margin, half, (x - margin - half) as nat) == Some(x)
  {
  }

  /** The note type `spawnNote` creates: the key when the 0...9 roll is 0,
      otherwise a non-key pick. */
  function SpawnNoteType(roll: nat, index: nat): (t: NoteType)
    requires roll < 10 && index < |Candidates(true)|
    ensures t == Key <==> roll == 0
  {
    if roll == 0 then Key else Random(true, index)
  }

  /** The repeating note-spawn timer fires a spawn only while active. */
  function SpawnTick(s: SceneState, roll: nat, index: nat): (r: Option<NoteType>)
    requires roll < 10 && index < |Candidates(true)|
    ensures r.Some? <==> s.active
    ensures r.Some? ==> (r.value == Key <==> roll == 0)
  {
    if s.active then Some(SpawnNoteType(roll, index)) else None
  }
}

=== FILE: game_session.dfy ===
/** The arcade session (`GameViewModel` with the scene it drives): score,
    lives, the countdown in deciseconds, the target note and its rotation,
    pause, reset and the end of the game. Calls the view-model makes into the
    app are returned as a `Signal`; timer fires and random draws are explicit
    parameters. */
module Arcade {
  import opened Common
  import opened NoteTypes
  import Scene

  const StartLives: int := 3
  /** 60 seconds, in tenths of a second. */
  const GameDuration: int := 600

  datatype Session = Session(
    score: int,
    target: NoteType,
    lives: int,
    time: int,
    isPaused: bool,
    showVictoryOverlay: bool,
    showDefeatOverlay: bool,
    scene: Scene.SceneState)

  /** The call a step makes into the app view-model, if any. */
  datatype Signal = Quiet | NoteCollected | ShowVictory | ShowDefeat | StartQuiz

  datatype Step = Step(session: Session, signal: Signal)

  /** `GameViewModel()`: property defaults, then `setupTimers()` draws the
      first target (`index` is the draw). The scene has not been presented. */
  function New(index: nat): (s: Session)
    requires index < |Candidates(true)|
    ensures s.score == 0 && s.lives == StartLives && s.time == GameDuration
    ensures !s.isPaused && !s.showVictoryOverlay && !s.showDefeatOverlay
    ensures s.target != Key && !s.scene.active
  {
    Session(0, Random(true, index), StartLives, GameDuration, false, false, false, Scene.Initial)
  }

  /** The session is over: timers stopped, view-model paused, scene inactive and frozen. */
  predicate Ended(s: Session) {
    s.isPaused && !s.scene.active && s.scene.paused
  }

  /** `gameOver(win:)`: `cleanup()` stops everything, then the matching
      overlay is raised and the app is told. */
  function GameOver(s: Session, win: bool): (r: Step)
    ensures Ended(r.session)
    ensures r.signal == (if win then ShowVictory else ShowDefeat)
    ensures r.session.showVictoryOverlay == (win || s.showVictoryOverlay)
    ensures r.session.showDefeatOverlay == (!win || s.showDefeatOverlay)
    ensures r.session.(isPaused := s.isPaused, scene := s.scene,
                       showVictoryOverlay := s.showVictoryOverlay,
                       showDefeatOverlay := s.showDefeatOverlay) == s
  {
    var stopped := s.(isPaused := true, scene := Scene.Pause(s.scene));
    if win then Step(stopped.(showVictoryOverlay := true), ShowVictory)
    else Step(stopped.(showDefeatOverlay := true), ShowDefeat)
  }

  /** `didCollectNote(ofType:)`: the target scores a point, any other note
      costs a life and may end the game in defeat. */
  function CollectNote(s: Session, t: NoteType): (r: Step)
    ensures t == s.target ==>
      r == Step(s.(score := s.score + 1), NoteCollected)
    ensures t != s.target ==>
      r.session.lives == s.lives - 1 && r.session.score == s.score
      && r.session.time == s.time && r.session.target == s.target
    ensures t != s.target && s.lives - 1 <= 0 ==>
      Ended(r.session) && r.session.showDefeatOverlay && r.signal == ShowDefeat
    ensures t != s.target && s.lives - 1 > 0 ==>
      r == Step(s.(lives := s.lives - 1), Quiet)
  {
    if t == s.target then Step(s.(score := s.score + 1), NoteCollected)
    else
      var hit := s.(lives := s.lives - 1);
      if hit.lives <= 0 then GameOver(hit, false) else Step(hit, Quiet)
  }

  /** A caught target adds one point, the value every note type carries. */
  lemma TargetScoresItsPoints(s: Session)
    ensures CollectNote(s, s.target).session.score == s.score + Points(s.target)
    ensures CollectNote(s, s.target).session.lives == s.lives
  {
  }

  /** `didMissNote()`: any note reaching the ground costs a life. */
  function MissNote(s: Session): (r: Step)
    ensures r.session.lives == s.lives - 1 && r.session.score == s.score
    ensures r.session.time == s.time && r.session.target == s.target
    ensures s.lives - 1 <= 0 ==> Ended(r.session) && r.session.showDefeatOverlay && r.signal == ShowDefeat
    ensures s.lives - 1 > 0 ==> r == Step(s.(lives := s.lives - 1), Quiet)
  {
    var hit := s.(lives := s.lives - 1);
    if hit.lives <= 0 then GameOver(hit, false) else Step(hit, Quiet)
  }

  /** `didCollectGoldCoin()`: hands over to the bonus quiz, nothing else. */
  function CollectCoin(s: Session): (r: Step)
    ensures r.session == s && r.signal == StartQuiz
  {
    Step(s, StartQuiz)
  }

  /** One fire of the 0.1 s countdown timer. */
  function Tick(s: Session): (r: Step)
    ensures s.isPaused ==> r == Step(s, Quiet)
    ensures !s.isPaused ==> r.session.time == s.time - 1
    ensures !s.isPaused && s.time - 1 <= 0 ==>
      Ended(r.session) && r.session.showVictoryOverlay && r.signal == ShowVictory
    ensures !s.isPaused && s.time - 1 > 0 ==> r == Step(s.(time := s.time - 1), Quiet)
    ensures r.session.score == s.score && r.session.lives == s.lives && r.session.target == s.target
  {
    if s.isPaused then Step(s, Quiet)
    else
      var later := s.(time := s.time - 1);
      if later.time <= 0 then GameOver(later, true) else Step(later, Quiet)
  }

  /** The `repeat ... while newType == targetNoteType` loop over the given
      draws: the first non-key note that differs from `current`, or None if
      every draw repeated it. */
  function Redraw(current: NoteType, draws: seq<nat>): (r: Option<NoteType>)
    requires forall i :: 0 <= i < |draws| ==> draws[i] < |Candidates(true)|
    ensures r.Some? ==> r.value != Key && r.value != current
    ensures r.None? <==> forall i :: 0 <= i < |draws| ==> Random(true, draws[i]) == current
    ensures r.Some? ==> exists i :: 0 <= i < |draws| && Random(true, draws[i]) == r.value
                                    && forall j :: 0 <= j < i ==> Random(true, draws[j]) == current
  {
    if |draws| == 0 then None
    else
      var t := Random(true, draws[0]);
      if t != current then Some(t)
      else
        var rest := Redraw(current, draws[1..]);
        assert forall i :: 1 <= i < |draws| ==> draws[i] == draws[1..][i - 1];
        if rest.Some? then FirstDifferingShifts(current, draws, rest.value); rest else rest
  }

  /** A first draw that repeats `current` moves the first differing draw of
      the rest one place later. */
  lemma FirstDifferingShifts(current: NoteType, draws: seq<nat>, v: NoteType)
    requires forall i :: 0 <= i < |draws| ==> draws[i] < |Candidates(true)|
    requires |draws| > 0 && Random(true, draws[0]) == current
    requires exists k :: 0 <= k < |draws| - 1 && Random(true, draws[1..][k]) == v
                         && forall j :: 0 <= j < k ==> Random(true, draws[1..][j]) == current
    ensures exists i :: 0 <= i < |draws| && Random(true, draws[i]) == v
                        && forall j :: 0 <= j < i ==> Random(true, draws[j]) == current
  {
    var k :| 0 <= k < |draws| - 1 && Random(true, draws[1..][k]) == v
             && forall j :: 0 <= j < k ==> Random(true, draws[1..][j]) == current;
    assert forall j :: 1 <= j <= k ==> draws[j] == draws[1..][j - 1];
    assert Random(true, draws[k + 1]) == v;
  }

  /** One fire of the 10 s target-rotation timer; the draws must eventually
      produce a different note, as the source's loop runs until they do. */
  function Rotate(s: Session, draws: seq<nat>): (r: Session)
    requires forall i :: 0 <= i < |draws| ==> draws[i] < |Candidates(true)|
    requires s.isPaused || Redraw(s.target, draws).Some?
    ensures s.isPaused ==> r == s
    ensures !s.isPaused ==> r.target != s.target && r.target != Key
    ensures r.(target := s.target) == s
  {
    if s.isPaused then s else s.(target := Redraw(s.target, draws).value)
  }

  /** Any non-key note other than the current target can become the next target. */
  lemma RotateReachesEveryOtherNote(s: Session, t: NoteType)
    requires !s.isPaused && t != Key && t != s.target
    ensures exists d: nat :: d < |Candidates(true)| && Random(true, d) == t && Rotate(s, [d]).target == t
  {
    RandomReachesEveryCandidate(true, t);
    var d :| 0 <= d < |Candidates(true)| && Random(true, d) == t;
    assert Redraw(s.target, [d]) == Some(t);
    assert Rotate(s, [d]).target == t;
  }

  /** `togglePause(_:)`: pausing is refused while an overlay is showing;
      resuming is never refused. */
  function TogglePause(s: Session, paused: bool): (r: Session)
    ensures paused && (s.showVictoryOverlay || s.showDefeatOverlay) ==> r == s
    ensures paused && !(s.showVictoryOverlay || s.showDefeatOverlay) ==> Ended(r)
    ensures !paused ==> !r.isPaused && r.scene.active && !r.scene.paused
    ensures r.(isPaused := s.isPaused, scene := s.scene) == s
  {
    if paused && (s.showVictoryOverlay || s.showDefeatOverlay) then s
    else if paused then s.(isPaused := true, scene := Scene.Pause(s.scene))
    else s.(isPaused := false, scene := Scene.Resume(s.scene))
  }

  /** `resetGame()`: a fresh round with a newly drawn non-key target. */
  function Reset(s: Session, index: nat): (r: Session)
    requires index < |Candidates(true)|
    ensures r.score == 0 && r.lives == StartLives && r.time == GameDuration
    ensures !r.isPaused && !r.showVictoryOverlay && !r.showDefeatOverlay
    ensures r.target != Key && r.scene.active && !r.scene.paused
  {
    Session(0, Random(true, index), StartLives, GameDuration, false, false, false, Scene.Resume(s.scene))
  }

  /** Reset forgets everything about the round it replaces. */
  lemma ResetForgetsHistory(s1: Session, s2: Session, index: nat)
    requires index < |Candidates(true)|
    ensures Reset(s1, index) == Reset(s2, index)
  {
  }

  /** `didMove(to:)` on the session's scene: the view presents the scene
      after creating the view-model, and only then do contacts, touches and
      spawns reach it. */
  function Present(s: Session): (r: Session)
    ensures r.scene.active && r.scene.paused == s.scene.paused
    ensures r.(scene := s.scene) == s
  {
    s.(scene := Scene.DidMove(s.scene))
  }

  /** A new game, once presented, scores its first caught target. */
  lemma PresentedGameScores(index: nat, catcher: Option<string>, swap: bool)
    requires index < |Candidates(true)|
    ensures var s := Present(New(index));
            var note := Scene.Body(Scene.CategoryNote, Some(Scene.NodeName(s.target)));
            var guitar := Scene.Body(Scene.CategoryGuitar, catcher);
            var r := Contact(s, if swap then guitar else note, if swap then note else guitar);
            r.session.score == 1 && r.signal == NoteCollected
  {
    CatchingTargetScores(Present(New(index)), catcher, swap);
  }

  /** A raw physics contact routed through the scene into the view-model.
      A missed note goes to the view-model's `didMissNote()`. */
  function Contact(s: Session, a: Scene.Body, b: Scene.Body): (r: Step)
    ensures !s.scene.active ==> r == Step(s, Quiet)
  {
    match Scene.HandleContact(s.scene, a, b)
    case CollectNote(t) => CollectNote(s, t)
    case MissNote(_) => MissNote(s)
    case CollectCoin => CollectCoin(s)
    case NoEvent => Step(s, Quiet)
  }

  /** A spawned note reaching the ground, in either body order, goes to
      `didMissNote()` whatever its type. */
  lemma MissCostsALife(s: Session, t: NoteType, ground: Option<string>, swap: bool)
    requires s.scene.active
    ensures var note := Scene.Body(Scene.CategoryNote, Some(Scene.NodeName(t)));
            var floor := Scene.Body(Scene.CategoryGround, ground);
            var r := Contact(s, if swap then floor else note, if swap then note else floor);
            && r == MissNote(s)
            && r.session.lives == s.lives - 1 && r.session.score == s.score
  {
    Scene.MissReportsSpawnedType(s.scene, t, ground, swap);
  }

  /** Catching a spawned note of another type than the target costs a life
      and scores nothing. */
  lemma WrongCatchCostsALife(s: Session, t: NoteType, catcher: Option<string>, swap: bool)
    requires s.scene.active && t != s.target
    ensures var note := Scene.Body(Scene.CategoryNote, Some(Scene.NodeName(t)));
            var guitar := Scene.Body(Scene.CategoryGuitar, catcher);
            var r := Contact(s, if swap then guitar else note, if swap then note else guitar);
            && r.session.lives == s.lives - 1 && r.session.score == s.score
            && r.signal != NoteCollected
  {
    Scene.CatchReportsSpawnedType(s.scene, t, catcher, swap);
  }

  /** Catching a spawned note of the target type scores exactly one point. */
  lemma CatchingTargetScores(s: Session, catcher: Option<string>, swap: bool)
    requires s.scene.active
    ensures var note := Scene.Body(Scene.CategoryNote, Some(Scene.NodeName(s.target)));
            var guitar := Scene.Body(Scene.CategoryGuitar, catcher);
            Contact(s, if swap then guitar else note, if swap then note else guitar)
              == Step(s.(score := s.score + 1), NoteCollected)
  {
    Scene.CatchReportsSpawnedType(s.scene, s.target, catcher, swap);
  }

  // ---------------------------------------------------------------------
  // Runs of events

  /** Events that can reach a running session without the player resuming it. */
  datatype Event = TickEvent | ContactEvent(a: Scene.Body, b: Scene.Body) | PauseRequest

  function Apply(s: Session, e: Event): (r: Step)
  {
    match e
    case TickEvent => Tick(s)
    case ContactEvent(a, b) => Contact(s, a, b)
    case PauseRequest => Step(TogglePause(s, true), Quiet)
  }

  /** Applies events in order, collecting the signals sent to the app. */
  function Run(s: Session, events: seq<Event>): (r: (Session, seq<Signal>))
    ensures |r.1| == |events|
    decreases |events|
  {
    if |events| == 0 then (s, [])
    else
      var step := Apply(s, events[0]);
      var rest := Run(step.session, events[1..]);
      (rest.0, [step.signal] + rest.1)
  }

  /** After the game has ended, ticks, contacts and pause requests change
      nothing and tell the app nothing, so victory or defeat is reported once. */
  lemma {:induction false} EndedIsInert(s: Session, events: seq<Event>)
    requires Ended(s)
    ensures Run(s, events).0 == s
    ensures forall i :: 0 <= i < |events| ==> Run(s, events).1[i] == Quiet
    decreases |events|
  {
    if |events| > 0 {
      assert Apply(s, events[0]) == Step(s, Quiet);
      EndedIsInert(s, events[1..]);
    }
  }

  /** Lives stay non-negative and reaching zero ends the game, over every run
      of ticks, contacts and pause requests; a resume is not among them. */
  predicate LivesInvariant(s: Session) {
    s.lives >= 0 && (s.lives == 0 ==> Ended(s) && s.showDefeatOverlay)
  }

  lemma {:induction false} LivesInvariantPreserved(s: Session, events: seq<Event>)
    requires LivesInvariant(s)
    ensures LivesInvariant(Run(s, events).0)
    decreases |events|
  {
    if |events| > 0 {
      var step := Apply(s, events[0]);
      assert LivesInvariant(step.session) by {
        if s.lives == 0 {
          assert Ended(s);
          assert step.session == s || events[0].PauseRequest?;
        }
      }
      LivesInvariantPreserved(step.session, events[1..]);
    }
  }

  /** Resuming is not refused after the game has ended: it restarts the
      countdown and reactivates the scene even with an overlay showing. */
  lemma ResumeAfterEndRestarts(s: Session)
    requires Ended(s) && s.showVictoryOverlay
    ensures !TogglePause(s, false).isPaused && TogglePause(s, false).scene.active
  {
  }

  /** So a won game whose clock has run out, once resumed, reports victory
      again on the next tick, and the app pays for it again. */
  lemma ResumeAfterVictoryReportsAgain(s: Session)
    requires Ended(s) && s.showVictoryOverlay && s.time <= 0
    ensures Tick(s).signal == Quiet
    ensures Tick(TogglePause(s, false)).signal == ShowVictory
  {
  }

  /** The invariant does not survive a resume: a game lost on its last life,
      once resumed, loses a life below zero at the next miss and reports
      defeat a second time. */
  lemma ResumeAfterDefeatLosesAgain(s: Session)
    requires LivesInvariant(s) && s.lives == 0
    ensures Tick(s).signal == Quiet
    ensures var r := MissNote(TogglePause(s, false));
      && r.session.lives == -1 && !LivesInvariant(r.session) && r.signal == ShowDefeat
  {
  }
}

=== FILE: game_state.dfy ===
/** The persisted progress record (`GameState`), its defaults, the level
    unlock cap and the fallback-to-default load. Dates are integer
    timestamps; the key-value store is a value of `Store`. */
module Progress {
  import opened Common

  datatype GameState = GameState(
    currentLevel: int,
    maxCompletedLevel: int,
    coins: int,
    lastLoginDate: Option<int>,
    completedAchievements: seq<string>,
    notifiedAchievements: seq<string>,
    unlockedMiniGames: seq<string>,
    purchasedThemes: seq<string>,
    currentThemeId: string,
    purchasedInstruments: seq<string>,
    purchasedBackgrounds: seq<string>,
    currentInstrumentId: string,
    currentBackgroundId: string,
    tutorialCompleted: bool,
    levelsCompleted: int,
    notesCollected: int,
    perfectLevels: int,
    lastDailyRewardClaimDate: Option<int>)

  /** Highest level a player may pick. */
  const LevelCap: int := 15

  /** `GameState()`: the record a fresh profile starts from. */
  const Default := GameState(
    1, 0, 0, None,
    [], [],
    ["guess_number"], ["default"], "default",
    ["guitar"], ["bg2"], "guitar", "bg2",
    false,
    0, 0, 0,
    None)

  /** The defaults the rest of the model relies on. */
  lemma DefaultValues()
    ensures Default.currentLevel == 1 && Default.maxCompletedLevel == 0 && Default.coins == 0
    ensures Default.currentInstrumentId in Default.purchasedInstruments
    ensures Default.currentInstrumentId == "guitar" && Default.currentBackgroundId == "bg2"
    ensures Default.currentBackgroundId in Default.purchasedBackgrounds
    ensures Default.levelsCompleted == 0 && Default.notesCollected == 0 && Default.perfectLevels == 0
    ensures |Default.completedAchievements| == 0 && |Default.notifiedAchievements| == 0
  {
  }

  /** `maxAvailableLevel`: one past the best completed level, capped at 15. */
  function MaxAvailableLevel(g: GameState): (r: int)
    ensures r <= LevelCap
    ensures r <= g.maxCompletedLevel + 1
    ensures r == LevelCap || r == g.maxCompletedLevel + 1
  {
    if g.maxCompletedLevel + 1 < LevelCap then g.maxCompletedLevel + 1 else LevelCap
  }

  /** What the key-value store holds under the profile key. */
  datatype Store = Missing | Undecodable | Saved(state: GameState)

  /** `GameState.load()`: the stored record, or the defaults when nothing
      is stored or decoding fails. */
  function Load(store: Store): (g: GameState)
    ensures store.Saved? ==> g == store.state
    ensures !store.Saved? ==> g == Default
  {
    match store
    case Saved(state) => state
    case _ => Default
  }

  /** `save()` then `load()` gives back the record. */
  lemma SaveLoadRoundTrip(g: GameState)
    ensures Load(Saved(g)) == g
  {
  }

  /** `resetProgress()` removes the stored record. */
  function ResetProgress(store: Store): (r: Store)
    ensures Load(r) == Default
  {
    Missing
  }
}

=== FILE: guess_number.dfy ===
/** The number-guessing mini-game (`GuessNumberViewModel`): a hidden number
    in 0...999, a count of attempts and a feedback line after each guess.
    The random draw of the hidden number is a parameter. */
module GuessNumber {
  import opened Common

  const MinNumber: int := 0
  const MaxNumber: int := 999
  const Prompt: string := "Use the slider to guess the number"

  const CorrectPrefix: string := "Correct! You guessed it in "
  const CorrectSuffix: string := " attempts."
  const HigherPrefix: string := "Higher! The number is greater than "
  const LowerPrefix: string := "Lower! The number is less than "
  const HintSuffix: string := "."

  datatype Status = Playing | Guessed(correct: bool, message: string)

  /** `feedback` is `feedbackMessage`. */
  datatype Game = Game(status: Status, target: int, attempts: int, feedback: string)

  /** `"Correct! You guessed it in \(attempts) attempts."` */
  function CorrectMessage(attempts: int): string {
    CorrectPrefix + IntToString(attempts) + CorrectSuffix
  }

  /** `"Higher! The number is greater than \(guess)."` */
  function HigherMessage(guess: int): string {
    HigherPrefix + IntToString(guess) + HintSuffix
  }

  /** `"Lower! The number is less than \(guess)."` */
  function LowerMessage(guess: int): string {
    LowerPrefix + IntToString(guess) + HintSuffix
  }

  /** `startNewGame()`, with the drawn number: a new hidden number, no
      attempts, the prompt, and play. */
  function StartNewGame(g: Game, draw: int): (r: Game)
    requires MinNumber <= draw <= MaxNumber
    ensures MinNumber <= r.target <= MaxNumber && r.target == draw
    ensures r.attempts == 0 && r.status == Playing && r.feedback == Prompt
  {
    Game(Playing, draw, 0, Prompt)
  }

  /** `init()`. */
  function Init(draw: int): (r: Game)
    requires MinNumber <= draw <= MaxNumber
    ensures r.status == Playing && r.attempts == 0 && r.feedback == Prompt && r.target == draw
  {
    StartNewGame(Game(Playing, 0, 0, Prompt), draw)
  }

  /** `makeGuess(_:)`: every guess counts as an attempt; the status carries
      the verdict and the same message as the feedback line. The view only
      offers a guess while playing, but the method itself does not check. */
  function MakeGuess(g: Game, guess: int): (r: Game)
    ensures r.attempts == g.attempts + 1 && r.target == g.target
    ensures r.status.Guessed? && r.status.message == r.feedback
    ensures r.status.correct <==> guess == g.target
  {
    var attempts := g.attempts + 1;
    var message :=
      if guess == g.target then CorrectMessage(attempts)
      else if guess < g.target then HigherMessage(guess)
      else LowerMessage(guess);
    Game(Guessed(guess == g.target, message), g.target, attempts, message)
  }

  /** `continueGame()`: back to play, keeping the number, the count and the message. */
  function ContinueGame(g: Game): (r: Game)
    ensures r.status == Playing
    ensures r.target == g.target && r.attempts == g.attempts && r.feedback == g.feedback
  {
    g.(status := Playing)
  }

  /** A guess does not depend on whether play was resumed first. */
  lemma ContinueDoesNotAffectGuess(g: Game, guess: int)
    ensures MakeGuess(ContinueGame(g), guess) == MakeGuess(g, guess)
  {
  }

  // ---------------------------------------------------------------------
  // Reading the feedback back

  /** What a player learns from a feedback line. */
  datatype Hint = GuessedIn(attempts: int) | Greater(than: int) | Less(than: int)

  /** The text strictly between `prefix` and `suffix`, when `s` has both. */
  function Between(s: string, prefix: string, suffix: string): (r: Option<string>)
    ensures r.Some? ==> prefix + r.value + suffix == s
  {
    if |s| >= |prefix| + |suffix| && s[..|prefix|] == prefix && s[|s| - |suffix|..] == suffix then
      var m := s[|prefix|..|s| - |suffix|];
      assert prefix + m + suffix == s;
      Some(m)
    else None
  }

  /** The number in a line of the form prefix, number, suffix. */
  function ReadNumber(s: string, prefix: string, suffix: string): (r: Option<int>)
    ensures r.Some? ==> Between(s, prefix, suffix).Some?
  {
    match Between(s, prefix, suffix)
    case None => None
    case Some(m) => ParseInt(m)
  }

  /** The hint a feedback line carries, if it is one of the three forms. */
  function ReadFeedback(s: string): (r: Option<Hint>)
    ensures r.Some? && r.value.GuessedIn? ==> ReadNumber(s, CorrectPrefix, CorrectSuffix) == Some(r.value.attempts)
    ensures r.Some? && r.value.Greater? ==> ReadNumber(s, HigherPrefix, HintSuffix) == Some(r.value.than)
    ensures r.Some? && r.value.Less? ==> ReadNumber(s, LowerPrefix, HintSuffix) == Some(r.value.than)
  {
    var c := ReadNumber(s, CorrectPrefix, CorrectSuffix);
    var h := ReadNumber(s, HigherPrefix, HintSuffix);
    var l := ReadNumber(s, LowerPrefix, HintSuffix);
    if c.Some? then Some(GuessedIn(c.value))
    else if h.Some? then Some(Greater(h.value))
    else if l.Some? then Some(Less(l.value))
    else None
  }

  /** A number framed by a prefix and a suffix reads back as itself. */
  lemma ReadNumberRoundTrip(prefix: string, n: int, suffix: string)
    ensures ReadNumber(prefix + IntToString(n) + suffix, prefix, suffix) == Some(n)
  {
    var s := prefix + IntToString(n) + suffix;
    var b := Between(s, prefix, suffix);
    assert b.Some?;
    assert s[..|prefix|] == prefix;
    assert s[|s| - |suffix|..] == suffix;
    assert b.value == IntToString(n);
    IntToStringRoundTrip(n);
  }

  /** Lines that start differently from the prefix do not read as that form. */
  lemma ReadNumberWrongStart(s: string, prefix: string, suffix: string)
    requires |s| > 0 && |prefix| > 0 && s[0] != prefix[0]
    ensures ReadNumber(s, prefix, suffix).None?
  {
    assert |s| < |prefix| || s[..|prefix|][0] != prefix[0];
  }

  /** The feedback of a guess reads back as the verdict it reports: the
      attempt count after a right guess, and the guess itself together with
      the direction to move after a wrong one. */
  lemma FeedbackReadsBack(g: Game, guess: int)
    ensures var r := MakeGuess(g, guess);
      && (guess == g.target ==> ReadFeedback(r.feedback) == Some(GuessedIn(r.attempts)))
      && (guess < g.target ==> ReadFeedback(r.feedback) == Some(Greater(guess)))
      && (guess > g.target ==> ReadFeedback(r.feedback) == Some(Less(guess)))
  {
    var r := MakeGuess(g, guess);
    if guess == g.target {
      ReadNumberRoundTrip(CorrectPrefix, r.attempts, CorrectSuffix);
    } else if guess < g.target {
      assert r.feedback[0] == 'H';
      ReadNumberWrongStart(r.feedback, CorrectPrefix, CorrectSuffix);
      ReadNumberRoundTrip(HigherPrefix, guess, HintSuffix);
    } else {
      assert r.feedback[0] == 'L';
      ReadNumberWrongStart(r.feedback, CorrectPrefix, CorrectSuffix);
      ReadNumberWrongStart(r.feedback, HigherPrefix, HintSuffix);
      ReadNumberRoundTrip(LowerPrefix, guess, HintSuffix);
    }
  }

  /** What a hint says about the hidden number. */
  predicate HintHolds(h: Hint, target: int) {
    match h
    case GuessedIn(_) => true
    case Greater(x) => target > x
    case Less(x) => target < x
  }

  /** Every feedback line is truthful about the hidden number. */
  lemma FeedbackIsTruthful(g: Game, guess: int)
    ensures ReadFeedback(MakeGuess(g, guess).feedback).Some?
    ensures HintHolds(ReadFeedback(MakeGuess(g, guess).feedback).value, g.target)
  {
    FeedbackReadsBack(g, guess);
  }

  // ---------------------------------------------------------------------
  // Play

  /** Guesses one after another, resuming play after each wrong one as the
      game screen does. */
  function Play(g: Game, guesses: seq<int>): (r: Game)
    ensures r.target == g.target
    ensures r.attempts == g.attempts + |guesses|
    decreases |guesses|
  {
    if |guesses| == 0 then g
    else
      var next := MakeGuess(g, guesses[0]);
      Play(if next.status.correct then next else ContinueGame(next), guesses[1..])
  }

  /** Hidden number 500, guesses 250, 750, 500: "higher", "lower", then a
      win reported after three attempts. */
  lemma ThreeGuessScenario(draw: int)
    requires draw == 500
    ensures var g := Init(draw);
      && ReadFeedback(MakeGuess(g, 250).feedback) == Some(Greater(250))
      && ReadFeedback(Play(g, [250, 750]).feedback) == Some(Less(750))
      && Play(g, [250, 750, 500]).status == Guessed(true, CorrectMessage(3))
      && Play(g, [250, 750, 500]).attempts == 3
  {
    var g := Init(draw);
    FeedbackReadsBack(g, 250);
    var g1 := ContinueGame(MakeGuess(g, 250));
    FeedbackReadsBack(g1, 750);
    var g2 := ContinueGame(MakeGuess(g1, 750));
    assert Play(g, [250, 750]) == Play(g1, [750]) == Play(g2, []);
    var g3 := MakeGuess(g2, 500);
    assert Play(g, [250, 750, 500]) == g3;
  }

  /** The text of a win on the third attempt. */
  lemma ThirdAttemptMessage()
    ensures CorrectMessage(3) == "Correct! You guessed it in 3 attempts."
  {
    assert IntToString(3) == "3";
  }
}

=== FILE: memory_game.dfy ===
/** The memory-match mini-game: the board generator
    (`MemoryBoardConfiguration`) and the view-model (`MemoryGameViewModel`).
    Time is counted in tenths of a second, the timer's period. The delayed
    pair resolution (0.3 s after a match, 1 s after a mismatch) is a
    separate event carrying the two cards captured at the second tap. */
module Memory {
  import opened Common

  /** 45 s, in tenths of a second. */
  const GameDuration: int := 450
  const PairsCount: nat := 6
  const Rows: nat := 3
  const Columns: nat := 4
  const TotalCards: nat := 12

  datatype CardState = FaceDown | FaceUp | Matched

  datatype Status = Initial | Playing | Paused | Finished(success: bool)

  /** Structural equality on a position is row-and-column equality. */
  datatype Position = Position(row: int, column: int)

  /** `id` stands for the card's UUID: distinct within one board. */
  datatype Card = Card(id: nat, imageId: int, state: CardState, position: Position)

  /** Cards are equal when their ids are. */
  predicate SameCard(a: Card, b: Card) {
    a.id == b.id
  }

  /** `MemoryCardImage.imageName` for the raw values 1...6. */
  function ImageName(imageId: int): (r: Option<string>)
    ensures r.Some? <==> 1 <= imageId <= PairsCount
  {
    match imageId
    case 1 => Some("img11")
    case 2 => Some("img22")
    case 3 => Some("img33")
    case 4 => Some("img44")
    case 5 => Some("img55")
    case 6 => Some("img66")
    case _ => None
  }

  lemma ImageNamesDistinct(a: int, b: int)
    requires ImageName(a).Some? && ImageName(b).Some? && a != b
    ensures ImageName(a) != ImageName(b)
  {
  }

  // ---------------------------------------------------------------------
  // Board

  predicate OnGrid(p: Position) {
    0 <= p.row < Rows && 0 <= p.column < Columns
  }

  /** Row-major slot of a grid position. */
  function Slot(p: Position): (i: nat)
    requires OnGrid(p)
    ensures i < TotalCards
  {
    p.row * Columns + p.column
  }

  /** The position the placement loop gives the card in slot `i`. */
  function GridPosition(i: nat): (p: Position)
    requires i < TotalCards
    ensures OnGrid(p) && Slot(p) == i
  {
    Position(i / Columns, i % Columns)
  }

  lemma GridPositionOfSlot(p: Position)
    requires OnGrid(p)
    ensures GridPosition(Slot(p)) == p
  {
  }

  /** The image ids the pair loop appends before shuffling: 1, 1, 2, 2, ..., n, n. */
  function PairedImages(n: nat): (r: seq<int>)
    ensures |r| == n + n
  {
    if n == 0 then [] else PairedImages(n - 1) + [n, n]
  }

  /** Each image id 1...n occurs exactly twice among the unshuffled images, and nothing else does. */
  lemma {:induction false} PairedImagesCounts(n: nat, k: int)
    ensures Occurrences(PairedImages(n), k) == if 1 <= k <= n then 2 else 0
  {
    if n > 0 {
      PairedImagesCounts(n - 1, k);
      var prev := PairedImages(n - 1);
      var s := PairedImages(n);
      assert s[..|s| - 1] == prev + [n];
      assert (prev + [n])[..|prev|] == prev;
    }
  }

  function ImagesOf(cards: seq<Card>): (r: seq<int>)
    ensures |r| == |cards| && forall i :: 0 <= i < |cards| ==> r[i] == cards[i].imageId
  {
    seq(|cards|, i requires 0 <= i < |cards| => cards[i].imageId)
  }

  /** A board as the generator lays it out: twelve cards in row-major grid order. */
  predicate Board(cards: seq<Card>) {
    && |cards| == TotalCards
    && forall i :: 0 <= i < |cards| ==> cards[i].position == GridPosition(i)
  }

  /** The placement loop: card `i` gets image `images[i]` at the `i`-th
      grid position, face down. */
  function Layout(images: seq<int>): (r: seq<Card>)
    requires |images| == TotalCards
    ensures Board(r) && ImagesOf(r) == images
    ensures forall i :: 0 <= i < |r| ==> r[i].state == FaceDown && r[i].id == i
  {
    var r := seq(TotalCards, i requires 0 <= i < TotalCards => Card(i, images[i], FaceDown, GridPosition(i)));
    assert ImagesOf(r) == images;
    r
  }

  /** `generateCards()` with the shuffle's draws given explicitly: the
      shuffled images are laid out in slot order, all face down. */
  function GenerateCards(draws: seq<nat>): (r: seq<Card>)
    requires ValidDraws(TotalCards, draws)
    ensures Board(r)
    ensures forall i :: 0 <= i < |r| ==> r[i].state == FaceDown && r[i].id == i
    ensures multiset(ImagesOf(r)) == multiset(PairedImages(PairsCount))
  {
    Layout(Shuffle(PairedImages(PairsCount), draws))
  }

  /** On a generated board, two cards are equal by id exactly when they sit in the same slot. */
  lemma SameCardOnBoard(draws: seq<nat>, i: nat, j: nat)
    requires ValidDraws(TotalCards, draws) && i < TotalCards && j < TotalCards
    ensures SameCard(GenerateCards(draws)[i], GenerateCards(draws)[j]) <==> i == j
  {
  }

  /** Every generated board holds each image id 1...6 exactly twice and nothing else. */
  lemma GeneratedPairs(draws: seq<nat>, k: int)
    requires ValidDraws(TotalCards, draws)
    ensures Occurrences(ImagesOf(GenerateCards(draws)), k) == if 1 <= k <= PairsCount then 2 else 0
  {
    PairedImagesCounts(PairsCount, k);
    OccurrencesIsMultiplicity(ImagesOf(GenerateCards(draws)), k);
    OccurrencesIsMultiplicity(PairedImages(PairsCount), k);
  }

  /** Hence every generated card shows one of the six images. */
  lemma GeneratedImagesInRange(draws: seq<nat>, i: nat)
    requires ValidDraws(TotalCards, draws) && i < TotalCards
    ensures 1 <= GenerateCards(draws)[i].imageId <= PairsCount
    ensures ImageName(GenerateCards(draws)[i].imageId).Some?
  {
    var images := ImagesOf(GenerateCards(draws));
    var x := images[i];
    assert x in multiset(images);
    GeneratedPairs(draws, x);
    OccurrencesIsMultiplicity(images, x);
  }

  /** Every slot of the grid holds exactly one card, and no two cards share a position. */
  lemma BoardPositionsDistinct(cards: seq<Card>)
    requires Board(cards)
    ensures forall i, j :: 0 <= i < j < |cards| ==> cards[i].position != cards[j].position
    ensures forall p :: OnGrid(p) ==> cards[Slot(p)].position == p
  {
    forall i, j | 0 <= i < j < |cards|
      ensures cards[i].position != cards[j].position
    {
      assert Slot(GridPosition(i)) == i && Slot(GridPosition(j)) == j;
    }
  }

  /** `cards.firstIndex(where: { $0.position == position })`. */
  function FindPosition(cards: seq<Card>, p: Position): (r: Option<nat>)
    ensures r.Some? ==> r.value < |cards| && cards[r.value].position == p
    ensures r.Some? ==> forall j :: 0 <= j < r.value ==> cards[j].position != p
    ensures r.None? <==> forall j :: 0 <= j < |cards| ==> cards[j].position != p
  {
    if |cards| == 0 then None
    else if cards[0].position == p then Some(0)
    else
      match FindPosition(cards[1..], p)
      case None => None
      case Some(k) => Some(k + 1)
  }

  /** On a board, looking up a grid position finds its slot, and nothing else is found. */
  lemma {:induction false} FindOnBoard(cards: seq<Card>, p: Position)
    requires Board(cards)
    ensures OnGrid(p) ==> FindPosition(cards, p) == Some(Slot(p))
    ensures !OnGrid(p) ==> FindPosition(cards, p) == None
  {
    BoardPositionsDistinct(cards);
    if OnGrid(p) {
      var r := FindPosition(cards, p);
      assert cards[Slot(p)].position == p;
      assert r.Some?;
      assert r.value == Slot(p);
    } else {
      forall j | 0 <= j < |cards|
        ensures cards[j].position != p
      {
        assert OnGrid(GridPosition(j));
      }
    }
  }

  /** Set the state of the card at a position, if there is one. */
  function SetStateAt(cards: seq<Card>, p: Position, s: CardState): (r: seq<Card>)
    ensures |r| == |cards|
    ensures forall i :: 0 <= i < |cards| ==>
      (r[i].position == cards[i].position && r[i].imageId == cards[i].imageId && r[i].id == cards[i].id)
    ensures FindPosition(cards, p).None? ==> r == cards
    ensures FindPosition(cards, p).Some? ==>
      var i := FindPosition(cards, p).value;
      r[i].state == s && forall j :: 0 <= j < |cards| && j != i ==> r[j] == cards[j]
  {
    match FindPosition(cards, p)
    case None => cards
    case Some(i) => cards[i := cards[i].(state := s)]
  }

  // ---------------------------------------------------------------------
  // View-model

  datatype Game = Game(
    status: Status,
    cards: seq<Card>,
    time: int,
    first: Option<Card>,
    second: Option<Card>,
    processing: bool)

  predicate IsFaceUp(c: Card) { c.state == FaceUp }
  predicate IsMatched(c: Card) { c.state == Matched }

  /** `disableCardInteraction`. */
  predicate InteractionDisabled(g: Game) {
    g.status != Playing || g.processing || CountWhere(g.cards, IsFaceUp) >= 2
  }

  /** `pairsMatched`. */
  function PairsMatched(g: Game): (n: nat)
    ensures 2 * n <= CountWhere(g.cards, IsMatched) < 2 * n + 2
  {
    CountWhere(g.cards, IsMatched) / 2
  }

  /** `allCardsMatched()`. */
  predicate AllMatched(cards: seq<Card>) {
    forall i :: 0 <= i < |cards| ==> cards[i].state == Matched
  }

  /** `setupNewGame()` (and `resetGame()`, whose timer cancel is implicit). */
  function Setup(draws: seq<nat>): (g: Game)
    requires ValidDraws(TotalCards, draws)
    ensures g.status == Playing && g.time == GameDuration && Board(g.cards)
    ensures g.first.None? && g.second.None? && !g.processing
    ensures forall i :: 0 <= i < |g.cards| ==> g.cards[i].state == FaceDown
  {
    Game(Playing, GenerateCards(draws), GameDuration, None, None, false)
  }

  /** `pauseGame()`: only from playing; stops the timer. */
  function Pause(g: Game): (r: Game)
    ensures g.status == Playing ==> r == g.(status := Paused)
    ensures g.status != Playing ==> r == g
  {
    if g.status == Playing then g.(status := Paused) else g
  }

  /** `resumeGame()`: only from paused; restarts the timer. */
  function Resume(g: Game): (r: Game)
    ensures g.status == Paused ==> r == g.(status := Playing)
    ensures g.status != Paused ==> r == g
  {
    if g.status == Paused then g.(status := Playing) else g
  }

  /** `togglePause()`. */
  function TogglePause(g: Game): (r: Game)
    ensures r.cards == g.cards && r.time == g.time && r.first == g.first && r.second == g.second
    ensures g.status == Playing <==> r.status == Paused
    ensures g.status == Paused <==> r.status == Playing
    ensures g.status != Playing && g.status != Paused ==> r == g
  {
    if g.status == Paused then Resume(g)
    else if g.status == Playing then Pause(g)
    else g
  }

  /** Toggling twice gives back the game. */
  lemma TogglePauseTwice(g: Game)
    ensures TogglePause(TogglePause(g)) == g
  {
  }

  /** `completeGame()`: the outcome reported to the caller, if finished. */
  function CompleteGame(g: Game): (r: Option<bool>)
    ensures r.Some? <==> g.status.Finished?
    ensures r.Some? ==> r.value == g.status.success
  {
    match g.status
    case Finished(success) => Some(success)
    case _ => None
  }

  /** One firing of the 0.1 s timer, which runs exactly while playing. */
  function Tick(g: Game): (r: Game)
    ensures r.cards == g.cards && r.first == g.first && r.second == g.second && r.processing == g.processing
    ensures g.status != Playing ==> r == g
    ensures g.status == Playing && g.time <= 1 ==> r.status == Finished(false) && r.time == g.time
    ensures g.status == Playing && g.time > 1 ==> r.status == Playing && r.time == g.time - 1
  {
    if g.status != Playing then g
    else if g.time <= 1 then g.(status := Finished(false))
    else g.(time := g.time - 1)
  }

  /** Left to run, a game loses exactly when its clock runs out. */
  lemma {:induction false} TimeoutAfterTicks(g: Game, n: nat)
    requires g.status == Playing && g.time >= 1 && n == g.time
    ensures Ticks(g, n - 1).status == Playing && Ticks(g, n - 1).time == 1
    ensures Ticks(g, n).status == Finished(false)
    decreases n
  {
    if n > 1 {
      TimeoutAfterTicks(Tick(g), n - 1);
    }
  }

  function Ticks(g: Game, n: nat): (r: Game)
    ensures r.cards == g.cards
    decreases n
  {
    if n == 0 then g else Ticks(Tick(g), n - 1)
  }

  /** The resolution the second tap schedules, with the two captured cards. */
  datatype Pending = MatchAfterDelay(a: Card, b: Card) | MismatchAfterDelay(a: Card, b: Card)

  /** `flipCard(at:)`: the new game and the resolution it schedules, if any. */
  function Flip(g: Game, p: Position): (r: (Game, Option<Pending>))
    ensures InteractionDisabled(g) ==> r == (g, None)
    ensures FindPosition(g.cards, p).None? ==> r == (g, None)
    ensures FindPosition(g.cards, p).Some? && g.cards[FindPosition(g.cards, p).value].state != FaceDown ==> r == (g, None)
    ensures r.1.Some? <==>
      !InteractionDisabled(g) && g.first.Some? && g.second.None?
      && FindPosition(g.cards, p).Some? && g.cards[FindPosition(g.cards, p).value].state == FaceDown
    ensures r.1.Some? ==>
      (r.0.processing && r.0.second.Some? && r.0.first == g.first
       && r.1.value.a == g.first.value && r.1.value.b == r.0.second.value
       && (r.1.value.MatchAfterDelay? <==> r.1.value.a.imageId == r.1.value.b.imageId))
    ensures r.0.status == g.status && r.0.time == g.time
    ensures g.first.Some? && g.second.Some? ==> r == (g, None)
    ensures var found := FindPosition(g.cards, p);
      && !InteractionDisabled(g) && found.Some? && g.cards[found.value].state == FaceDown
      && (g.first.None? || g.second.None?) ==>
        && r.0.cards == g.cards[found.value := g.cards[found.value].(state := FaceUp)]
        && (g.first.None? ==>
              r.0.first == Some(g.cards[found.value]) && r.0.second == g.second
              && r.0.processing == g.processing && r.1.None?)
        && (g.first.Some? ==> r.0.second == Some(g.cards[found.value]))
  {
    if InteractionDisabled(g) then (g, None)
    else match FindPosition(g.cards, p)
      case None => (g, None)
      case Some(i) =>
        var card := g.cards[i];
        if card.state != FaceDown then (g, None)
        else if g.first.Some? && g.second.None? then
          var next := g.(second := Some(card), cards := g.cards[i := card.(state := FaceUp)], processing := true);
          var first := g.first.value;
          (next, Some(if first.imageId == card.imageId then MatchAfterDelay(first, card) else MismatchAfterDelay(first, card)))
        else if g.first.None? then
          (g.(first := Some(card), cards := g.cards[i := card.(state := FaceUp)]), None)
        else (g, None)
  }

  /** The state a resolution gives the two cards of its pair. */
  function ResolvedState(pending: Pending): CardState {
    if pending.MatchAfterDelay? then Matched else FaceDown
  }

  /** The delayed body of `handleMatchingPair` / `handleNonMatchingPair`.
      It does not look at the status: it also runs on a paused or finished game. */
  function Resolve(g: Game, pending: Pending): (r: Game)
    ensures r.first.None? && r.second.None? && !r.processing && r.time == g.time
    ensures pending.MismatchAfterDelay? ==> r.status == g.status
    ensures pending.MatchAfterDelay? ==> (r.status == Finished(true) <==> AllMatched(r.cards) || g.status == Finished(true))
    ensures pending.MatchAfterDelay? && AllMatched(r.cards) ==> r.status == Finished(true)
    ensures pending.MatchAfterDelay? && !AllMatched(r.cards) ==> r.status == g.status
    ensures |r.cards| == |g.cards|
    ensures forall i :: 0 <= i < |g.cards| ==>
      && r.cards[i].id == g.cards[i].id && r.cards[i].imageId == g.cards[i].imageId
      && r.cards[i].position == g.cards[i].position
      && (r.cards[i].state == g.cards[i].state || r.cards[i].state == ResolvedState(pending))
  {
    match pending
    case MatchAfterDelay(a, b) =>
      var cards := SetStateAt(SetStateAt(g.cards, a.position, Matched), b.position, Matched);
      var cleared := g.(cards := cards, first := None, second := None, processing := false);
      if AllMatched(cards) then cleared.(status := Finished(true)) else cleared
    case MismatchAfterDelay(a, b) =>
      var cards := SetStateAt(SetStateAt(g.cards, a.position, FaceDown), b.position, FaceDown);
      g.(cards := cards, first := None, second := None, processing := false)
  }

  // ---------------------------------------------------------------------
  // Invariant

  /** The revealed cards sit on the grid, show the image of the card in
      their slot, and the second is revealed only after (and apart from) the first. */
  predicate RevealedConsistent(g: Game) {
    && Board(g.cards)
    && (g.second.Some? ==> g.first.Some?)
    && (g.processing <==> g.second.Some?)
    && (g.first.Some? ==>
          (OnGrid(g.first.value.position)
           && g.cards[Slot(g.first.value.position)].imageId == g.first.value.imageId))
    && (g.second.Some? ==>
          (OnGrid(g.second.value.position)
           && g.cards[Slot(g.second.value.position)].imageId == g.second.value.imageId
           && g.second.value.position != g.first.value.position))
  }

  /** Exactly the revealed cards are face up. */
  predicate FaceUpExactlyRevealed(g: Game)
    requires RevealedConsistent(g)
  {
    forall i :: 0 <= i < |g.cards| ==>
      (g.cards[i].state == FaceUp <==>
        (g.first.Some? && i == Slot(g.first.value.position))
        || (g.second.Some? && i == Slot(g.second.value.position)))
  }

  /** Matched cards come in pairs. */
  predicate MatchedInPairs(cards: seq<Card>) {
    CountWhere(cards, IsMatched) % 2 == 0
  }

  /** What holds of a game between events: a generated board, the revealed
      cards face up on it and nothing else face up, a pair being processed
      exactly when two are revealed, and matched cards coming in pairs. */
  predicate WellFormed(g: Game) {
    && RevealedConsistent(g)
    && FaceUpExactlyRevealed(g)
    && MatchedInPairs(g.cards)
  }

  /** The resolution scheduled for the pair now revealed in `g`. */
  predicate PendingFor(g: Game, pending: Pending) {
    && g.first == Some(pending.a) && g.second == Some(pending.b)
    && (pending.MatchAfterDelay? <==> pending.a.imageId == pending.b.imageId)
  }

  lemma AllFaceDownCounts(cards: seq<Card>)
    requires forall i :: 0 <= i < |cards| ==> cards[i].state == FaceDown
    ensures CountWhere(cards, IsMatched) == 0 && CountWhere(cards, IsFaceUp) == 0
  {
    assert forall i :: 0 <= i < |cards| ==> !IsMatched(cards[i]);
    assert forall i :: 0 <= i < |cards| ==> !IsFaceUp(cards[i]);
  }

  /** A new game is well formed, open to input and has no pair found. */
  lemma SetupWellFormed(draws: seq<nat>)
    requires ValidDraws(TotalCards, draws)
    ensures WellFormed(Setup(draws))
    ensures PairsMatched(Setup(draws)) == 0 && !InteractionDisabled(Setup(draws))
  {
    var g := Setup(draws);
    AllFaceDownCounts(g.cards);
    assert RevealedConsistent(g);
    assert FaceUpExactlyRevealed(g);
  }

  /** A flip keeps the game well formed; when it schedules a resolution,
      that resolution is the one for the revealed pair. */
  lemma FlipPreservesWellFormed(g: Game, p: Position)
    requires WellFormed(g)
    ensures WellFormed(Flip(g, p).0)
    ensures Flip(g, p).1.Some? ==> PendingFor(Flip(g, p).0, Flip(g, p).1.value)
    ensures Flip(g, p).1.None? ==> Flip(g, p).0.second.None? || Flip(g, p).0 == g
  {
    var n := Flip(g, p).0;
    if n != g {
      FindOnBoard(g.cards, p);
      assert OnGrid(p);
      var i := Slot(p);
      GridPositionOfSlot(p);
      var card := g.cards[i];
      assert card.state == FaceDown && card.position == p;
      var cards := g.cards[i := card.(state := FaceUp)];
      assert Board(cards);
      CountWhereUpdate(g.cards, i, card.(state := FaceUp), IsMatched);
      assert CountWhere(cards, IsMatched) == CountWhere(g.cards, IsMatched);
      if g.first.Some? {
        assert n == g.(second := Some(card), cards := cards, processing := true);
        assert p != g.first.value.position;
      } else {
        assert n == g.(first := Some(card), cards := cards);
      }
    }
  }

  /** Setting two distinct face-up slots of a board to one state. */
  lemma ResolvePairOnBoard(cards: seq<Card>, a: Position, b: Position, s: CardState)
    requires Board(cards) && OnGrid(a) && OnGrid(b) && a != b
    requires cards[Slot(a)].state == FaceUp && cards[Slot(b)].state == FaceUp
    ensures var c := SetStateAt(SetStateAt(cards, a, s), b, s);
      && Board(c) && c[Slot(a)].state == s && c[Slot(b)].state == s
      && (forall i :: 0 <= i < |c| && i != Slot(a) && i != Slot(b) ==> c[i] == cards[i])
      && CountWhere(c, IsMatched) == CountWhere(cards, IsMatched) + (if s == Matched then 2 else 0)
  {
    var ia := Slot(a);
    var ib := Slot(b);
    GridPositionOfSlot(a);
    GridPositionOfSlot(b);
    FindOnBoard(cards, a);
    var c1 := SetStateAt(cards, a, s);
    assert c1 == cards[ia := cards[ia].(state := s)];
    FindOnBoard(c1, b);
    var c2 := SetStateAt(c1, b, s);
    assert c2 == c1[ib := c1[ib].(state := s)];
    CountWhereUpdate(cards, ia, cards[ia].(state := s), IsMatched);
    CountWhereUpdate(c1, ib, c1[ib].(state := s), IsMatched);
  }

  /** When only the two revealed cards were face up, none is after the pair is resolved. */
  lemma ResolvePairLeavesNoneFaceUp(cards: seq<Card>, a: Position, b: Position, s: CardState)
    requires Board(cards) && OnGrid(a) && OnGrid(b) && a != b && s != FaceUp
    requires cards[Slot(a)].state == FaceUp && cards[Slot(b)].state == FaceUp
    requires forall i :: 0 <= i < |cards| && cards[i].state == FaceUp ==> i == Slot(a) || i == Slot(b)
    ensures forall i :: 0 <= i < TotalCards ==> SetStateAt(SetStateAt(cards, a, s), b, s)[i].state != FaceUp
  {
    ResolvePairOnBoard(cards, a, b, s);
  }

  lemma HalfOfEvenPlusTwo(m: nat)
    requires m % 2 == 0
    ensures (m + 2) / 2 == m / 2 + 1 && (m + 2) % 2 == 0
  {
  }

  /** Resolving the pending pair keeps the game well formed and clears the pair. */
  lemma ResolvePreservesWellFormed(g: Game, pending: Pending)
    requires WellFormed(g) && PendingFor(g, pending)
    ensures WellFormed(Resolve(g, pending))
  {
    var a := pending.a.position;
    var b := pending.b.position;
    var s := if pending.MatchAfterDelay? then Matched else FaceDown;
    assert OnGrid(a) && OnGrid(b) && a != b;
    assert g.cards[Slot(a)].state == FaceUp && g.cards[Slot(b)].state == FaceUp;
    ResolvePairOnBoard(g.cards, a, b, s);
    ResolvePairLeavesNoneFaceUp(g.cards, a, b, s);
    var r := Resolve(g, pending);
    assert r.cards == SetStateAt(SetStateAt(g.cards, a, s), b, s);
    HalfOfEvenPlusTwo(CountWhere(g.cards, IsMatched));
    assert RevealedConsistent(r) && FaceUpExactlyRevealed(r) && MatchedInPairs(r.cards);
  }

  /** Resolving the pending pair turns both of its cards Matched when the
      images agree and back FaceDown when they differ; every other card is kept. */
  lemma ResolveSetsPair(g: Game, pending: Pending)
    requires WellFormed(g) && PendingFor(g, pending)
    ensures var r := Resolve(g, pending);
      var s := if pending.a.imageId == pending.b.imageId then Matched else FaceDown;
      && |r.cards| == |g.cards|
      && r.cards[Slot(pending.a.position)].state == s
      && r.cards[Slot(pending.b.position)].state == s
      && forall i :: 0 <= i < |g.cards| && i != Slot(pending.a.position) && i != Slot(pending.b.position) ==>
           r.cards[i] == g.cards[i]
  {
    var a := pending.a.position;
    var b := pending.b.position;
    var s := if pending.MatchAfterDelay? then Matched else FaceDown;
    assert OnGrid(a) && OnGrid(b) && a != b;
    assert g.cards[Slot(a)].state == FaceUp && g.cards[Slot(b)].state == FaceUp;
    ResolvePairOnBoard(g.cards, a, b, s);
  }

  /** Resolving the pending pair adds one matched pair exactly when the images agree. */
  lemma ResolveCountsPair(g: Game, pending: Pending)
    requires WellFormed(g) && PendingFor(g, pending)
    ensures pending.MatchAfterDelay? ==> PairsMatched(Resolve(g, pending)) == PairsMatched(g) + 1
    ensures pending.MismatchAfterDelay? ==> PairsMatched(Resolve(g, pending)) == PairsMatched(g)
  {
    var a := pending.a.position;
    var b := pending.b.position;
    var s := if pending.MatchAfterDelay? then Matched else FaceDown;
    assert OnGrid(a) && OnGrid(b) && a != b;
    assert g.cards[Slot(a)].state == FaceUp && g.cards[Slot(b)].state == FaceUp;
    ResolvePairOnBoard(g.cards, a, b, s);
    var m := CountWhere(g.cards, IsMatched);
    var n := CountWhere(Resolve(g, pending).cards, IsMatched);
    assert n == m + (if pending.MatchAfterDelay? then 2 else 0);
    HalfOfEvenPlusTwo(m);
  }

  /** Under the invariant the face-up count never blocks input on its own:
      interaction is disabled exactly when not playing or a pair is processing. */
  lemma DisabledWhenWellFormed(g: Game)
    requires WellFormed(g)
    ensures InteractionDisabled(g) <==> g.status != Playing || g.processing
  {
    if g.second.None? {
      var up := if g.first.Some? then Some(Slot(g.first.value.position)) else None;
      FaceUpAtMostOne(g.cards, up);
    }
  }

  /** At most one card is face up when all face-up cards sit in one known slot. */
  lemma {:induction false} FaceUpAtMostOne(cards: seq<Card>, up: Option<nat>)
    requires forall i :: 0 <= i < |cards| && cards[i].state == FaceUp ==> up == Some(i)
    ensures CountWhere(cards, IsFaceUp) <= 1
    decreases |cards|
  {
    if |cards| > 0 {
      var n := |cards| - 1;
      var init := cards[..n];
      if cards[n].state == FaceUp {
        assert forall i :: 0 <= i < |init| ==> !IsFaceUp(init[i]);
      } else {
        FaceUpAtMostOne(init, up);
      }
    }
  }

  /** A match resolved after the clock ran out still turns the loss into a
      win when it completes the board. */
  lemma LateMatchOverridesTimeout(g: Game, pending: Pending)
    requires pending.MatchAfterDelay? && g.status == Finished(false)
    requires AllMatched(Resolve(g, pending).cards)
    ensures CompleteGame(g) == Some(false)
    ensures CompleteGame(Resolve(g, pending)) == Some(true)
  {
  }

  /** The game is won only with every pair found. */
  lemma WinMeansAllPairs(g: Game, pending: Pending)
    requires WellFormed(g) && PendingFor(g, pending) && g.status != Finished(true)
    requires Resolve(g, pending).status == Finished(true)
    ensures PairsMatched(Resolve(g, pending)) == PairsCount
  {
    var r := Resolve(g, pending);
    assert pending.MatchAfterDelay?;
    assert |r.cards| == TotalCards;
    assert forall i :: 0 <= i < |r.cards| ==> IsMatched(r.cards[i]);
  }
}

=== FILE: mini_game_type.dfy ===
/** The three mini-games as the menu lists them (`MiniGameType`): the raw
    value that also serves as the id, the title shown, and the coins a win pays. */
module MiniGames {
  import opened Common

  datatype MiniGameType = GuessNumber | MemoryCards | Sequence

  const AllCases: seq<MiniGameType> := [GuessNumber, MemoryCards, Sequence]

  /** The raw value. */
  function RawValue(t: MiniGameType): string {
    match t
    case GuessNumber => "guess_number"
    case MemoryCards => "memory_cards"
    case Sequence => "sequence"
  }

  /** `id` is the raw value, so it identifies the case. */
  function Id(t: MiniGameType): (r: string)
    ensures FromRawValue(r) == Some(t)
  {
    RawValueRoundTrip(t);
    RawValue(t)
  }

  /** `MiniGameType(rawValue:)`. */
  function FromRawValue(s: string): (r: Option<MiniGameType>)
    ensures r.Some? ==> RawValue(r.value) == s
  {
    if s == "guess_number" then Some(GuessNumber)
    else if s == "memory_cards" then Some(MemoryCards)
    else if s == "sequence" then Some(Sequence)
    else None
  }

  /** Reading a raw value back gives the same case, so no two cases share one. */
  lemma RawValueRoundTrip(t: MiniGameType)
    ensures FromRawValue(RawValue(t)) == Some(t)
  {
    match t
    case GuessNumber =>
    case MemoryCards =>
      assert RawValue(t)[0] != "guess_number"[0];
    case Sequence =>
      assert RawValue(t)[0] != "guess_number"[0];
      assert RawValue(t)[0] != "memory_cards"[0];
  }

  lemma RawValuesDistinct(a: MiniGameType, b: MiniGameType)
    ensures RawValue(a) == RawValue(b) <==> a == b
  {
    RawValueRoundTrip(a);
    RawValueRoundTrip(b);
  }

  function Title(t: MiniGameType): string {
    match t
    case GuessNumber => "Guess the number"
    case MemoryCards => "Find a match"
    case Sequence => "Repeat the sequence"
  }

  /** Each case has a title of its own. */
  lemma TitlesDistinct(a: MiniGameType, b: MiniGameType)
    ensures Title(a) == Title(b) <==> a == b
  {
    if a != b {
      assert Title(a)[0] != Title(b)[0];
    }
  }

  /** Coins for a win. */
  function Reward(t: MiniGameType): (r: int)
    ensures r > 0
  {
    match t
    case GuessNumber => 20
    case MemoryCards => 30
    case Sequence => 30
  }

  /** Every case is listed once, and the rewards are 20, 30 and 30. */
  lemma CasesAndRewards()
    ensures NoDuplicates(AllCases) && forall t :: t in AllCases
    ensures Reward(GuessNumber) == 20 && Reward(MemoryCards) == 30 && Reward(Sequence) == 30
  {
    assert forall t :: t in AllCases by {
      forall t: MiniGameType
        ensures t in AllCases
      {
        match t
        case GuessNumber => assert AllCases[0] == t;
        case MemoryCards => assert AllCases[1] == t;
        case Sequence => assert AllCases[2] == t;
      }
    }
  }
}

=== FILE: music_quiz.dfy ===
/** The music quiz a collected coin starts: the question bank and its random
    draw (`MusicQuiz`, `QuizQuestion`) and the view-model that asks three
    questions and pays 10 coins per right answer (`MusicQuizViewModel`).
    The 1.5 s pause between an answer and the next question is a separate
    event; the shuffle's draws are a parameter. */
module Quiz {
  import opened Common
  import App

  /** A question; its UUID only identifies views and is left out. */
  datatype QuizQuestion = QuizQuestion(question: string, options: seq<string>, correctOptionIndex: int)

  /** `correctAnswer`: Swift traps on an index outside the options. */
  function CorrectAnswer(q: QuizQuestion): (r: string)
    requires 0 <= q.correctOptionIndex < |q.options|
    ensures r in q.options
  {
    q.options[q.correctOptionIndex]
  }

  const Bank: seq<QuizQuestion> := [
    QuizQuestion("Which instrument is traditionally considered the 'king of instruments'?",
                 ["Violin", "Organ", "Piano"], 1),
    QuizQuestion("Which composer is known as the 'Waltz King'?",
                 ["Frederic Chopin", "Pyotr Tchaikovsky", "Johann Strauss"], 2),
    QuizQuestion("Which of these music genres emerged in the 1970s?",
                 ["Jazz", "Punk rock", "Blues"], 1),
    QuizQuestion("How many notes are in a musical octave?",
                 ["5 notes", "8 notes", "10 notes"], 1),
    QuizQuestion("Which symbol in musical notation raises a note by a half-step?",
                 ["Flat", "Sharp", "Natural"], 1),
    QuizQuestion("How many lines does a musical staff have?",
                 ["3", "4", "5"], 2),
    QuizQuestion("Which musical instrument is considered the oldest?",
                 ["Drum", "Flute", "Harp"], 1),
    QuizQuestion("Who among these musicians is known as the 'King of Rock and Roll'?",
                 ["Freddie Mercury", "Elvis Presley", "Michael Jackson"], 1),
    QuizQuestion("Which musical genre originated in the US in the early 20th century within African American communities?",
                 ["Rock", "Jazz", "Techno"], 1),
    QuizQuestion("Which instrument is NOT a string instrument?",
                 ["Violin", "Cello", "Flute"], 2)
  ]

  /** A question whose answer index points into its options. */
  predicate WellFormedQuestion(q: QuizQuestion) {
    0 <= q.correctOptionIndex < |q.options|
  }

  /** A number that tells the bank's questions apart: the length of the
      question and of its first option. */
  function Key(q: QuizQuestion): int {
    |q.question| * 100 + (if |q.options| == 0 then 0 else |q.options[0]|)
  }

  const BankKeys: seq<int> := [7106, 4415, 4904, 3907, 6204, 4101, 5004, 6615, 10304, 4406]

  lemma BankKeysDistinct()
    ensures NoDuplicates(BankKeys)
  {
  }

  /** Ten questions of three options each, every answer index in range,
      and no question twice. */
  lemma BankShape()
    ensures |Bank| == 10
    ensures forall i :: 0 <= i < |Bank| ==> |Bank[i].options| == 3 && WellFormedQuestion(Bank[i])
    ensures NoDuplicates(Bank)
  {
    assert forall i :: 0 <= i < |Bank| ==> BankKeys[i] == Key(Bank[i]);
    BankKeysDistinct();
    DistinctByKey(Bank, BankKeys, Key);
  }

  function Min(a: int, b: int): (r: int)
    ensures r <= a && r <= b && (r == a || r == b)
  {
    if a <= b then a else b
  }

  /** `getRandomQuestions(count:)`: the first `count` questions of a shuffled
      bank, or the whole bank when it is smaller. A negative count traps in
      Swift's `prefix`. */
  function GetRandomQuestions(count: int, draws: seq<nat>): (r: seq<QuizQuestion>)
    requires count >= 0 && ValidDraws(|Bank|, draws)
    ensures |r| == Min(count, |Bank|)
    ensures forall i :: 0 <= i < |r| ==> r[i] in Bank
    ensures NoDuplicates(r)
    ensures count >= |Bank| ==> multiset(r) == multiset(Bank)
  {
    BankShape();
    ShuffledPrefix(Bank, Min(count, |Bank|), draws)
  }

  // ---------------------------------------------------------------------
  // View-model

  /** `index` is `currentQuestionIndex`, `selected` is `selectedOptionIndex`
      and `earned` is `earnedCoins`. */
  datatype QuizState = QuizState(
    questions: seq<QuizQuestion>,
    index: nat,
    selected: Option<int>,
    showCorrectAnswer: bool,
    completed: bool,
    earned: int)

  /** `currentQuestion`: none once the index has run past the questions. */
  function CurrentQuestion(q: QuizState): (r: Option<QuizQuestion>)
    ensures r.None? <==> q.index >= |q.questions|
    ensures r.Some? ==> r.value in q.questions
  {
    if q.index < |q.questions| then Some(q.questions[q.index]) else None
  }

  /** `resetQuiz()` (and `init()`): three fresh questions and nothing answered. */
  function Reset(draws: seq<nat>): (r: QuizState)
    requires ValidDraws(|Bank|, draws)
    ensures |r.questions| == 3 && NoDuplicates(r.questions)
    ensures forall i :: 0 <= i < |r.questions| ==> r.questions[i] in Bank
    ensures r.index == 0 && r.selected.None? && !r.showCorrectAnswer && !r.completed && r.earned == 0
  {
    BankShape();
    QuizState(GetRandomQuestions(3, draws), 0, None, false, false, 0)
  }

  /** `selectOption(_:)`: the first answer to a question is recorded and
      scored, 10 coins when it is the right option, and schedules the move
      to the next question (the second component). Further answers before
      that move are ignored. */
  function SelectOption(q: QuizState, option: int): (r: (QuizState, bool))
    ensures q.selected.Some? ==> r == (q, false)
    ensures q.selected.None? ==> r.1 && r.0.selected == Some(option) && r.0.showCorrectAnswer
    ensures q.selected.None? ==>
      r.0.earned == q.earned
        + (if CurrentQuestion(q).Some? && option == CurrentQuestion(q).value.correctOptionIndex then 10 else 0)
    ensures r.0.questions == q.questions && r.0.index == q.index && r.0.completed == q.completed
  {
    if q.selected.Some? then (q, false)
    else
      var isCorrect := CurrentQuestion(q).Some? && option == CurrentQuestion(q).value.correctOptionIndex;
      (q.(selected := Some(option), showCorrectAnswer := true,
          earned := if isCorrect then q.earned + 10 else q.earned), true)
  }

  /** `completeQuiz()`: mark the quiz done and pay what was earned. The
      screen change and arcade resume two seconds later are not modelled. */
  function CompleteQuiz(q: QuizState, app: App.AppModel): (r: (QuizState, App.AppModel))
    ensures r.0.completed && r.0.(completed := q.completed) == q
    ensures r.1.coins == app.coins + q.earned && App.Synced(r.1)
    ensures r.1.gameLevel == app.gameLevel
    ensures r.1.gameState.(coins := app.gameState.coins, currentLevel := app.gameState.currentLevel) == app.gameState
  {
    (q.(completed := true), App.AddCoins(app, q.earned))
  }

  /** `proceedToNextQuestion()`: clear the answer, then move on, or complete
      the quiz after the last question. */
  function Proceed(q: QuizState, app: App.AppModel): (r: (QuizState, App.AppModel))
    ensures r.0.selected.None? && !r.0.showCorrectAnswer && r.0.earned == q.earned
    ensures q.index + 1 < |q.questions| ==> r.0.index == q.index + 1 && r.0.completed == q.completed && r.1 == app
    ensures q.index + 1 >= |q.questions| ==>
      r.0.index == q.index && r.0.completed && r.1.coins == app.coins + q.earned
    ensures r.0.questions == q.questions
    ensures r.1.gameLevel == app.gameLevel
    ensures r.1.gameState.(coins := app.gameState.coins, currentLevel := app.gameState.currentLevel) == app.gameState
  {
    var cleared := q.(showCorrectAnswer := false, selected := None);
    if q.index < |q.questions| - 1 then (cleared.(index := q.index + 1), app)
    else CompleteQuiz(cleared, app)
  }

  // ---------------------------------------------------------------------
  // A whole quiz

  /** How many answers pick the right option of the question they answer. */
  function Score(questions: seq<QuizQuestion>, answers: seq<int>): (n: nat)
    requires |answers| <= |questions|
    ensures n <= |answers|
    decreases |answers|
  {
    if |answers| == 0 then 0
    else (if answers[0] == questions[0].correctOptionIndex then 1 else 0) + Score(questions[1..], answers[1..])
  }

  /** One answer as the screen gives it: the tap, then the delayed move on. */
  function Answer(q: QuizState, app: App.AppModel, option: int): (r: (QuizState, App.AppModel))
    ensures r.0.questions == q.questions
  {
    Proceed(SelectOption(q, option).0, app)
  }

  function AnswerAll(q: QuizState, app: App.AppModel, answers: seq<int>): (r: (QuizState, App.AppModel))
    decreases |answers|
  {
    if |answers| == 0 then (q, app)
    else
      var next := Answer(q, app, answers[0]);
      AnswerAll(next.0, next.1, answers[1..])
  }

  /** Answering every remaining question completes the quiz and pays the
      coins already earned plus 10 per right answer, once. */
  lemma {:induction false} AnswerAllPays(q: QuizState, app: App.AppModel, answers: seq<int>)
    requires q.selected.None? && q.index + |answers| == |q.questions| && |answers| > 0
    ensures var r := AnswerAll(q, app, answers);
      && r.0.completed
      && r.1.coins == app.coins + q.earned + 10 * Score(q.questions[q.index..], answers)
    decreases |answers|
  {
    var s := SelectOption(q, answers[0]).0;
    var next := Answer(q, app, answers[0]);
    var right := if answers[0] == q.questions[q.index].correctOptionIndex then 10 else 0;
    assert s.earned == q.earned + right;
    var rest := q.questions[q.index..];
    assert rest[0] == q.questions[q.index];
    assert rest[1..] == q.questions[q.index + 1..];
    assert Score(rest, answers) == right / 10 + Score(rest[1..], answers[1..]);
    if |answers| == 1 {
      assert next.1.coins == app.coins + q.earned + right;
      assert Score(rest[1..], answers[1..]) == 0;
    } else {
      assert next.0.index == q.index + 1 && next.1 == app;
      AnswerAllPays(next.0, next.1, answers[1..]);
    }
  }

  /** A fresh quiz answered three times is complete and pays 10 coins per
      right answer, so at most 30. */
  lemma FreshQuizPaysAtMostThirty(draws: seq<nat>, app: App.AppModel, answers: seq<int>)
    requires ValidDraws(|Bank|, draws) && |answers| == 3
    ensures var q := Reset(draws);
      var r := AnswerAll(q, app, answers);
      && r.0.completed
      && r.1.coins == app.coins + 10 * Score(q.questions, answers)
      && app.coins <= r.1.coins <= app.coins + 30
  {
    var q := Reset(draws);
    AnswerAllPays(q, app, answers);
    assert q.questions[0..] == q.questions;
  }

  /** Once an answer is recorded, a second tap changes nothing and
      schedules nothing. */
  lemma SecondSelectionIgnored(q: QuizState, first: int, second: int)
    ensures var once := SelectOption(q, first).0;
      SelectOption(once, second) == (once, false)
  {
  }
}

=== FILE: note_type.dfy ===
/** The falling-note variants of the arcade (`NoteType`): raw values, image
    names, colours, point values and the random pick that may exclude the
    treble key. */
module NoteTypes {
  import opened Common

  datatype NoteType = Key | Note1 | Note2 | Note3 | Note4 | Note5

  /** SwiftUI colours the cases are drawn in. */
  datatype Color = White | Red | Green | Blue | Yellow | Purple

  /** `NoteType.allCases`, in declaration order. */
  const AllCases: seq<NoteType> := [Key, Note1, Note2, Note3, Note4, Note5]

  /** Declared `Int` raw values: `key = 0` and the rest follow in order. */
  function RawValue(t: NoteType): (r: nat)
    ensures r < |AllCases| && AllCases[r] == t
    ensures r == 0 <==> t == Key
  {
    match t
    case Key => 0
    case Note1 => 1
    case Note2 => 2
    case Note3 => 3
    case Note4 => 4
    case Note5 => 5
  }

  /** `NoteType(rawValue:)`: nil for any integer that is not a declared raw value. */
  function FromRawValue(n: int): (r: Option<NoteType>)
    ensures r.Some? <==> 0 <= n < |AllCases|
    ensures r.Some? ==> RawValue(r.value) == n
  {
    if 0 <= n < |AllCases| then Some(AllCases[n]) else None
  }

  lemma RawValueRoundTrip(t: NoteType)
    ensures FromRawValue(RawValue(t)) == Some(t)
  {
  }

  lemma RawValuesDistinct()
    ensures NoDuplicates(AllCases)
    ensures forall t :: t in AllCases
  {
    forall t: NoteType ensures t in AllCases {
      assert AllCases[RawValue(t)] == t;
    }
  }

  /** `id` of the `Identifiable` conformance. */
  function Id(t: NoteType): (r: nat)
    ensures FromRawValue(r) == Some(t)
  {
    RawValue(t)
  }

  /** Asset names: the treble key is `"key"`, every other note is `"note"`
      followed by its raw value. */
  function ImageName(t: NoteType): (r: string)
    ensures t == Key <==> r == "key"
    ensures t != Key ==> r == "note" + NatToString(RawValue(t))
  {
    match t
    case Key => "key"
    case Note1 => "note1"
    case Note2 => "note2"
    case Note3 => "note3"
    case Note4 => "note4"
    case Note5 => "note5"
  }

  lemma ImageNameInjective(a: NoteType, b: NoteType)
    ensures ImageName(a) == ImageName(b) <==> a == b
  {
    if a != b {
      var na, nb := ImageName(a), ImageName(b);
      assert na != nb by {
        if |na| == |nb| { assert na[|na| - 1] != nb[|nb| - 1]; }
      }
    }
  }

  function ColorOf(t: NoteType): Color {
    match t
    case Key => White
    case Note1 => Red
    case Note2 => Green
    case Note3 => Blue
    case Note4 => Yellow
    case Note5 => Purple
  }

  lemma ColorInjective(a: NoteType, b: NoteType)
    ensures ColorOf(a) == ColorOf(b) <==> a == b
  {
  }

  /** Every note is worth one point. */
  function Points(t: NoteType): int {
    1
  }

  /** `allCases.filter { $0 != .key }`. */
  function WithoutKey(s: seq<NoteType>): (r: seq<NoteType>)
    ensures Key !in r
    ensures forall t :: t in r <==> t in s && t != Key
  {
    if |s| == 0 then []
    else (if s[0] == Key then [] else [s[0]]) + WithoutKey(s[1..])
  }

  /** The cases `random(excludingKey:)` draws from. */
  function Candidates(excludingKey: bool): (c: seq<NoteType>)
    ensures |c| > 0
    ensures forall t :: t in c <==> !excludingKey || t != Key
  {
    RawValuesDistinct();
    if excludingKey then WithoutKey(AllCases) else AllCases
  }

  lemma CandidatesSizes()
    ensures |Candidates(true)| == 5 && |Candidates(false)| == 6
  {
    assert Candidates(true) == [Note1, Note2, Note3, Note4, Note5];
  }

  /** `NoteType.random(excludingKey:)` with the drawn index `index` in
      `0..<cases.count` given explicitly. */
  function Random(excludingKey: bool, index: nat): (t: NoteType)
    requires index < |Candidates(excludingKey)|
    ensures excludingKey ==> t != Key
  {
    Candidates(excludingKey)[index]
  }

  /** Every case allowed by the policy is produced by some draw. */
  lemma RandomReachesEveryCandidate(excludingKey: bool, t: NoteType)
    requires !excludingKey || t != Key
    ensures exists i :: 0 <= i < |Candidates(excludingKey)| && Random(excludingKey, i) == t
  {
    var c := Candidates(excludingKey);
    assert t in c;
    var i :| 0 <= i < |c| && c[i] == t;
    assert Random(excludingKey, i) == t;
  }
}

=== FILE: sequence_game.dfy ===
/** The sequence-recall mini-game: its constants and image type
    (`SequenceGameConstants`, `SequenceImage`) and the view-model
    (`SequenceGameViewModel`). Each fire of the 1.5 s display timer is a
    separate event, the random image choices are given as indices into the
    image pool, and the stored high-water mark is a field of the state. */
module Sequence {
  import opened Common

  const InitialLength: int := 2

  const AvailableImages: seq<string> := [
    "img111", "img222", "img333", "img444",
    "img555", "img666", "img777", "img888"
  ]

  lemma AvailableImagesDistinct()
    ensures |AvailableImages| == 8 && NoDuplicates(AvailableImages)
  {
  }

  /** An image of the sequence. Swift compares two of them by image name
      only, so the name is all the model keeps. */
  datatype SequenceImage = SequenceImage(imageName: string)

  /** `SequenceImage.random()`, given the index it draws. */
  function RandomImage(draw: nat): (r: SequenceImage)
    requires draw < |AvailableImages|
    ensures r.imageName in AvailableImages
  {
    SequenceImage(AvailableImages[draw])
  }

  /** Every image of the pool can be drawn, and only those. */
  lemma RandomReachesEveryImage(name: string)
    ensures name in AvailableImages <==> exists d :: 0 <= d < |AvailableImages| && RandomImage(d).imageName == name
  {
    if name in AvailableImages {
      var d :| 0 <= d < |AvailableImages| && AvailableImages[d] == name;
      assert RandomImage(d).imageName == name;
    }
  }

  /** One draw per image, each an index into the pool. */
  predicate ImageDraws(length: int, draws: seq<nat>) {
    && |draws| == length
    && forall i :: 0 <= i < |draws| ==> draws[i] < |AvailableImages|
  }

  /** `generateSequence(length:)`: one random image per draw, in order. */
  function Generate(draws: seq<nat>): (r: seq<SequenceImage>)
    requires forall i :: 0 <= i < |draws| ==> draws[i] < |AvailableImages|
    ensures |r| == |draws|
    ensures forall i :: 0 <= i < |r| ==> r[i].imageName == AvailableImages[draws[i]]
  {
    if |draws| == 0 then []
    else Generate(draws[..|draws| - 1]) + [RandomImage(draws[|draws| - 1])]
  }

  // ---------------------------------------------------------------------
  // View-model

  datatype Phase = Showing | Playing | Success | GameOver

  /** `shown` is `currentShowingImage` and `showIndex` is
      `showingImageIndex`; `saved` is the stored maximum length. */
  datatype Game = Game(
    phase: Phase,
    sequence: seq<SequenceImage>,
    shown: Option<SequenceImage>,
    showIndex: nat,
    input: seq<SequenceImage>,
    maxLength: int,
    currentLength: int,
    saved: int)

  /** `showNextImageInSequence()`: show the image at the index, or end the
      display and accept input once the index has passed the last image. */
  function ShowNext(g: Game): (r: Game)
    ensures g.showIndex < |g.sequence| ==> r.shown == Some(g.sequence[g.showIndex]) && r.phase == g.phase
    ensures g.showIndex >= |g.sequence| ==> r.shown.None? && r.phase == Playing
    ensures r.(shown := g.shown, phase := g.phase) == g
  {
    if g.showIndex < |g.sequence| then g.(shown := Some(g.sequence[g.showIndex]))
    else g.(shown := None, phase := Playing)
  }

  /** `startNewGame()`: a fresh sequence of the current length, no input,
      and the display starting at the first image. */
  function StartNewGame(g: Game, draws: seq<nat>): (r: Game)
    requires ImageDraws(g.currentLength, draws)
    ensures |r.sequence| == g.currentLength
    ensures forall i :: 0 <= i < |r.sequence| ==> r.sequence[i].imageName == AvailableImages[draws[i]]
    ensures r.input == [] && r.showIndex == 0
    ensures g.currentLength > 0 ==> r.phase == Showing && r.shown == Some(r.sequence[0])
    ensures r.currentLength == g.currentLength && r.maxLength == g.maxLength && r.saved == g.saved
  {
    ShowNext(g.(sequence := Generate(draws), input := [], phase := Showing, showIndex := 0))
  }

  /** `init()`: both lengths start at the larger of the stored maximum and
      the initial length; a missing entry reads as 0. */
  function Init(saved: int, draws: seq<nat>): (r: Game)
    requires ImageDraws(Max(saved, InitialLength), draws)
    ensures r.currentLength == r.maxLength == Max(saved, InitialLength)
    ensures r.saved == saved
    ensures r.phase == Showing && r.input == [] && |r.sequence| == r.currentLength
  {
    var length := Max(saved, InitialLength);
    StartNewGame(Game(Showing, [], None, 0, [], length, length, saved), draws)
  }

  function Max(a: int, b: int): (r: int)
    ensures r >= a && r >= b && (r == a || r == b)
  {
    if a >= b then a else b
  }

  /** One fire of the display timer. The timer is armed exactly while an
      image is shown; a fire advances to the next image. */
  function ShowTick(g: Game): (r: Game)
    ensures g.shown.None? ==> r == g
    ensures g.shown.Some? ==> r.showIndex == g.showIndex + 1
    ensures g.shown.Some? && g.showIndex + 1 < |g.sequence| ==> r.shown == Some(g.sequence[g.showIndex + 1])
    ensures g.shown.Some? && g.showIndex + 1 >= |g.sequence| ==> r.shown.None? && r.phase == Playing
    ensures r.sequence == g.sequence && r.input == g.input && r.currentLength == g.currentLength
  {
    if g.shown.None? then g
    else ShowNext(g.(showIndex := g.showIndex + 1))
  }

  /** `selectImage(_:)`: ignored unless playing; otherwise the tap is
      recorded, a wrong image ends the round and the last right one wins it. */
  function SelectImage(g: Game, image: SequenceImage): (r: Game)
    ensures g.phase != Playing ==> r == g
    ensures g.phase == Playing ==> r.input == g.input + [image]
    ensures g.phase == Playing ==>
      (r.phase == GameOver <==>
        |g.input| >= |g.sequence| || image.imageName != g.sequence[|g.input|].imageName)
    ensures g.phase == Playing && r.phase != GameOver ==>
      (r.phase == Success <==> |g.input| + 1 == |g.sequence|)
    ensures r.(phase := g.phase, input := g.input) == g
  {
    if g.phase != Playing then g
    else
      var input := g.input + [image];
      var k := |input| - 1;
      if k < |g.sequence| && input[k].imageName == g.sequence[k].imageName then
        g.(input := input, phase := if |input| == |g.sequence| then Success else Playing)
      else g.(input := input, phase := GameOver)
  }

  /** `nextRound()`: one image longer; a new maximum is stored at once. */
  function NextRound(g: Game, draws: seq<nat>): (r: Game)
    requires ImageDraws(g.currentLength + 1, draws)
    ensures r.currentLength == g.currentLength + 1
    ensures r.maxLength == Max(g.maxLength, g.currentLength + 1)
    ensures r.saved == (if g.currentLength + 1 > g.maxLength then g.currentLength + 1 else g.saved)
    ensures |r.sequence| == r.currentLength && r.input == []
  {
    var length := g.currentLength + 1;
    var raised := if length > g.maxLength then g.(currentLength := length, maxLength := length, saved := length)
                  else g.(currentLength := length);
    StartNewGame(raised, draws)
  }

  /** `restartAfterGameOver()`: one image shorter, never below the initial length. */
  function RestartAfterGameOver(g: Game, draws: seq<nat>): (r: Game)
    requires ImageDraws(Max(g.currentLength - 1, InitialLength), draws)
    ensures r.currentLength == Max(g.currentLength - 1, InitialLength)
    ensures r.maxLength == g.maxLength && r.saved == g.saved
    ensures |r.sequence| == r.currentLength && r.input == []
  {
    StartNewGame(g.(currentLength := Max(g.currentLength - 1, InitialLength)), draws)
  }

  // ---------------------------------------------------------------------
  // Invariant

  /** The taps so far agree, image by image, with the start of the sequence. */
  predicate Matches(input: seq<SequenceImage>, sequence: seq<SequenceImage>) {
    && |input| <= |sequence|
    && forall i :: 0 <= i < |input| ==> input[i].imageName == sequence[i].imageName
  }

  /** The lengths: at least the initial length, the current one within the
      maximum, and the stored value never above the maximum. */
  predicate LengthsValid(g: Game) {
    && InitialLength <= g.currentLength <= g.maxLength
    && g.saved <= g.maxLength
  }

  /** The display: one image at a time, in order, while showing; the whole
      sequence shown once showing is over. */
  predicate DisplayValid(g: Game) {
    && g.showIndex <= |g.sequence|
    && (g.phase == Showing <==> g.shown.Some?)
    && (g.shown.Some? ==> g.showIndex < |g.sequence| && g.shown.value == g.sequence[g.showIndex])
    && (g.phase != Showing ==> g.showIndex == |g.sequence|)
  }

  /** The taps: none while showing, a matching prefix while playing, the
      whole sequence after a success, and a last wrong tap after a game over. */
  predicate InputValid(g: Game) {
    && (g.phase == Showing ==> g.input == [])
    && (g.phase == Playing ==> Matches(g.input, g.sequence) && |g.input| < |g.sequence|)
    && (g.phase == Success ==> Matches(g.input, g.sequence) && |g.input| == |g.sequence|)
    && (g.phase == GameOver ==>
          && 0 < |g.input| <= |g.sequence|
          && Matches(g.input[..|g.input| - 1], g.sequence)
          && g.input[|g.input| - 1].imageName != g.sequence[|g.input| - 1].imageName)
  }

  predicate Valid(g: Game) {
    && LengthsValid(g)
    && |g.sequence| == g.currentLength
    && DisplayValid(g)
    && InputValid(g)
  }

  lemma StartNewGameValid(g: Game, draws: seq<nat>)
    requires LengthsValid(g) && ImageDraws(g.currentLength, draws)
    ensures Valid(StartNewGame(g, draws))
  {
  }

  /** A new view-model is valid, whatever was stored. */
  lemma InitValid(saved: int, draws: seq<nat>)
    requires ImageDraws(Max(saved, InitialLength), draws)
    ensures Valid(Init(saved, draws))
  {
    var length := Max(saved, InitialLength);
    StartNewGameValid(Game(Showing, [], None, 0, [], length, length, saved), draws);
  }

  lemma ShowTickPreservesValid(g: Game)
    requires Valid(g)
    ensures Valid(ShowTick(g))
  {
  }

  lemma SelectImagePreservesValid(g: Game, image: SequenceImage)
    requires Valid(g)
    ensures Valid(SelectImage(g, image))
  {
    if g.phase == Playing {
      var r := SelectImage(g, image);
      assert r.input[..|r.input| - 1] == g.input;
    }
  }

  /** The next round keeps the lengths valid; after a new maximum the stored
      value is that maximum. */
  lemma NextRoundPreservesValid(g: Game, draws: seq<nat>)
    requires Valid(g) && ImageDraws(g.currentLength + 1, draws)
    ensures Valid(NextRound(g, draws))
    ensures g.currentLength == g.maxLength ==> NextRound(g, draws).saved == NextRound(g, draws).maxLength
  {
    var length := g.currentLength + 1;
    var raised := if length > g.maxLength then g.(currentLength := length, maxLength := length, saved := length)
                  else g.(currentLength := length);
    StartNewGameValid(raised, draws);
  }

  lemma RestartPreservesValid(g: Game, draws: seq<nat>)
    requires Valid(g) && ImageDraws(Max(g.currentLength - 1, InitialLength), draws)
    ensures Valid(RestartAfterGameOver(g, draws))
  {
    StartNewGameValid(g.(currentLength := Max(g.currentLength - 1, InitialLength)), draws);
  }

  /** A lost retry after a won round plays the same length again. */
  lemma RestartUndoesNextRound(g: Game, d1: seq<nat>, d2: seq<nat>)
    requires Valid(g) && ImageDraws(g.currentLength + 1, d1)
    requires ImageDraws(g.currentLength, d2)
    ensures RestartAfterGameOver(NextRound(g, d1), d2).currentLength == g.currentLength
    ensures RestartAfterGameOver(NextRound(g, d1), d2).maxLength >= g.maxLength
  {
  }

  // ---------------------------------------------------------------------
  // Runs

  /** `n` fires of the display timer. */
  function ShowTicks(g: Game, n: nat): (r: Game)
    ensures r.sequence == g.sequence && r.input == g.input
    decreases n
  {
    if n == 0 then g else ShowTicks(ShowTick(g), n - 1)
  }

  /** While showing, the k-th fire shows image k of those left; once every
      image has had its fire, the display is over and input is accepted. */
  lemma {:induction false} ShowingStepsThroughSequence(g: Game, k: nat)
    requires Valid(g) && g.phase == Showing
    ensures var r := ShowTicks(g, k);
      && (g.showIndex + k < |g.sequence| ==> r.phase == Showing && r.shown == Some(g.sequence[g.showIndex + k]))
      && (g.showIndex + k >= |g.sequence| ==> r.phase == Playing && r.shown.None? && r.input == [])
      && Valid(r)
    decreases k
  {
    if k > 0 {
      var t := ShowTick(g);
      ShowTickPreservesValid(g);
      if t.phase == Showing {
        ShowingStepsThroughSequence(t, k - 1);
      } else {
        ShowTicksWhenNotShowing(t, k - 1);
      }
    }
  }

  /** With nothing shown, timer fires change nothing. */
  lemma {:induction false} ShowTicksWhenNotShowing(g: Game, n: nat)
    requires Valid(g) && g.phase != Showing
    ensures ShowTicks(g, n) == g
    decreases n
  {
    if n > 0 {
      ShowTicksWhenNotShowing(ShowTick(g), n - 1);
    }
  }

  /** The taps in order. */
  function SelectAll(g: Game, taps: seq<SequenceImage>): (r: Game)
    ensures r.sequence == g.sequence
    decreases |taps|
  {
    if |taps| == 0 then g else SelectAll(SelectImage(g, taps[0]), taps[1..])
  }

  /** Outside play, taps do nothing. */
  lemma {:induction false} SelectAllWhenNotPlaying(g: Game, taps: seq<SequenceImage>)
    requires g.phase != Playing
    ensures SelectAll(g, taps) == g
    decreases |taps|
  {
    if |taps| > 0 {
      SelectAllWhenNotPlaying(SelectImage(g, taps[0]), taps[1..]);
    }
  }

  /** Tapping the rest of the sequence in order wins the round. */
  lemma {:induction false} CorrectInputSucceeds(g: Game, taps: seq<SequenceImage>)
    requires Valid(g) && g.phase == Playing
    requires g.input + taps == g.sequence
    ensures SelectAll(g, taps).phase == Success
    ensures SelectAll(g, taps).input == g.sequence
    decreases |taps|
  {
    var t := SelectImage(g, taps[0]);
    assert g.sequence[|g.input|] == taps[0];
    assert t.input + taps[1..] == g.sequence;
    SelectImagePreservesValid(g, taps[0]);
    if |taps| > 1 {
      assert t.phase == Playing;
      CorrectInputSucceeds(t, taps[1..]);
    } else {
      assert t.phase == Success;
      SelectAllWhenNotPlaying(t, taps[1..]);
    }
  }

  /** The first wrong tap ends the round there, whatever follows it. */
  lemma {:induction false} WrongTapEndsRound(g: Game, taps: seq<SequenceImage>, i: nat)
    requires Valid(g) && g.phase == Playing
    requires i < |taps| && |g.input| + i < |g.sequence|
    requires forall j :: 0 <= j < i ==> taps[j] == g.sequence[|g.input| + j]
    requires taps[i] != g.sequence[|g.input| + i]
    ensures SelectAll(g, taps).phase == GameOver
    ensures SelectAll(g, taps).input == g.input + taps[..i + 1]
    decreases i
  {
    var t := SelectImage(g, taps[0]);
    SelectImagePreservesValid(g, taps[0]);
    if i == 0 {
      assert taps[0].imageName != g.sequence[|g.input|].imageName;
      assert t.phase == GameOver && t.input == g.input + [taps[0]];
      SelectAllWhenNotPlaying(t, taps[1..]);
      assert SelectAll(g, taps) == t;
      assert taps[..1] == [taps[0]];
    } else {
      assert taps[0] == g.sequence[|g.input|];
      assert t.phase == Playing;
      forall j | 0 <= j < i - 1
        ensures taps[1..][j] == t.sequence[|t.input| + j]
      {
        assert taps[1..][j] == taps[j + 1];
      }
      WrongTapEndsRound(t, taps[1..], i - 1);
      assert g.input + taps[..i + 1] == t.input + taps[1..][..i];
    }
  }

  /** A round of length 2 showing [img111, img222]: tapping img111 then
      img333 loses at the second tap. */
  lemma WrongSecondTapScenario()
    ensures var g := ShowTicks(Init(0, [0, 1]), 2);
      && g.phase == Playing
      && g.sequence == [SequenceImage("img111"), SequenceImage("img222")]
      && SelectAll(g, [SequenceImage("img111"), SequenceImage("img333")]).phase == GameOver
  {
    var g0 := Init(0, [0, 1]);
    InitValid(0, [0, 1]);
    ShowingStepsThroughSequence(g0, 2);
    var g := ShowTicks(g0, 2);
    assert g.sequence == [SequenceImage("img111"), SequenceImage("img222")];
    var taps := [SequenceImage("img111"), SequenceImage("img333")];
    WrongTapEndsRound(g, taps, 1);
  }
}

=== FILE: shop.dfy ===
/** The shop: the instrument and background catalogs (`InstrumentItem`,
    `BackgroundItem`), ownership and selection (`ShopViewModel`) and the
    buy/use button of one catalog entry (`ShopItemView`). */
module Shop {
  import opened Common
  import opened Progress
  import opened App

  /** An instrument or a background; both kinds carry the same fields. */
  datatype Item = Item(id: string, name: string, imageName: string, price: int)

  /** Items are equal when their ids are. */
  predicate SameItem(a: Item, b: Item) {
    a.id == b.id
  }

  datatype Kind = Instrument | Background

  const Instruments: seq<Item> := [
    Item("guitar", "Guitar", "guitar", 0),
    Item("saxophone", "Saxophone", "saxophone", 100),
    Item("piano", "Piano", "piano", 100),
    Item("trumpet", "Trumpet", "trumpet", 100)
  ]

  const Backgrounds: seq<Item> := [
    Item("bg2", "Stage", "bg2", 100),
    Item("bg3", "Concert", "bg3", 100),
    Item("bg4", "Studio", "bg4", 100)
  ]

  function Catalog(k: Kind): seq<Item> {
    match k
    case Instrument => Instruments
    case Background => Backgrounds
  }

  /** The item of each kind that every profile owns. */
  function FreeItemId(k: Kind): string {
    match k
    case Instrument => "guitar"
    case Background => "bg2"
  }

  function ItemIds(s: seq<Item>): seq<string> {
    Map(s, (it: Item) => it.id)
  }

  /** The catalog ids are pairwise distinct within each kind. */
  lemma IdsDistinct()
    ensures NoDuplicates(["guitar", "saxophone", "piano", "trumpet"])
    ensures NoDuplicates(["bg2", "bg3", "bg4"])
  {
  }

  lemma CatalogsShape()
    ensures NoDuplicates(ItemIds(Instruments)) && NoDuplicates(ItemIds(Backgrounds))
    ensures Instruments[0].id == "guitar" && Instruments[0].price == 0
    ensures forall i :: 1 <= i < |Instruments| ==> Instruments[i].price == 100
    ensures forall i :: 0 <= i < |Backgrounds| ==> Backgrounds[i].price == 100
    ensures Backgrounds[0].id == "bg2"
  {
    assert ItemIds(Instruments) == ["guitar", "saxophone", "piano", "trumpet"];
    assert ItemIds(Backgrounds) == ["bg2", "bg3", "bg4"];
    IdsDistinct();
  }

  /** Within a catalog, two entries are equal by id exactly when they are the same entry. */
  lemma SameItemInCatalog(k: Kind, i: nat, j: nat)
    requires i < |Catalog(k)| && j < |Catalog(k)|
    ensures SameItem(Catalog(k)[i], Catalog(k)[j]) <==> i == j
  {
    CatalogsShape();
    assert ItemIds(Catalog(k))[i] == Catalog(k)[i].id && ItemIds(Catalog(k))[j] == Catalog(k)[j].id;
  }

  /** `first(where: { $0.id == id })`. */
  function FindItem(s: seq<Item>, id: string): (r: Option<Item>)
    ensures r.Some? ==> r.value in s && r.value.id == id
    ensures r.None? <==> forall i :: 0 <= i < |s| ==> s[i].id != id
  {
    if |s| == 0 then None
    else if s[0].id == id then Some(s[0])
    else
      var r := FindItem(s[1..], id);
      assert forall j :: 1 <= j < |s| ==> s[j] == s[1..][j - 1];
      r
  }

  /** `getInstrument(id:)` / `getBackground(id:)`: the matching entry, else
      the first of the catalog (the free one). */
  function GetItem(k: Kind, id: string): (r: Item)
    ensures r in Catalog(k)
    ensures id in ItemIds(Catalog(k)) ==> r.id == id
    ensures id !in ItemIds(Catalog(k)) ==> r == Catalog(k)[0] && r.id == FreeItemId(k)
  {
    match FindItem(Catalog(k), id)
    case Some(item) => item
    case None => Catalog(k)[0]
  }

  /** `isInstrumentPurchased(_:)` / `isBackgroundPurchased(_:)`: the free
      item always counts; anything else must be in `purchasedThemes`. */
  predicate IsPurchased(g: GameState, k: Kind, id: string) {
    id == FreeItemId(k) || id in g.purchasedThemes
  }

  function CurrentId(g: GameState, k: Kind): string {
    match k
    case Instrument => g.currentInstrumentId
    case Background => g.currentBackgroundId
  }

  /** `isInstrumentSelected(_:)` / `isBackgroundSelected(_:)`. */
  predicate IsSelected(g: GameState, k: Kind, id: string) {
    CurrentId(g, k) == id
  }

  function OwnedList(g: GameState, k: Kind): seq<string> {
    match k
    case Instrument => g.purchasedInstruments
    case Background => g.purchasedBackgrounds
  }

  /** `selectInstrument(_:)` / `selectBackground(_:)`. */
  function Select(app: AppModel, k: Kind, id: string): (r: AppModel)
    ensures !IsPurchased(app.gameState, k, id) ==> r == app
    ensures IsPurchased(app.gameState, k, id) ==> IsSelected(r.gameState, k, id) && Synced(r)
    ensures r.coins == app.coins
    ensures r.gameState.purchasedThemes == app.gameState.purchasedThemes
    ensures OwnedList(r.gameState, k) == OwnedList(app.gameState, k)
    ensures k == Instrument ==> r.gameState.currentBackgroundId == app.gameState.currentBackgroundId
    ensures k == Background ==> r.gameState.currentInstrumentId == app.gameState.currentInstrumentId
    ensures r.gameLevel == app.gameLevel && OnlyKindChanged(app.gameState, r.gameState, k)
  {
    if !IsPurchased(app.gameState, k, id) then app
    else
      var g := match k
        case Instrument => app.gameState.(currentInstrumentId := id)
        case Background => app.gameState.(currentBackgroundId := id);
      Save(app.(gameState := g))
  }

  /** `b` differs from `a` at most in the balance and level the save
      mirrors, the shared ownership list, and the owned list and current
      item of kind `k`. */
  predicate OnlyKindChanged(a: GameState, b: GameState, k: Kind) {
    match k
    case Instrument =>
      b.(coins := a.coins, currentLevel := a.currentLevel, purchasedThemes := a.purchasedThemes,
         purchasedInstruments := a.purchasedInstruments, currentInstrumentId := a.currentInstrumentId) == a
    case Background =>
      b.(coins := a.coins, currentLevel := a.currentLevel, purchasedThemes := a.purchasedThemes,
         purchasedBackgrounds := a.purchasedBackgrounds, currentBackgroundId := a.currentBackgroundId) == a
  }

  /** `purchaseInstrument(_:)` / `purchaseBackground(_:)`: for a catalogued
      item the balance covers, pay its price, record ownership once in both
      lists, then select it. */
  function Purchase(app: AppModel, k: Kind, id: string): (r: AppModel)
    ensures FindItem(Catalog(k), id).None? ==> r == app
    ensures FindItem(Catalog(k), id).Some? && app.coins < FindItem(Catalog(k), id).value.price ==> r == app
    ensures FindItem(Catalog(k), id).Some? && app.coins >= FindItem(Catalog(k), id).value.price ==>
      && r.coins == app.coins - FindItem(Catalog(k), id).value.price
      && r.coins >= 0
      && IsPurchased(r.gameState, k, id)
      && IsSelected(r.gameState, k, id)
      && id in r.gameState.purchasedThemes && id in OwnedList(r.gameState, k)
      && (forall x :: x in r.gameState.purchasedThemes <==> x in app.gameState.purchasedThemes || x == id)
      && (forall x :: x in OwnedList(r.gameState, k) <==> x in OwnedList(app.gameState, k) || x == id)
      && Synced(r)
    ensures r.gameLevel == app.gameLevel && OnlyKindChanged(app.gameState, r.gameState, k)
    ensures NoDuplicates(app.gameState.purchasedThemes) ==> NoDuplicates(r.gameState.purchasedThemes)
    ensures NoDuplicates(OwnedList(app.gameState, k)) ==> NoDuplicates(OwnedList(r.gameState, k))
  {
    CatalogsShape();
    match FindItem(Catalog(k), id)
    case None => app
    case Some(item) =>
      if app.coins < item.price then app
      else
        var paid := AddCoins(app, -item.price);
        var themes := AppendIfAbsent(paid.gameState.purchasedThemes, id);
        var g := match k
          case Instrument =>
            paid.gameState.(purchasedThemes := themes,
                            purchasedInstruments := AppendIfAbsent(paid.gameState.purchasedInstruments, id))
          case Background =>
            paid.gameState.(purchasedThemes := themes,
                            purchasedBackgrounds := AppendIfAbsent(paid.gameState.purchasedBackgrounds, id));
        Select(Save(paid.(gameState := g)), k, id)
  }

  /** Buying what is already owned charges the price again but adds no entry. */
  lemma RepurchaseAddsNothing(app: AppModel, k: Kind, id: string)
    requires id in app.gameState.purchasedThemes && id in OwnedList(app.gameState, k)
    ensures Purchase(app, k, id).gameState.purchasedThemes == app.gameState.purchasedThemes
    ensures OwnedList(Purchase(app, k, id).gameState, k) == OwnedList(app.gameState, k)
  {
  }

  // ---------------------------------------------------------------------
  // The item button

  /** Which callback one tap of the button runs. */
  datatype Tap = CallsNothing | CallsSelect | CallsBuy

  /** The button action of `ShopItemView`. */
  function TapAction(isPurchased: bool, isSelected: bool, canAfford: bool): (r: Tap)
    ensures r == CallsSelect <==> isPurchased && !isSelected
    ensures r == CallsBuy <==> !isPurchased && canAfford
  {
    if isPurchased then (if !isSelected then CallsSelect else CallsNothing)
    else if canAfford then CallsBuy
    else CallsNothing
  }

  /** The button's `disabled` modifier: disabled exactly when a tap would
      call nothing. */
  predicate ButtonDisabled(isPurchased: bool, isSelected: bool, canAfford: bool)
    ensures ButtonDisabled(isPurchased, isSelected, canAfford)
        <==> TapAction(isPurchased, isSelected, canAfford) == CallsNothing
  {
    (isPurchased && isSelected) || (!isPurchased && !canAfford)
  }

  /** What a tap on a catalog entry does to the app, with the flags the shop
      screen passes (`canAfford` is `coins >= price`): a disabled button
      changes nothing, an enabled one on a catalog entry leaves it selected,
      and no tap raises the balance or touches the other kind. */
  function TapItem(app: AppModel, k: Kind, item: Item): (r: AppModel)
    ensures var disabled := ButtonDisabled(IsPurchased(app.gameState, k, item.id),
                                           IsSelected(app.gameState, k, item.id), app.coins >= item.price);
            && (disabled ==> r == app)
            && (item in Catalog(k) && !disabled ==> IsSelected(r.gameState, k, item.id))
    ensures r.coins <= app.coins
    ensures r.gameLevel == app.gameLevel && OnlyKindChanged(app.gameState, r.gameState, k)
  {
    var g := app.gameState;
    match TapAction(IsPurchased(g, k, item.id), IsSelected(g, k, item.id), app.coins >= item.price)
    case CallsNothing => app
    case CallsSelect => Select(app, k, item.id)
    case CallsBuy =>
      FindMember(k, item);
      PricesNonNegative(k);
      Purchase(app, k, item.id)
  }

  /** No catalog entry has a negative price. */
  lemma PricesNonNegative(k: Kind)
    ensures forall it :: it in Catalog(k) ==> it.price >= 0
  {
  }

  /** Looking up the id of a catalog entry finds that entry. */
  lemma FindMember(k: Kind, item: Item)
    ensures item in Catalog(k) ==> FindItem(Catalog(k), item.id) == Some(item)
  {
    if item in Catalog(k) {
      var i :| 0 <= i < |Catalog(k)| && Catalog(k)[i] == item;
      FindCatalogued(k, i);
    }
  }

  /** Looking up a catalogued id finds that very entry. */
  lemma FindCatalogued(k: Kind, i: nat)
    requires i < |Catalog(k)|
    ensures FindItem(Catalog(k), Catalog(k)[i].id) == Some(Catalog(k)[i])
  {
    CatalogsShape();
    var f := FindItem(Catalog(k), Catalog(k)[i].id);
    var j :| 0 <= j < |Catalog(k)| && Catalog(k)[j] == f.value;
    assert ItemIds(Catalog(k))[j] == ItemIds(Catalog(k))[i];
  }

  /** A tap on a catalog entry leaves it selected whenever the button was
      enabled, and a purchase never overdraws the balance. */
  lemma TapSelects(app: AppModel, k: Kind, i: nat)
    requires i < |Catalog(k)|
    requires !ButtonDisabled(IsPurchased(app.gameState, k, Catalog(k)[i].id),
                             IsSelected(app.gameState, k, Catalog(k)[i].id),
                             app.coins >= Catalog(k)[i].price)
    ensures IsSelected(TapItem(app, k, Catalog(k)[i]).gameState, k, Catalog(k)[i].id)
    ensures TapItem(app, k, Catalog(k)[i]).coins >= 0 || app.coins < 0
  {
    var item := Catalog(k)[i];
    FindCatalogued(k, i);
    if !IsPurchased(app.gameState, k, item.id) {
      assert TapItem(app, k, item) == Purchase(app, k, item.id);
    } else {
      assert TapItem(app, k, item) == Select(app, k, item.id);
    }
  }
}
